=== FILE: README.md ===
# Marketplace front-end: decision and shaping rules

This project models, in Dafny, the logic under the pages of a React
marketplace front-end. Users sign up, verify a one-time passcode (OTP), post
rental ads for streaming and storage platforms, and view ads with the
seller's contact details. Administrators sign in with their own session,
verify their own passcode, and page through the ads and categories.

Under the JSX and the `fetch` calls sit small, deterministic rules:

- which part of a loosely shaped response is the ad, the seller or the list;
- how pagination is derived and clamped;
- how the two sessions (user and administrator) are kept in memory and in
  `localStorage`;
- which routes need which session;
- the order in which a form checks its input;
- which message a failure shows.

Each rule is a total function over a small JavaScript-value datatype,
`Json.Json`. It has `undefined`, `null`, booleans, integers, strings, arrays
and objects. Beside it are the JavaScript operators the pages use:
truthiness, `||`, `??`, optional member access, `String(...)`, and the
`JSON.stringify`/`JSON.parse` round trip.

Modules follow the source files:

| module | source |
|---|---|
| `Optional`, `Text`, `Json` | the runtime: `Option`; `trim`, `\D`, decimal rendering and the comparison of a numeral with one; JavaScript values and operators |
| `Uri` | `encodeURIComponent` (section 19.2.6.5 of the ECMAScript language specification), with a decoder that shows it is lossless |
| `PlatformKeys`, `AdPresentation` | src/utils/adPresentation.ts: label normalisation, then the lookups and formatters |
| `ViewAd` | src/pages/ViewAd.tsx |
| `AuthContext` | src/context/AuthContext.tsx, both providers over one store |
| `AppRoutes` | src/routes/AppRoutes.tsx |
| `ListPaging` | the list, pagination and pager code that AdminAds.tsx and AdminCategories.tsx each spell out |
| `AdminAds`, `AdminCategories` | the two admin list pages |
| `PostAd` | src/pages/PostAd.tsx |
| `Failures` | the failed-response reading shared by OtpVerification.tsx and AdminLogin.tsx |
| `OtpVerification`, `AdminOtpVerification`, `AdminLogin`, `Signup` | the four sign-in pages |

Every response, every storage read and every piece of navigation state is an
input value. Numbers are integers.

Several pages navigate to paths that src/routes/AppRoutes.tsx does not list:
`/verify-otp`, `/admin/verify-otp`, `/ads`, `/admin/register` and
`/admin/forgot`. With that table the router answers each of them with its
catch-all redirect to `/` (`Signup.VerifyPathIsNotRouted`). The model records
this but does not guess at the missing routes.

## Model

| member | source | states |
|---|---|---|
| Text.Digits | src/pages/OtpVerification.tsx:46 | removing non-digits leaves only digits, never lengthens the text, and leaves it unchanged only when it had no other characters |
| Text.DigitsKeepsDigitStrings | src/pages/OtpVerification.tsx:46 | a string of digits passes the filter unchanged |
| Text.DigitsAppend | src/pages/OtpVerification.tsx:46 | the filter works character by character: filtering a concatenation concatenates the filtered parts |
| Text.TrimSpec | src/pages/ViewAd.tsx:72-74 | `trim` returns a contiguous slice with no white space at either end, and drops only white space |
| Text.TrimIdempotent | src/pages/ViewAd.tsx:74 | trimming twice is trimming once |
| Text.TrimPadded | src/pages/ViewAd.tsx:74 | a trimmed string with one space added on either side trims back to itself |
| Text.Decimal | src/utils/adPresentation.ts:51 | `String(n)` for an integer: digits after an optional minus sign, which appears exactly for negatives, and no leading zero except the numeral "0" itself |
| Text.DecimalRoundTrip | src/utils/adPresentation.ts:51 | the decimal rendering of an integer parses back to that integer |
| Text.IndexOf | src/pages/admin/AdminAds.tsx:156 | the first position of a character, absent exactly when the character does not occur |
| Text.DecimalAboveOne | src/pages/admin/AdminAds.tsx:156 | the decimal text of an integer is above one, as JavaScript converts it, exactly when the integer is |
| Text.OnePointFractionAboveOne | src/pages/admin/AdminAds.tsx:156 | "1." followed by digits is above one exactly when some digit is non-zero |
| Json.Roundtrip | src/context/AuthContext.tsx:38-50 | what `JSON.parse(JSON.stringify(v))` returns contains no `undefined` |
| Json.RoundtripKeepsJsonable | src/context/AuthContext.tsx:38-50 | a value without `undefined` inside survives the stringify/parse round trip unchanged |
| Json.RoundtripIdempotent | src/context/AuthContext.tsx:38-50 | storing an already stored value again changes nothing |
| Uri.EncodeURIComponent | src/pages/PostAd.tsx:188-190 | the encoded id holds only unreserved characters and `%XY` escapes (no `/`, `?` or `#`), and unreserved text is left as it is |
| Uri.Utf8RoundTrip | src/pages/PostAd.tsx:189 | the UTF-8 bytes of any character decode back to it |
| Uri.EncodeDecodeRoundTrip | src/pages/PostAd.tsx:189 | decoding an encoded id gives back the id, so distinct ids give distinct URLs |
| Uri.EncodedIsOneSegment | src/pages/PostAd.tsx:188-190 | an encoded id holds no `/`, `?` or `#`, so it stays one path segment |
| PlatformKeys.KeyOf | src/utils/adPresentation.ts:35 | a normalised key holds only `[a-z0-9]` and is no longer than the label |
| AdPresentation.NormalizePlatformKey | src/utils/adPresentation.ts:34-36 | a key holds only `[a-z0-9]`; an absent label gives the empty key |
| PlatformKeys.KeyOfAppend | src/utils/adPresentation.ts:35 | normalising a concatenation is concatenating the normalised parts |
| PlatformKeys.KeyOfSkips | src/utils/adPresentation.ts:35 | a character outside `[a-z0-9]` after lower-casing is dropped wherever it stands |
| PlatformKeys.KeyOfFixesKeys | src/utils/adPresentation.ts:35 | a string that is already a key normalises to itself |
| AdPresentation.NormalizeIdempotent | src/utils/adPresentation.ts:35 | normalising a key again returns it unchanged |
| AdPresentation.ResolvePlatformImage | src/utils/adPresentation.ts:17-42 | a logo is found exactly when the normalised key is one of the table's own keys, and it is that key's logo; so no logo for an empty or unknown key |
| AdPresentation.SameKeySameLogo | src/utils/adPresentation.ts:38-42 | labels with the same key find the same logo, whether bare or wrapped in `{platform}` |
| AdPresentation.NetflixSpellings | src/utils/adPresentation.ts:27-42 | "etflix" after any letter that lower-cases to "n", "net" and "flix" split by any character outside `[a-z0-9]`, and `{platform: "netflix"}` all find the Netflix logo |
| AdPresentation.TableFacts | src/utils/adPresentation.ts:17-42 | both Amazon Prime keys share one logo; a missing label or a label with no key characters has none |
| AdPresentation.ResolvePlatformImageAsWritten | src/utils/adPresentation.ts:38-42 | indexing the table as a plain object also reaches inherited members, exactly for the key "constructor" |
| AdPresentation.ConstructorLabelEscapesTable | src/utils/adPresentation.ts:41 | "onstructor" after any letter that lower-cases to "c" (so "Constructor" and "constructor") reaches `Object.prototype.constructor` as written, and find no logo by own-key lookup |
| AdPresentation.AsWrittenAgreesElsewhere | src/utils/adPresentation.ts:38-42 | for every other label the lookup as written and the own-key lookup agree |
| AdPresentation.FormatPlatform | src/utils/adPresentation.ts:44-47 | the dash for an absent platform or an empty label; any other label unchanged; a record's `platform`, or the dash when that is missing |
| AdPresentation.FormatDuration | src/utils/adPresentation.ts:49-52 | the dash when the duration, its value (or a zero value) or its unit (or an empty unit) is missing |
| AdPresentation.FormatDurationRoundTrip | src/utils/adPresentation.ts:51 | the text is `String(value)`, a space, and the unit with an "s" exactly when the value exceeds one, so the value and the unit can always be read back from it |
| AdPresentation.DurationExamples | src/utils/adPresentation.ts:50-51 | "1 day", "3 days", and the dash for a zero value or an empty unit |
| ViewAd.PickAdFromPayload | src/pages/ViewAd.tsx:19-38 | `null` for anything but an object; otherwise an object-valued `data`, else an object-valued `ad`, else the payload; never an array |
| ViewAd.PickAdRecoversWrappedAd | src/pages/ViewAd.tsx:23-37 | an ad comes back out of `{data: ad}`, out of `{ad: ad}`, and bare |
| ViewAd.PickAdSkipsArrays | src/pages/ViewAd.tsx:20-37 | top-level arrays and `null` give no ad; array- or null-valued `data`/`ad` are passed over |
| ViewAd.ToRecord | src/pages/ViewAd.tsx:40-43 | a record exactly for non-array objects, and then it is the object's own members |
| ViewAd.FirstStringAt | src/pages/ViewAd.tsx:78-94 | finds the first key in priority order whose member is a string, and none exactly when no member is |
| ViewAd.FirstStringCons | src/pages/ViewAd.tsx:78-94 | the first key decides when its member is a string; otherwise the search goes on with the rest |
| ViewAd.NameOf | src/pages/ViewAd.tsx:65-77 | a string `name` wins, then a string `fullName`; otherwise the name built from the parts is non-empty and trimmed, and with no string part at all there is no name (the exact value for every combination of parts is `ViewAd.NameFromParts`) |
| ViewAd.EmailOf | src/pages/ViewAd.tsx:78-83 | a string `email` wins; otherwise a string `mail`, else nothing |
| ViewAd.MobileOf | src/pages/ViewAd.tsx:85-94 | a string `mobile`, else `phone`, else `phoneNumber`, else `contactNumber`, else nothing |
| ViewAd.SellerCandidates | src/pages/ViewAd.tsx:50-62 | one to six records ending with the payload; an object `data.poster` comes first and an object `data` just before the payload; when all are objects the order is `data.poster`, `poster`, `details`, `user`, `data`, payload, and without `data` it is `poster`, `details`, `user`, payload; with no object `data`, `poster`, `details` or `user` the payload is the only candidate |
| ViewAd.CandidateSlots | src/pages/ViewAd.tsx:49-62 | for every payload, the candidates are, in this order, `data.poster`, `poster`, `details`, `user` and `data` where each is an object (each missing or non-object one dropped), then the payload |
| ViewAd.PickedAt | src/pages/ViewAd.tsx:55-62 | the first qualifying candidate is the one picked |
| ViewAd.TopPosterBeatsDetailsAndUser | src/pages/ViewAd.tsx:55-62 | unless `data.poster` qualifies, a qualifying top-level `poster` is picked whatever `details`, `user` and `data` hold |
| ViewAd.DetailsBeatsUser | src/pages/ViewAd.tsx:55-62 | unless a poster qualifies, a qualifying `details` is picked whatever `user` and `data` hold |
| ViewAd.UserBeatsData | src/pages/ViewAd.tsx:55-62 | unless a poster or `details` qualifies, a qualifying `user` is picked ahead of `data` and the payload |
| ViewAd.DataBeatsPayload | src/pages/ViewAd.tsx:55-62 | with no qualifying poster, `details` or `user`, a qualifying `data` is picked ahead of the payload |
| ViewAd.FirstQualifying | src/pages/ViewAd.tsx:64-99 | finds the first candidate with a non-empty name, email or phone, and none exactly when no candidate has one |
| ViewAd.PickSellerDetails | src/pages/ViewAd.tsx:45-102 | `null` for non-records and when no candidate qualifies; otherwise the details of the first qualifying candidate, which always have a non-empty field |
| ViewAd.NestedPosterWins | src/pages/ViewAd.tsx:49-62 | `data.poster` outranks every other candidate |
| ViewAd.PayloadIsLastResort | src/pages/ViewAd.tsx:55-62 | with no nested records the payload itself is the only candidate |
| ViewAd.EmptyNameHidesFullName | src/pages/ViewAd.tsx:65-69 | an empty string `name` ends the name chain, so `fullName` is never consulted |
| ViewAd.SellerFromNameParts | src/pages/ViewAd.tsx:70-76 | first name "A" and last name "B" give the seller name "A B" |
| ViewAd.NameFromParts | src/pages/ViewAd.tsx:70-76 | without a string `name` or `fullName`, the name is the trimmed join of the trimmed parts, a part that is not a string counting as "", and absent when empty |
| ViewAd.NameFromOnePart | src/pages/ViewAd.tsx:70-76 | with only one of `firstName` and `lastName` a string, the name is that part trimmed, and absent when it is blank |
| ViewAd.FirstNameOnly | src/pages/ViewAd.tsx:70-76 | `{firstName: " Ann "}` is named "Ann" |
| ViewAd.NoSellerInEmptyObject | src/pages/ViewAd.tsx:64-101 | an empty object has no seller |
| AuthContext.KeysDisjoint | src/context/AuthContext.tsx:29-32 | no storage key belongs to both providers, and each provider's two keys differ |
| AuthContext.ReadStoredValue | src/context/AuthContext.tsx:34-42 | `null` when storage is unavailable, the key is missing, or the text does not parse; a parsed value never holds `undefined` |
| AuthContext.WriteStoredValue | src/context/AuthContext.tsx:44-55 | a nullish value removes the key; any other value reads back as its round trip; no other key changes; unavailable storage is left alone |
| AuthContext.WriteThenRead | src/context/AuthContext.tsx:44-51 | writing a value and reading it back gives that value |
| AuthContext.Init | src/context/AuthContext.tsx:57-63 | each provider starts with what its own two keys hold (the same for the administrator, lines 99-105) |
| AuthContext.InitFromUnreadableStorage | src/context/AuthContext.tsx:34-42 | unreadable storage starts signed out with no pending email |
| AuthContext.SetPendingEmail | src/context/AuthContext.tsx:77-80 | only the pending email and its key change; the identity, the token and the other provider stay as they were (the same for the administrator, lines 119-122) |
| AuthContext.Login | src/context/AuthContext.tsx:65-69 | the identity becomes the one given and is stored; the pending email becomes `null` and its key is removed; the other provider and its keys are untouched (the same for the administrator, lines 107-111) |
| AuthContext.Logout | src/context/AuthContext.tsx:71-75 | identity and pending email become `null` and both keys are removed, whatever the state before; nothing of the other provider changes (the same for the administrator, lines 113-117) |
| AuthContext.Token | src/context/AuthContext.tsx:82 | `null` without an identity and whenever the identity's `token` is `null` or missing (a non-object identity included); otherwise that `token`, the empty string included; never `undefined` (the same for the administrator, line 124) |
| AuthContext.TokenAfterLogin | src/context/AuthContext.tsx:82 | after a login the token is the identity's string token (the empty string included), or `null` when it had none |
| AuthContext.LoginThenLogout | src/context/AuthContext.tsx:65-75 | login then logout ends signed out with both keys absent and every other key as it was |
| AuthContext.ReloadAfterLogin | src/context/AuthContext.tsx:57-69 | a reload after a login restores the signed-in session from storage |
| AuthContext.ReloadAfterSetPendingEmail | src/context/AuthContext.tsx:61-80 | a reload restores the pending email that was set |
| AuthContext.ReloadAfterLogout | src/context/AuthContext.tsx:57-75 | a reload after a logout is signed out |
| AppRoutes.Guard | src/routes/AppRoutes.tsx:20-30 | the wrapped view exactly when the identity is truthy, otherwise a replacing redirect to the guard's sign-in page |
| AppRoutes.Route | src/routes/AppRoutes.tsx:32-88 | a path is looked up by its key, lower-cased and without trailing slashes; exactly the paths whose key is unlisted redirect to "/"; "/" and "/listing" render in the public layout, the four sign-in pages in the sign-in layout, and each guarded path renders its page behind its guard; every redirect replaces and goes to "/", "/login" or "/admin/login" |
| AppRoutes.GuardedPathsRedirect | src/routes/AppRoutes.tsx:40-55 | paths keyed "/profile" and "/settings" redirect to "/login" exactly without a user; paths keyed "/admin", "/admin/profile" and "/admin/users" redirect to "/admin/login" exactly without an administrator |
| AppRoutes.GuardsIndependent | src/routes/AppRoutes.tsx:21-27 | each path's view depends only on the identity of its own guard's kind |
| AppRoutes.RedirectsSettle | src/routes/AppRoutes.tsx:22-84 | every redirect lands on an unguarded page, so the router never redirects twice |
| AppRoutes.SessionOpensGuardedPages | src/routes/AppRoutes.tsx:40-81 | logging in opens the guarded pages of that kind; logging out closes them |
| AppRoutes.RouteIgnoresCaseAndTrailingSlash | src/routes/AppRoutes.tsx:35-84 | an added trailing slash and lowered capitals never change the view, so "/Profile/" shows what "/profile" shows |
| AppRoutes.SameKeySameRoute | src/routes/AppRoutes.tsx:35-84 | two paths with the same key get the same view |
| AppRoutes.RouteKey | src/routes/AppRoutes.tsx:35-84 | the key a location matches by is never empty and ends in no slash unless it is the root |
| AppRoutes.RouteKeyShape | src/routes/AppRoutes.tsx:35-84 | a key has no ASCII capitals, is no longer than a non-empty path, and is "/" for a path of slashes only |
| AppRoutes.KeyIgnoresTrailingSlash | src/routes/AppRoutes.tsx:35-84 | a path and the path with one more trailing slash have the same key |
| AppRoutes.KeyIgnoresCase | src/routes/AppRoutes.tsx:35-84 | a path and the path with its capitals lowered have the same key |
| AppRoutes.KnownPathsAreKeys | src/routes/AppRoutes.tsx:38-84 | every path the table lists is its own key |
| AppRoutes.StripCommutesWithLower | src/routes/AppRoutes.tsx:35-84 | lowering capitals and dropping trailing slashes can be done in either order |
| ListPaging.CeilPages | src/pages/admin/AdminAds.tsx:114 | the fewest whole pages of ten that hold the rows |
| ListPaging.PagesFor | src/pages/admin/AdminAds.tsx:114 | at least one page, and enough pages for the rows without a spare one |
| ListPaging.ExtractList | src/pages/admin/AdminAds.tsx:75-81 | an array payload as it is, else an array `data`, else an array under the page's key, else empty |
| ListPaging.ExtractListRecoversWrapped | src/pages/admin/AdminCategories.tsx:86-92 | in any object, whatever its other members, an array under `data` is the list, an array under the page's key is the list when `data` holds none, and an object with neither has no rows |
| ListPaging.ExtractListKeyMattersLast | src/pages/admin/AdminAds.tsx:75-81 | the page's key decides nothing when the payload or its `data` is an array, so the two list pages read such replies alike |
| ListPaging.DerivePagination | src/pages/admin/AdminAds.tsx:84-116 | always at least one page; without `pagination`, the list length, the requested page, the page count for the rows, and ten; with it, each numeric field taken and each other one falling back; a derived page count covers the total exactly |
| ListPaging.TotalPages | src/pages/admin/AdminAds.tsx:31-32 | at least one page in every valid state |
| ListPaging.EffectivePage | src/pages/admin/AdminAds.tsx:34 | between 1 and the page count; the current page when it is in range and there are records; 1 with no records |
| ListPaging.PageLabel | src/pages/admin/AdminAds.tsx:35 | zero exactly when there are no records, else the effective page |
| ListPaging.TotalPagesLabel | src/pages/admin/AdminAds.tsx:36 | zero exactly when there are no records, else the page count |
| ListPaging.PreviousEnabled | src/pages/admin/AdminAds.tsx:222 | enabled only with records, and then exactly when the page is past page 1 |
| ListPaging.NextEnabled | src/pages/admin/AdminAds.tsx:233 | enabled only with records and a later page; with records and disabled, the page is at or past the last |
| ListPaging.Previous | src/pages/admin/AdminAds.tsx:222-223 | one page back when enabled; no change when disabled; nothing but the page changes |
| ListPaging.Next | src/pages/admin/AdminAds.tsx:233-234 | one page on, within the page count, when enabled; no change when disabled; nothing but the page changes |
| ListPaging.ButtonsStayInRange | src/pages/admin/AdminCategories.tsx:295-307 | starting within the range, both buttons keep the page between 1 and the page count |
| ListPaging.PreviousNextInverse | src/pages/admin/AdminAds.tsx:222-234 | Next undoes Previous, and Previous undoes Next, whenever the first click did something |
| ListPaging.ClampToPages | src/pages/admin/AdminAds.tsx:135-139 | a page beyond the reported count is pulled back to it; otherwise nothing changes; the effective page is unaffected |
| ListPaging.ClampIdempotent | src/pages/admin/AdminCategories.tsx:147-151 | clamping twice is clamping once |
| ListPaging.ReplyError | src/pages/admin/AdminAds.tsx:64-73 | a failed status shows its body text or the default; a successful body shows an error exactly when it says `success: false` with a truthy message, and then the message as text; a success whose body is not JSON shows the parse error |
| ListPaging.ApplyReply | src/pages/admin/AdminAds.tsx:64-126 | an error, including a body that is not JSON, empties the rows and drops the pagination; otherwise the reply was a success and its extracted rows and derived pagination are shown; the current page never changes; validity is kept |
| ListPaging.Serial | src/pages/admin/AdminAds.tsx:208 | the rows of the pages before the effective one are counted first, ten a page: row `index` shows (page − 1) · 10 + index + 1, at least index + 1 |
| ListPaging.SerialInverse | src/pages/admin/AdminAds.tsx:208 | for the first ten rows of a page, serials run on by one from row to row, and dividing a serial by ten gives back its page and row |
| ListPaging.SerialsDisjointAcrossPages | src/pages/admin/AdminAds.tsx:208 | among the first ten rows of each page, two different pages never show the same serial |
| ListPaging.SerialsCollideBeyondTenRows | src/pages/admin/AdminAds.tsx:204-208 | every row of a reply is shown, so a reply with more than ten rows numbers its eleventh row onward with the serials of the next page's first rows |
| ListPaging.TransitionsPreserveValid | src/pages/admin/AdminAds.tsx:27-139 | mounting, every reply, the clamp and both buttons keep the page at least 1 and any kept page count at least 1 |
| AdminAds.Load | src/pages/admin/AdminAds.tsx:64-126 | a failure shows an error with no rows and no pagination, "Unable to load ads" for an empty body; a body that is not JSON shows the parse error the same way; a success shows the rows under `data` or `ads` |
| AdminAds.LoadExamples | src/pages/admin/AdminAds.tsx:71-116 | rows under `ads` are shown with one page per ten rows; `success: false` shows its message and no rows |
| AdminAds.TitleCell | src/pages/admin/AdminAds.tsx:209 | a non-empty string title as it is; the dash for a falsy title |
| AdminAds.PlatformCell | src/pages/admin/AdminAds.tsx:159-163 | the dash for a falsy platform |
| AdminAds.AboveOne | src/pages/admin/AdminAds.tsx:156 | `value > 1` under JavaScript's coercion: numbers compare directly; nullish, booleans, "" and objects are never above one; a string compares as the numeral it holds |
| AdminAds.DurationCell | src/pages/admin/AdminAds.tsx:154-157 | the dash for a falsy duration, value or unit; otherwise the value's text, a space, the unit's text and an "s" when the value is above one as JavaScript compares it, numerals in strings included |
| AdminAds.NumeralValueAboveOne | src/pages/admin/AdminAds.tsx:156 | a value written as a numeral string, or as a one-element array, compares with one as its number does |
| AdminAds.NumeralDurationShowsLikeNumber | src/pages/admin/AdminAds.tsx:154-157 | a row whose duration value is the numeral of a non-zero number shows the same cell as one holding the number, so `"2"` days reads "2 days" |
| AdminAds.CellsAgreeWithSharedHelpers | src/pages/admin/AdminAds.tsx:154-163 | on rows of the declared shape, the page's own formatters say exactly what the shared `formatPlatform` and `formatDuration` say |
| AdminAds.Rows | src/pages/admin/AdminAds.tsx:204-214 | one table row per ad, in order, with its serial and its three text cells |
| AdminAds.RowsNumberedConsecutively | src/pages/admin/AdminAds.tsx:208 | rows are numbered consecutively from the effective page's first serial |
| AdminCategories.Load | src/pages/admin/AdminCategories.tsx:76-138 | as for ads, with "Unable to load categories" as the default error; a body that is not JSON shows the parse error; an object payload without a top-level or `data` array shows its `categories` array |
| AdminCategories.LoadExamples | src/pages/admin/AdminCategories.tsx:86-128 | `data` wins over `categories`; a pagination record is taken with its page count raised to at least one |
| AdminCategories.HandleChange | src/pages/admin/AdminCategories.tsx:45-48 | only the field named changes |
| AdminCategories.ToggleForm | src/pages/admin/AdminCategories.tsx:210 | only the form's visibility flips |
| AdminCategories.RefreshFirstPage | src/pages/admin/AdminCategories.tsx:153-159 | decided by the page number the submitting render saw: on page 1 the list is fetched again at once and the page shown is kept; elsewhere only the page is set to 1 |
| AdminCategories.RefreshFetchesFirstPage | src/pages/admin/AdminCategories.tsx:143-159 | when the page did not move during the add, page 1 is fetched either way: directly, or because the page changed and the page effect fetches it |
| AdminCategories.RefreshUsesSubmittedPage | src/pages/admin/AdminCategories.tsx:153-159 | when the pager moved during the add, an add begun on page 1 fetches page 1 while page 3 stays selected, and one begun on page 2 and ending on page 1 fetches nothing |
| AdminCategories.Submit | src/pages/admin/AdminCategories.tsx:161-181 | without a truthy token the error is set and nothing is sent; otherwise both fields go out with the bearer token |
| AdminCategories.FinishSubmit | src/pages/admin/AdminCategories.tsx:153-198 | an add empties and hides the form, reports success and refreshes by the page number captured at submit (page 1 whenever the page did not move); a failure keeps the form as it is now and shows the body text or the default |
| AdminCategories.NoSessionSendsNothing | src/pages/admin/AdminCategories.tsx:165-168 | no session, or an empty token, sends nothing |
| AdminCategories.SubmitThenAdded | src/pages/admin/AdminCategories.tsx:161-198 | after a successful add the form is empty and hidden whatever was typed; after a failed one it is as typed |
| PostAd.DefaultUnitIsFirst | src/pages/PostAd.tsx:12-38 | the form starts with the first unit offered |
| PostAd.SelectedAdId | src/pages/PostAd.tsx:28-31 | the state ad's `_id` when truthy, else the `adId` query value when non-empty, else "" |
| PostAd.EditingIffAnAdIsNamed | src/pages/PostAd.tsx:28-46 | the page edits exactly when the state or the query names an ad |
| PostAd.Prefill | src/pages/PostAd.tsx:90-102 | title and description, or "" when falsy; the price and the duration value as text, or "" when nullish; a string platform itself, else its `_id`, else its `id`, else ""; the unit, or "hour" when it is falsy |
| PostAd.HandleChange | src/pages/PostAd.tsx:142-150 | only the field named changes |
| PostAd.Submit | src/pages/PostAd.tsx:152-197 | nothing while submitting; then, in order, the session, the platform and the duration checks, each stopping before any request; editing sends PUT to the encoded ad URL, creating sends POST to `/users/postAd` |
| PostAd.AdEndpoint | src/pages/PostAd.tsx:188-190 | the ad's URL is the base, "/users/ads/", then one segment with no `/`, `?` or `#` that decodes back to the id |
| PostAd.EditEndpointNamesTheAd | src/pages/PostAd.tsx:188-191 | the edit URL is the fixed prefix followed by the encoded id, which decodes back to the id |
| PostAd.FinishSubmit | src/pages/PostAd.tsx:198-221 | a created ad clears every field but the unit; an update keeps the form and goes to `/ads`; a failure shows the body text or the default |
| PostAd.ClearedFormAsksForPlatform | src/pages/PostAd.tsx:163-212 | the form a create leaves behind cannot be resent before a platform is chosen |
| PostAd.PrefillRestoresPostedForm | src/pages/PostAd.tsx:92-101 | editing an ad brings back the form it was posted from |
| PostAd.PickEditAd | src/pages/PostAd.tsx:114 | a truthy `data`, else a truthy `ad`, else the payload |
| PostAd.EditAndViewPickTheSameAd | src/pages/PostAd.tsx:114 | for `{data: ad}` and `{ad: ad}` the edit form and the ad view pick the same ad |
| PostAd.BeginEdit | src/pages/PostAd.tsx:81-108 | nothing without an id and a session; the state's ad when there is one; otherwise a fetch of the encoded ad URL with the bearer token |
| PostAd.ApplyEditReply | src/pages/PostAd.tsx:109-133 | a failure shows the body text or "Unable to load ad"; a body that is not JSON shows the parse error; a truthy ad prefills the form |
| PostAd.ExtractPlatforms | src/pages/PostAd.tsx:63-67 | an array payload, else an array `data`, else empty |
| PostAd.PlatformsAreDataList | src/pages/PostAd.tsx:63-67 | the platform list is the admin list extraction keyed on `data` alone |
| PostAd.LoadPlatforms | src/pages/PostAd.tsx:53-73 | a failure shows the body text or "Unable to load platforms" with no platforms; a body that is not JSON shows the parse error with no platforms; a JSON body is an error exactly when `success` is `false` and `message` is truthy, showing that message; otherwise it shows the extracted list |
| PostAd.OptionValue | src/pages/PostAd.tsx:283 | an option submits its `_id`, else its `id`, else its `platform` |
| PostAd.ChosenPlatformPrefillsBack | src/pages/PostAd.tsx:96-99 | choosing a listed platform and editing the ad later selects the same platform |
| Failures.FriendlyMessage | src/pages/OtpVerification.tsx:79-83 | the first truthy member of `message`, `error` and `reason`, as text, else the fallback |
| Failures.TextOr | src/pages/OtpVerification.tsx:76-77 | the text when non-empty, else the fallback |
| Failures.FailureMessageAsWritten | src/pages/OtpVerification.tsx:72-84 | a JSON body gives its friendly message; a body that is not JSON ends in the error of reading the body twice |
| Failures.FailureMessage | src/pages/OtpVerification.tsx:72-84 | a JSON body gives its friendly message; any other body gives its text, or the fallback when empty |
| Failures.AsWrittenLosesTextBodies | src/pages/OtpVerification.tsx:73-78 | the two readings agree on every JSON body and differ on every other body |
| Failures.FriendlyMessagePriority | src/pages/OtpVerification.tsx:79-83 | `message` before `error` before `reason` before the fallback |
| OtpVerification.Sanitize | src/pages/OtpVerification.tsx:45-48 | at most four characters, all digits, the leading digits of what was typed, four of them whenever four were typed |
| OtpVerification.SanitizeFixedPoints | src/pages/OtpVerification.tsx:46 | sanitising leaves a value unchanged exactly when it is at most four digits |
| OtpVerification.SanitizeIdempotent | src/pages/OtpVerification.tsx:46 | sanitising again changes nothing |
| OtpVerification.SanitizeSkipsNonDigits | src/pages/OtpVerification.tsx:46 | a non-digit typed anywhere in the value makes no difference |
| OtpVerification.SanitizeKeepsFirstFour | src/pages/OtpVerification.tsx:46-47 | after four digits, whatever else is typed or pasted is cut off |
| OtpVerification.StateMember | src/pages/OtpVerification.tsx:18-19 | a destructuring default replaces only `undefined`, and `\|\| {}` never changes a lookup |
| OtpVerification.Email | src/pages/OtpVerification.tsx:20 | the pending email when truthy, else the state's email when truthy, else "" |
| OtpVerification.Expired | src/pages/OtpVerification.tsx:31 | the expired view shows exactly when the pending email, the state email and the state mobile are all falsy |
| OtpVerification.ExpiredIffNothingToVerify | src/pages/OtpVerification.tsx:31-43 | the expired view shows exactly when the pending email, the state email and the state mobile are all falsy |
| OtpVerification.Submit | src/pages/OtpVerification.tsx:50-69 | nothing while loading; the 4-digit prompt for any other length; otherwise email, mobile and code are sent |
| OtpVerification.TypedCodeIsSentWhenComplete | src/pages/OtpVerification.tsx:45-69 | whatever is typed, the request goes out exactly when it held four digits, with the first four |
| OtpVerification.StatusFallback | src/pages/OtpVerification.tsx:83 | "Enter a valid OTP" exactly for status 400 |
| OtpVerification.FailureMessageAsWritten | src/pages/OtpVerification.tsx:71-85 | a JSON body gives its `message`, else `error`, else `reason`, else the status fallback; a body that is not JSON ends in the body-read error |
| OtpVerification.FailureMessage | src/pages/OtpVerification.tsx:71-85 | a JSON body gives its `message`, else `error`, else `reason`, else the status fallback; any other body gives its text, or "Enter a valid OTP" |
| OtpVerification.PlainTextFailureIsLost | src/pages/OtpVerification.tsx:73-78 | a plain-text reply is lost as written and shown as intended |
| OtpVerification.LoginName | src/pages/OtpVerification.tsx:88-93 | `name`, then `user.firstName`, then `data.firstName`, then the state's name, each when truthy |
| OtpVerification.OnVerified | src/pages/OtpVerification.tsx:87-96 | the user signs in with the chosen name and the result's token; the pending email ends `null` and its key absent; the administrator is untouched |
| OtpVerification.VerifiedSignsIn | src/pages/OtpVerification.tsx:87-98 | the verified user is signed in, so the guarded `/profile` page renders for them (the page itself navigates to "/"); the token is the result's token; a body that is not JSON still signs in, with no token |
| OtpVerification.Resend | src/pages/OtpVerification.tsx:107-128 | no error exactly on success; a failure shows its text or "Unable to resend code" |
| AdminOtpVerification.LastDigit | src/pages/admin/AdminOtpVerification.tsx:26 | at most one digit: the last digit typed, or "" exactly when none was typed |
| AdminOtpVerification.HandleChange | src/pages/admin/AdminOtpVerification.tsx:25-31 | box `index` takes the last digit typed and no other box changes; boxes stay at most one digit each |
| AdminOtpVerification.Join | src/pages/admin/AdminOtpVerification.tsx:45 | joining digit boxes gives digits |
| AdminOtpVerification.FilledCount | src/pages/admin/AdminOtpVerification.tsx:45-46 | counts every box exactly when every box is filled |
| AdminOtpVerification.JoinLength | src/pages/admin/AdminOtpVerification.tsx:45 | with at most one character per box, the code is as long as the number of filled boxes |
| AdminOtpVerification.CodeCompleteIffAllFilled | src/pages/admin/AdminOtpVerification.tsx:45-49 | the code has four characters exactly when all four boxes are filled |
| AdminOtpVerification.Submit | src/pages/admin/AdminOtpVerification.tsx:41-60 | nothing while loading; the prompt unless the code has four characters; otherwise email and code are sent |
| AdminOtpVerification.FilledBoxesAreSent | src/pages/admin/AdminOtpVerification.tsx:25-60 | typing a digit into each blank box sends those four digits |
| AdminOtpVerification.BlankBoxRejects | src/pages/admin/AdminOtpVerification.tsx:45-49 | a blank box stops the submit with the prompt |
| AdminOtpVerification.OnReply | src/pages/admin/AdminOtpVerification.tsx:61-70 | a failure shows its text or "Invalid verification code"; a success without a truthy token is refused and signs nobody in; otherwise the administrator signs in with `admin.fullName` or "Admin" |
| AdminOtpVerification.SignedInHasToken | src/pages/admin/AdminOtpVerification.tsx:65-72 | a sign-in leaves a truthy token and opens the dashboard; a body that is not JSON is refused |
| AdminOtpVerification.EmailFromState | src/pages/admin/AdminOtpVerification.tsx:12 | the state's email unless nullish, else "" |
| AdminOtpVerification.Email | src/pages/admin/AdminOtpVerification.tsx:13 | the pending email when truthy, else the state's email |
| AdminOtpVerification.Expired | src/pages/admin/AdminOtpVerification.tsx:108 | the expired view shows exactly when neither the pending email nor the state email is truthy |
| AdminOtpVerification.ExpiredIffNoEmail | src/pages/admin/AdminOtpVerification.tsx:108-116 | the expired view shows exactly when neither the pending email nor the state email is truthy |
| AdminOtpVerification.ResendConfirmation | src/pages/admin/AdminOtpVerification.tsx:96-99 | the reply's `message`, else its `status`, else a sentence naming the address |
| AdminOtpVerification.ResendAllowed | src/pages/admin/AdminOtpVerification.tsx:82 | a resend needs a truthy email and neither a resend nor a verification in progress, and is allowed whenever it has them |
| AdminOtpVerification.Resend | src/pages/admin/AdminOtpVerification.tsx:81-106 | nothing exactly when the email is falsy or a resend or verification is running; otherwise the failure text or "Enter correct email", or the confirmation |
| AdminOtpVerification.NoResendWhenExpired | src/pages/admin/AdminOtpVerification.tsx:82 | the expired view's empty address never triggers a resend |
| AdminLogin.HandleChange | src/pages/admin/AdminLogin.tsx:14-17 | only the field named changes |
| AdminLogin.Submit | src/pages/admin/AdminLogin.tsx:19-36 | nothing while submitting; "Enter email and password" when either is empty; otherwise both are sent |
| AdminLogin.TypedFormIsSent | src/pages/admin/AdminLogin.tsx:14-25 | typing both fields is what lets a request out |
| AdminLogin.StatusFallback | src/pages/admin/AdminLogin.tsx:49 | "Invalid email or password" exactly for status 401 |
| AdminLogin.FailureMessageAsWritten | src/pages/admin/AdminLogin.tsx:38-51 | a JSON body gives its `message`, else `error`, else `reason`, else the status fallback; a body that is not JSON ends in the body-read error |
| AdminLogin.FailureMessage | src/pages/admin/AdminLogin.tsx:38-51 | a JSON body gives its `message`, else `error`, else `reason`, else the status fallback; any other body gives its text, or "Unable to login" |
| AdminLogin.SuccessData | src/pages/admin/AdminLogin.tsx:52 | a success body that is not JSON stands in with an empty token |
| AdminLogin.TokenOf | src/pages/admin/AdminLogin.tsx:53-54 | the token is truthy exactly when the data and its `token` are, and is then that token |
| AdminLogin.NameAsWritten | src/pages/admin/AdminLogin.tsx:56 | reading the name throws exactly when the `admin` record is nullish |
| AdminLogin.Name | src/pages/admin/AdminLogin.tsx:56-57 | `admin.fullName` when truthy, else "Admin" |
| AdminLogin.NamesAgreeWithARecord | src/pages/admin/AdminLogin.tsx:56-57 | with an `admin` record both name readings agree |
| AdminLogin.OnReplyAsWritten | src/pages/admin/AdminLogin.tsx:37-58 | a plain-text refusal and a tokened success without an `admin` record both end in a runtime error; no token is refused |
| AdminLogin.OnReply | src/pages/admin/AdminLogin.tsx:37-58 | never throws; a refusal shows its message; a success signs in exactly when the token is truthy, with `admin.fullName` or "Admin" |
| AdminLogin.AsWrittenAgreesOtherwise | src/pages/admin/AdminLogin.tsx:37-58 | wherever the code as written does not throw, it does what the intended version does |
| AdminLogin.TokenWithoutAdminRecord | src/pages/admin/AdminLogin.tsx:53-57 | `{"token": "t"}` throws as written, and signs in as "Admin" with token "t" as intended |
| AdminLogin.PlainTextRefusalIsLost | src/pages/admin/AdminLogin.tsx:39-44 | a plain-text refusal throws as written and shows its text as intended |
| AdminLogin.UnparseableSuccessIsRefused | src/pages/admin/AdminLogin.tsx:52-55 | a success body that is not JSON is refused for the missing token |
| AdminLogin.RefusalMessages | src/pages/admin/AdminLogin.tsx:45-50 | a silent 401 shows the credential message, other statuses the general one, and an `error` member wins |
| Signup.HandleChange | src/pages/Signup.tsx:20-23 | only the field named changes; the messages and the loading flag stay |
| Signup.Reset | src/pages/Signup.tsx:25-29 | all six fields empty and both messages cleared |
| Signup.ResetForgetsTyping | src/pages/Signup.tsx:20-29 | a reset erases whatever was typed, twice is once, and the mounted page is already reset |
| Signup.Submit | src/pages/Signup.tsx:31-58 | nothing while loading; "Passwords do not match", with success cleared and nothing sent, on a mismatch; otherwise the six fields are sent |
| Signup.DisplayName | src/pages/Signup.tsx:73 | first name, a space and last name with white space cut from both ends and nothing else cut; two trimmed, non-empty names come through as they are, joined by the space |
| Signup.TrimmedNamesJoinTrimmed | src/pages/Signup.tsx:73 | two trimmed, non-empty names joined by a space need no trimming |
| Signup.DisplayNameExamples | src/pages/Signup.tsx:73 | "A" and "B" give "A B"; a missing part leaves no stray space |
| Signup.Finish | src/pages/Signup.tsx:60-81 | a failure shows its text or "Registration failed" and changes nothing else; a success sets the email captured at submit as pending and navigates with that email, mobile and display name; the form keeps whatever it holds now |
| Signup.TypingDuringRequestIsKept | src/pages/Signup.tsx:60-75 | an email changed from "a@x" to "b@x" during the request: "a@x" is made pending and handed on, while the form shows "b@x" |
| Signup.RegistrationReachesPasscodePage | src/pages/Signup.tsx:67-75 | the passcode page checks the submitted email, greets by the display name, and is expired exactly when email and mobile were both left empty |
| Signup.VerifyPathIsNotRouted | src/pages/Signup.tsx:69 | the path a registration navigates to falls through the route table to "/" |

## Findings

| source | as written | input that shows it | evidently intended | confidence | as-written member | corrected member |
|---|---|---|---|---|---|---|
| src/utils/adPresentation.ts:41 | `PLATFORM_IMAGES[key]` indexes a plain object, so inherited members are found too | the platform label "Constructor" normalises to "constructor" and yields `Object.prototype.constructor`, a function, as the image | only the table's own keys yield a logo | high; not executed | AdPresentation.ResolvePlatformImageAsWritten | AdPresentation.ResolvePlatformImage |
| src/pages/admin/AdminLogin.tsx:56 | `(data && (data.admin.fullName)) ?? 'Admin'` reads `fullName` of `data.admin` without a guard | a 200 reply `{"token": "t"}`: the read throws a `TypeError`, its text is shown, and `login` is never called although a token was granted | `data?.admin?.fullName`, falling back to "Admin" | high; not executed | AdminLogin.OnReplyAsWritten | AdminLogin.OnReply |
| src/pages/OtpVerification.tsx:73-77 | `response.text()` is called after `response.json()` has already consumed the body | a 500 reply with the plain-text body "Code expired": `text()` rejects because the body was already read, and the page shows that rejection instead of the text or "Enter a valid OTP" | read the body once as text and parse it, showing the text when it is not JSON | high; not executed | OtpVerification.FailureMessageAsWritten | OtpVerification.FailureMessage |
| src/pages/admin/AdminLogin.tsx:39-43 | the same second read of an already-consumed body | a 502 reply with the plain-text body "Bad gateway": the page shows the body-read rejection instead of "Bad gateway" | show the body's text, or "Unable to login" when empty | high; not executed | AdminLogin.FailureMessageAsWritten | AdminLogin.FailureMessage |

The counterexamples are proved in `AdPresentation.ConstructorLabelEscapesTable`,
`AdminLogin.TokenWithoutAdminRecord`, `OtpVerification.PlainTextFailureIsLost`
and `AdminLogin.PlainTextRefusalIsLost`. The corrected definitions are the
ones the rest of the model builds on.

## Left out

- Every `fetch`, body read and header: each response is an input value: a failure with its status and body, a success with its parsed body, or, where the page parses without a fallback, a success whose body is not JSON, carrying the parse error's message.
- The GET retry after a 404 or 405 on the admin list pages (src/pages/admin/AdminAds.tsx:58-62): it only changes which request produces the reply.
- `formatPrice` and the `Number(...)` conversions of price and duration: they depend on `Intl` locale formatting and floating point. `PostAd.Submit` sends the two texts that `Number` would convert.
- Numbers are integers; fractions, `NaN` and the infinities do not occur.
- `JSON.parse` internals: a stored text either parses to a value or does not (`AuthContext.Cell`). Storage exceptions and a missing `window` are the store's `available` flag, and writes to unavailable storage have no effect.
- `setTimeout` delays before navigation, `ignore` cancellation flags, loading spinners, focus and refs, including `handleKeyDown` in src/pages/admin/AdminOtpVerification.tsx:35-39.
- The HTML `required` and `maxLength` attributes: the browser enforces them before the handlers run.
- The status lines the OTP pages show while working ("Verifying…", "Sending a new code…").
- The wording of runtime exceptions: `AdminLogin.Threw` and `Failures.BodyAlreadyRead` name the fault, not the engine's message.
- JSX rendering, the layouts, and the static or stub pages: Home, Listing, Profile and its subpages, the headers and footer, AdminDashboard, AdminProfile, AdminAuthShell, AdminRegister, AdminForgotPassword and Login. src/types/ad.ts is used only as the shape of `AdPresentation.Platform` and `AdPresentation.Duration`.
- PlatformKeys.KeyOf: lower-cases ASCII letters only. The two non-ASCII characters whose lower case is an ASCII letter (KELVIN SIGN and LATIN CAPITAL LETTER I WITH DOT ABOVE) are dropped instead of kept.
- AdPresentation.ResolvePlatformImage: returns the logo's name, not the bundled asset URL.
- AdminAds.PlatformCell: states only the dash case in its own contract. The other cases are stated against the shared helper by `AdminAds.CellsAgreeWithSharedHelpers`.
- AdminAds.AboveOne: converts text as JavaScript does for signed decimals, with or without a fraction, and `Infinity`. Exponents (`"1e3"`) and hexadecimal, octal or binary numerals (`"0x10"`) are read as not above one, although JavaScript reads them as numbers.
- AdPresentation.FormatDuration: states only the dash case in its own contract. `AdPresentation.FormatDurationRoundTrip` states the rendered text: the number is `Text.Decimal(value)`, whose own contract rules out leading zeros.
- AppRoutes.RouteKey: lowers capitals and drops trailing slashes as the router's patterns do. The percent-decoding of the path that newer router versions apply first is not modelled, so `/profil%65` is not matched to `/profile`.
- ListPaging.SerialsDisjointAcrossPages: holds for the first ten rows of each page only. The page shows every row a reply carries, so a server that sends more than ten rows reuses serials across pages (`ListPaging.SerialsCollideBeyondTenRows`). The model does not guess at what a server sends.
- The `console.log` calls in src/pages/Signup.tsx:46 (the whole form, password included), src/pages/admin/AdminAds.tsx:70 and src/pages/admin/AdminOtpVerification.tsx:66: logging has no effect on the page.
- The missing routes for `/verify-otp`, `/admin/verify-otp`, `/ads`, `/admin/register` and `/admin/forgot`: the route table is modelled as written, and what those pages would be routed to is not guessed.

=== FILE: ad_presentation.dfy ===
/** Display helpers for ad records (src/utils/adPresentation.ts): the
    platform label, the platform logo lookup and the rental duration. An ad's
    `platform` is either a bare label or a `{platform}` record, and its
    `duration` is a `{value?, unit?}` record (src/types/ad.ts). */
module AdPresentation {

  import opened Optional
  import Text
  import opened PlatformKeys

  /** The logo assets the table points at. */
  datatype Logo =
    | AmazonPrime | AppleMusic | Audible | Dropbox | GoogleDrive | HboMax
    | Hotstar | Hulu | Netflix | OneDrive | SoundCloud | Spotify | Youtube

  /** `PublicAd['platform']`. A `null` or missing `platform` inside the record
      form is `Record(None)`. */
  datatype Platform = Label(name: string) | Record(platform: Option<string>)

  /** `PublicAd['duration']`; a missing or `null` member is `None`. */
  datatype Duration = Duration(value: Option<int>, unit: Option<string>)

  /** The placeholder glyph shown for anything that cannot be displayed. */
  const Dash: string := "—"

  /** The logo table, keyed by normalised platform label. */
  const PlatformImages: map<string, Logo> := map[
    "amazonprime" := AmazonPrime,
    "amazonprimevideo" := AmazonPrime,
    "applemusic" := AppleMusic,
    "audible" := Audible,
    "dropbox" := Dropbox,
    "googledrive" := GoogleDrive,
    "hbomax" := HboMax,
    "hotstar" := Hotstar,
    "hulu" := Hulu,
    "netflix" := Netflix,
    "onedrive" := OneDrive,
    "soundcloud" := SoundCloud,
    "spotify" := Spotify,
    "youtube" := Youtube
  ]

  /** `normalizePlatformKey`: an absent label normalises to the empty key. */
  function NormalizePlatformKey(name: Option<string>): (r: string)
    ensures IsKey(r)
    ensures name.None? ==> r == ""
  {
    match name
    case None => ""
    case Some(s) => KeyOf(s)
  }

  /** Normalising a normalised key changes nothing. */
  lemma NormalizeIdempotent(name: Option<string>)
    ensures NormalizePlatformKey(Some(NormalizePlatformKey(name))) == NormalizePlatformKey(name)
  {
    KeyOfFixesKeys(NormalizePlatformKey(name));
  }

  /** The label a `platform` field carries, if any. */
  function LabelOf(p: Option<Platform>): Option<string> {
    match p
    case None => None
    case Some(Label(s)) => Some(s)
    case Some(Record(l)) => l
  }

  /** `resolvePlatformImage`, reading the table by own property only: no
      logo for an empty key or a key the table does not list. */
  function ResolvePlatformImage(p: Option<Platform>): (r: Option<Logo>)
    ensures r.Some? <==> NormalizePlatformKey(LabelOf(p)) in PlatformImages
    ensures r.Some? ==> r.value == PlatformImages[NormalizePlatformKey(LabelOf(p))]
  {
    var key := NormalizePlatformKey(LabelOf(p));
    if key == "" then None
    else if key in PlatformImages then Some(PlatformImages[key])
    else None
  }

  /** What `PLATFORM_IMAGES[key]` yields on the object literal as written:
      one of its own entries, a member inherited from `Object.prototype`, or
      `undefined`. */
  datatype Lookup = Asset(logo: Logo) | Inherited(member: string) | Missing

  /** The members of `Object.prototype` whose names survive normalisation.
      Every other member name (`toString`, `valueOf`, `hasOwnProperty`,
      `__proto__`, ...) has an upper-case letter or an underscore, which
      normalisation changes or removes. */
  const PrototypeKeys: set<string> := {"constructor"}

  /** `resolvePlatformImage` as written: a plain-object index also finds
      inherited members. */
  function ResolvePlatformImageAsWritten(p: Option<Platform>): (r: Lookup)
    ensures r.Inherited? <==> NormalizePlatformKey(LabelOf(p)) in PrototypeKeys
    ensures r.Asset? <==> ResolvePlatformImage(p).Some?
  {
    var key := NormalizePlatformKey(LabelOf(p));
    if key == "" then Missing
    else if key in PlatformImages then Asset(PlatformImages[key])
    else if key in PrototypeKeys then Inherited(key)
    else Missing
  }

  /** A platform labelled "Constructor" or "constructor" (any letter that
      lower-cases to `c`, then "onstructor") reaches
      `Object.prototype.constructor` (a function, not an image) through the
      table as written, while the own-property lookup finds no logo. */
  lemma ConstructorLabelEscapesTable(c: char)
    requires Text.Lower(c) == 'c'
    ensures ResolvePlatformImageAsWritten(Some(Label([c] + "onstructor"))) == Inherited("constructor")
    ensures ResolvePlatformImage(Some(Label([c] + "onstructor"))) == None
  {
    ConstructorKey(c);
    assert "constructor" !in PlatformImages;
  }

  /** For every other label the two lookups agree. */
  lemma AsWrittenAgreesElsewhere(p: Option<Platform>)
    requires NormalizePlatformKey(LabelOf(p)) !in PrototypeKeys
    ensures ResolvePlatformImageAsWritten(p)
              == (if ResolvePlatformImage(p).Some? then Asset(ResolvePlatformImage(p).value) else Missing)
  {
  }

  /** Labels with the same key resolve to the same logo, whether they arrive
      bare or wrapped in a `{platform}` record. */
  lemma SameKeySameLogo(a: string, b: string)
    requires KeyOf(a) == KeyOf(b)
    ensures ResolvePlatformImage(Some(Label(a))) == ResolvePlatformImage(Some(Label(b)))
    ensures ResolvePlatformImage(Some(Label(a))) == ResolvePlatformImage(Some(Record(Some(b))))
  {
  }

  /** Case and punctuation do not matter: "Netflix" or "netflix", "net"
      and "flix" split by any character outside `[a-z0-9]` ("net-flix",
      "net flix", "net.flix"), and `{platform: "netflix"}` all find the
      Netflix logo. */
  lemma NetflixSpellings(n: char, sep: char)
    requires Text.Lower(n) == 'n'
    requires !PlatformKeys.IsKeyChar(Text.Lower(sep))
    ensures ResolvePlatformImage(Some(Label([n] + "etflix"))) == Some(Netflix)
    ensures ResolvePlatformImage(Some(Label("net" + [sep] + "flix"))) == Some(Netflix)
    ensures ResolvePlatformImage(Some(Record(Some("netflix")))) == Some(Netflix)
  {
    NetflixKeys(n, sep);
    NetflixByKey(Some(Label([n] + "etflix")));
    NetflixByKey(Some(Label("net" + [sep] + "flix")));
    NetflixByKey(Some(Record(Some("netflix"))));
  }

  /** Whatever the spelling, the key "netflix" finds the Netflix logo. */
  lemma NetflixByKey(p: Option<Platform>)
    requires NormalizePlatformKey(LabelOf(p)) == "netflix"
    ensures ResolvePlatformImage(p) == Some(Netflix)
  {
    assert PlatformImages["netflix"] == Netflix;
  }

  /** Both Amazon Prime spellings share one logo, and an unknown platform or
      a missing label has none. */
  lemma TableFacts()
    ensures PlatformImages["amazonprime"] == PlatformImages["amazonprimevideo"]
    ensures ResolvePlatformImage(None) == None
    ensures ResolvePlatformImage(Some(Record(None))) == None
    ensures ResolvePlatformImage(Some(Label("!!"))) == None
  {
    assert KeyOf("!!") == "";
  }

  /** `formatPlatform`: the bare label unless it is empty, the record's
      `platform` member unless it is missing, and the dash otherwise. */
  function FormatPlatform(p: Option<Platform>): (r: string)
    ensures p.None? ==> r == Dash
    ensures p == Some(Label("")) ==> r == Dash
    ensures p.Some? && p.value.Label? && p.value.name != "" ==> r == p.value.name
    ensures p.Some? && p.value.Record? ==>
              r == (if p.value.platform.Some? then p.value.platform.value else Dash)
  {
    match p
    case None => Dash
    case Some(Label(s)) => if s == "" then Dash else s
    case Some(Record(l)) => if l.Some? then l.value else Dash
  }

  /** `!duration.value || !duration.unit`: a missing or zero value, or a
      missing or empty unit. */
  predicate Displayable(d: Duration) {
    d.value.Some? && d.value.value != 0 && d.unit.Some? && d.unit.value != ""
  }

  /** `formatDuration`: "<value> <unit>", with an "s" appended to the unit
      when the value exceeds one, or the dash. */
  function FormatDuration(d: Option<Duration>): (r: string)
    ensures d.None? || !Displayable(d.value) ==> r == Dash
  {
    if d.None? || !Displayable(d.value) then Dash
    else
      var v := d.value.value.value;
      Text.Decimal(v) + " " + d.value.unit.value + (if v > 1 then "s" else "")
  }

  /** Reads a formatted duration back: the number before the first space,
      and the unit after it with the plural "s" removed when the number
      exceeds one. */
  function ParseDuration(text: string): Option<(int, string)> {
    if ' ' !in text then None
    else
      var sp := FirstSpace(text);
      var number := Text.ParseDecimal(text[..sp]);
      var rest := text[sp + 1..];
      if number.None? then None
      else if number.value > 1 then
        (if |rest| > 0 && rest[|rest| - 1] == 's' then Some((number.value, rest[..|rest| - 1])) else None)
      else Some((number.value, rest))
  }

  /** The index of the first space in `text`. */
  function FirstSpace(text: string): (i: nat)
    requires ' ' in text
    ensures i < |text| && text[i] == ' ' && ' ' !in text[..i]
  {
    if text[0] == ' ' then 0
    else
      assert ' ' in text[1..] by {
        var k :| 0 <= k < |text| && text[k] == ' ';
        assert text[1..][k - 1] == ' ';
      }
      var j := FirstSpace(text[1..]);
      assert text[..j + 1] == [text[0]] + text[1..][..j];
      j + 1
  }

  /** A displayable duration is rendered so that both its value and its unit
      can be read back: the pluralising "s" never loses information. */
  lemma FormatDurationRoundTrip(v: int, u: string)
    requires v != 0 && u != ""
    ensures ParseDuration(FormatDuration(Some(Duration(Some(v), Some(u))))) == Some((v, u))
    ensures var text := FormatDuration(Some(Duration(Some(v), Some(u))));
            ' ' in text && text[..FirstSpace(text)] == Text.Decimal(v)
            && text[FirstSpace(text) + 1..] == u + (if v > 1 then "s" else "")
  {
    var digits := Text.Decimal(v);
    var plural := if v > 1 then "s" else "";
    var text := digits + " " + u + plural;
    assert FormatDuration(Some(Duration(Some(v), Some(u)))) == text;
    assert text[|digits|] == ' ';
    assert ' ' !in digits;
    var sp := FirstSpace(text);
    assert forall k :: 0 <= k < |digits| ==> text[k] == digits[k];
    assert sp == |digits|;
    assert text[..sp] == digits;
    assert text[sp + 1..] == u + plural;
    Text.DecimalRoundTrip(v);
    var rest := u + plural;
    if v > 1 {
      assert rest[|rest| - 1] == 's';
      assert rest[..|rest| - 1] == u;
    } else {
      assert rest == u;
    }
  }

  /** One day is singular; more than one is plural. */
  lemma DurationExamples()
    ensures FormatDuration(Some(Duration(Some(1), Some("day")))) == "1 day"
    ensures FormatDuration(Some(Duration(Some(3), Some("day")))) == "3 days"
    ensures FormatDuration(Some(Duration(Some(0), Some("day")))) == Dash
    ensures FormatDuration(Some(Duration(Some(2), Some("")))) == Dash
  {
  }
}

=== FILE: admin_ads.dfy ===
/** The administrator's ad list (src/pages/admin/AdminAds.tsx): the shared
    list machinery with the `ads` payload key, and the page's own cell
    formatters for title, platform and duration, which read the loosely
    typed rows of the response. */
module AdminAds {

  import opened Optional
  import opened Json
  import Text
  import ListPaging
  import AdPresentation

  /** The payload member holding the list when it is not under `data`. */
  const ListKey: string := "ads"

  /** The error shown when a failed response has no body text. */
  const LoadError: string := "Unable to load ads"

  /** `fetchAds(page)` once its response is in. */
  function Load(s: ListPaging.ListState, requested: int, reply: ListPaging.Reply): (r: ListPaging.ListState)
    ensures r.currentPage == s.currentPage
    ensures reply == ListPaging.Failed("") ==> r.error == Some(LoadError) && r.items == []
    ensures reply.Failed? ==> r.error.Some? && r.items == [] && r.info.None?
    ensures reply.Malformed? ==> r.error == Some(reply.parseError) && r.items == [] && r.info.None?
    ensures reply.Succeeded? && r.error.None? ==> r.items == ListPaging.ExtractList(reply.payload, ListKey)
    ensures ListPaging.Valid(s) ==> ListPaging.Valid(r)
  {
    ListPaging.ApplyReply(s, requested, reply, ListKey, LoadError)
  }

  /** A response that wraps its rows under `ads` without pagination shows
      those rows on one page per ten; `success: false` with a message shows
      the message and no rows. */
  lemma LoadExamples(rows: seq<Json>)
    ensures var r := Load(ListPaging.Initial, 1, ListPaging.Succeeded(Obj(map["ads" := Arr(rows)])));
            r.items == rows && r.error.None?
            && r.info == Some(ListPaging.Pagination(|rows|, 1, ListPaging.PagesFor(|rows|), 10))
    ensures var r := Load(ListPaging.Initial, 2, ListPaging.Succeeded(Obj(map["success" := Bool(false), "message" := Str("Denied")])));
            r.error == Some("Denied") && r.items == [] && r.info.None?
  {
    var denied := Obj(map["success" := Bool(false), "message" := Str("Denied")]);
    assert Get(denied, "success") == Bool(false);
    assert Get(denied, "message") == Str("Denied");
  }

  /** The declared shape of a row's `platform`: absent, a label, or a
      record whose `platform` member is absent or a label. */
  predicate PlatformTyped(p: Json) {
    Nullish(p) || p.Str? || (p.Obj? && (Nullish(Get(p, "platform")) || Get(p, "platform").Str?))
  }

  /** A row's `platform`, read as the shared helper's platform type. */
  function PlatformOf(p: Json): Option<AdPresentation.Platform> {
    if Nullish(p) then None
    else if p.Str? then Some(AdPresentation.Label(p.s))
    else Some(AdPresentation.Record(if Get(p, "platform").Str? then Some(Get(p, "platform").s) else None))
  }

  /** The declared shape of a row's `duration`: absent, or a record whose
      `value` is absent or a number and whose `unit` is absent or text. */
  predicate DurationTyped(d: Json) {
    Nullish(d)
    || (d.Obj? && (Nullish(Get(d, "value")) || Get(d, "value").Num?)
               && (Nullish(Get(d, "unit")) || Get(d, "unit").Str?))
  }

  /** A row's `duration`, read as the shared helper's duration type. */
  function DurationOf(d: Json): Option<AdPresentation.Duration> {
    if Nullish(d) then None
    else
      Some(AdPresentation.Duration(
        if Get(d, "value").Num? then Some(Get(d, "value").n) else None,
        if Get(d, "unit").Str? then Some(Get(d, "unit").s) else None))
  }

  /** The title cell: the title when it is truthy, else the dash. */
  function TitleCell(ad: Json): (r: string)
    ensures Get(ad, "title").Str? && Get(ad, "title").s != "" ==> r == Get(ad, "title").s
    ensures !Truthy(Get(ad, "title")) ==> r == AdPresentation.Dash
  {
    ToJsString(Or(Get(ad, "title"), Str(AdPresentation.Dash)))
  }

  /** The page's own `resolvePlatformName`, applied to the row's
      `platform`: the dash for a falsy value, a label as it is, and a
      record's `platform` member unless that is `null` or missing. */
  function PlatformCell(ad: Json): (r: string)
    ensures !Truthy(Get(ad, "platform")) ==> r == AdPresentation.Dash
  {
    var p := Get(ad, "platform");
    if !Truthy(p) then AdPresentation.Dash
    else if p.Str? then p.s
    else if Nullish(Get(p, "platform")) then AdPresentation.Dash
    else ToJsString(Get(p, "platform"))
  }

  /** `value > 1` as JavaScript evaluates it for whatever the row holds:
      `null`, `undefined` and the booleans convert to 0, NaN, 0 or 1, and
      anything else that is not a number is compared through its text. */
  function AboveOne(v: Json): (r: bool)
    ensures v.Num? ==> (r <==> v.n > 1)
    ensures v.Undefined? || v.Null? || v.Bool? || v == Str("") ==> !r
    ensures v.Str? ==> (r <==> Text.NumeralAboveOne(v.s))
    ensures v.Obj? ==> !r
  {
    match v
    case Num(n) => n > 1
    case Undefined | Null | Bool(_) => false
    case _ => Text.NumeralAboveOne(ToJsString(v))
  }

  /** A value written as a numeral compares with one as its number does, so
      the untyped `"2"` pluralises like `2`. */
  lemma NumeralValueAboveOne(n: int)
    ensures AboveOne(Str(Text.Decimal(n))) <==> AboveOne(Num(n))
    ensures AboveOne(Arr([Num(n)])) <==> AboveOne(Num(n))
  {
    Text.DecimalAboveOne(n);
    assert JoinItems([Num(n)]) == Text.Decimal(n);
  }

  /** The page's own `formatDuration`, applied to the row's `duration`: the
      dash unless the record has a truthy value and unit, otherwise
      "<value> <unit>" with the unit pluralised for values above one. */
  function DurationCell(ad: Json): (r: string)
    ensures !Truthy(Get(ad, "duration")) ==> r == AdPresentation.Dash
    ensures var d := Get(ad, "duration");
            Truthy(d) && Truthy(Get(d, "value")) && Truthy(Get(d, "unit")) ==>
              r == ToJsString(Get(d, "value")) + " " + ToJsString(Get(d, "unit"))
                   + (if AboveOne(Get(d, "value")) then "s" else "")
  {
    var d := Get(ad, "duration");
    if !Truthy(d) || !Truthy(Get(d, "value")) || !Truthy(Get(d, "unit")) then AdPresentation.Dash
    else
      var v := Get(d, "value");
      ToJsString(v) + " " + ToJsString(Get(d, "unit")) + (if AboveOne(v) then "s" else "")
  }

  /** A row whose duration value is the numeral of a non-zero number shows
      the same cell as a row holding the number itself. */
  lemma NumeralDurationShowsLikeNumber(n: int, unit: string)
    requires n != 0 && unit != ""
    ensures DurationCell(Obj(map["duration" := Obj(map["value" := Str(Text.Decimal(n)), "unit" := Str(unit)])]))
            == DurationCell(Obj(map["duration" := Obj(map["value" := Num(n), "unit" := Str(unit)])]))
  {
    var text := Obj(map["value" := Str(Text.Decimal(n)), "unit" := Str(unit)]);
    var number := Obj(map["value" := Num(n), "unit" := Str(unit)]);
    assert Get(Obj(map["duration" := text]), "duration") == text;
    assert Get(Obj(map["duration" := number]), "duration") == number;
    assert Get(text, "value") == Str(Text.Decimal(n)) && Get(text, "unit") == Str(unit);
    assert Get(number, "value") == Num(n) && Get(number, "unit") == Str(unit);
    NumeralValueAboveOne(n);
  }

  /** On every row of the declared shape the page's own formatters say
      exactly what the shared presentation helpers say. */
  lemma CellsAgreeWithSharedHelpers(ad: Json)
    ensures PlatformTyped(Get(ad, "platform")) ==>
              PlatformCell(ad) == AdPresentation.FormatPlatform(PlatformOf(Get(ad, "platform")))
    ensures DurationTyped(Get(ad, "duration")) ==>
              DurationCell(ad) == AdPresentation.FormatDuration(DurationOf(Get(ad, "duration")))
  {
  }

  /** One table row: the serial number and the three text cells (the price
      cell is not part of this model). */
  datatype Row = Row(serial: int, title: string, platform: string, duration: string)

  /** The rows the table shows for the current list. */
  function Rows(s: ListPaging.ListState): (r: seq<Row>)
    ensures |r| == |s.items|
    ensures forall i :: 0 <= i < |r| ==>
              r[i] == Row(ListPaging.Serial(s, i), TitleCell(s.items[i]), PlatformCell(s.items[i]), DurationCell(s.items[i]))
  {
    seq(|s.items|, i requires 0 <= i < |s.items| =>
      Row(ListPaging.Serial(s, i), TitleCell(s.items[i]), PlatformCell(s.items[i]), DurationCell(s.items[i])))
  }

  /** The rows of a valid page are numbered consecutively from the first
      serial of the effective page. */
  lemma RowsNumberedConsecutively(s: ListPaging.ListState, i: nat)
    requires ListPaging.Valid(s) && 0 < i < |s.items|
    ensures Rows(s)[i].serial == Rows(s)[i - 1].serial + 1
    ensures Rows(s)[0].serial == (ListPaging.EffectivePage(s) - 1) * 10 + 1
  {
  }
}

=== FILE: admin_categories.dfy ===
/** The administrator's category page (src/pages/admin/AdminCategories.tsx):
    the shared list machinery with the `categories` payload key, plus the
    add-category form with its session check, its reset after a successful
    add and the return to the first page. */
module AdminCategories {

  import opened Optional
  import opened Json
  import ListPaging

  const ListKey: string := "categories"
  const LoadError: string := "Unable to load categories"
  const NoSessionError: string := "Unable to submit without an admin session."
  const AddError: string := "Unable to add category"
  const AddedMessage: string := "Category added successfully."

  /** `fetchCategories(page)` once its response is in. */
  function Load(s: ListPaging.ListState, requested: int, reply: ListPaging.Reply): (r: ListPaging.ListState)
    ensures r.currentPage == s.currentPage
    ensures reply == ListPaging.Failed("") ==> r.error == Some(LoadError) && r.items == []
    ensures reply.Failed? ==> r.error.Some? && r.items == [] && r.info.None?
    ensures reply.Malformed? ==> r.error == Some(reply.parseError) && r.items == [] && r.info.None?
    ensures reply.Succeeded? && r.error.None? ==> r.items == ListPaging.ExtractList(reply.payload, ListKey)
    ensures reply.Succeeded? && r.error.None? && !reply.payload.Arr? && !Get(reply.payload, "data").Arr?
            && Get(reply.payload, "categories").Arr? ==>
              r.items == Get(reply.payload, "categories").items
    ensures ListPaging.Valid(s) ==> ListPaging.Valid(r)
  {
    ListPaging.ApplyReply(s, requested, reply, ListKey, LoadError)
  }

  /** A list under `data` wins over one under `categories`, and a
      `pagination` member with numeric fields is taken as it is (with the
      page count raised to at least one). */
  lemma LoadExamples(a: seq<Json>, b: seq<Json>)
    ensures var r := Load(ListPaging.Initial, 1, ListPaging.Succeeded(Obj(map["data" := Arr(a), "categories" := Arr(b)])));
            r.items == a
    ensures var pagination := Obj(map["total" := Num(35), "page" := Num(2), "pages" := Num(0), "pageSize" := Num(10)]);
            var r := Load(ListPaging.Initial, 2, ListPaging.Succeeded(Obj(map["categories" := Arr(b), "pagination" := pagination])));
            r.items == b && r.info == Some(ListPaging.Pagination(35, 2, 1, 10))
  {
    var pagination := Obj(map["total" := Num(35), "page" := Num(2), "pages" := Num(0), "pageSize" := Num(10)]);
    var payload := Obj(map["categories" := Arr(b), "pagination" := pagination]);
    assert Get(payload, "pagination") == pagination;
    assert Get(pagination, "pages") == Num(0);
  }

  /** The two text inputs of the form. */
  datatype Form = Form(category: string, platform: string)

  const EmptyForm: Form := Form("", "")

  /** `handleChange` for the input named `name`: that field takes the typed
      value and the other keeps its own. */
  function HandleChange(f: Form, name: string, value: string): (r: Form)
    ensures name == "category" ==> r.category == value && r.platform == f.platform
    ensures name == "platform" ==> r.platform == value && r.category == f.category
    ensures name != "category" && name != "platform" ==> r == f
  {
    if name == "category" then f.(category := value)
    else if name == "platform" then f.(platform := value)
    else f
  }

  /** Everything the page holds. */
  datatype Page = Page(
    list: ListPaging.ListState,
    form: Form,
    showForm: bool,
    submitting: bool,
    error: Option<string>,
    success: Option<string>)

  const Initial: Page := Page(ListPaging.Initial, EmptyForm, false, false, None, None)

  /** The "Add Category" / "Close" button. */
  function ToggleForm(p: Page): (r: Page)
    ensures r.showForm == !p.showForm && r.(showForm := p.showForm) == p
  {
    p.(showForm := !p.showForm)
  }

  /** The request `handleSubmit` sends: the bearer token and the body. */
  datatype AddRequest = AddRequest(authorization: string, body: Json)

  /** `refreshFirstPage`, called from the `handleSubmit` of the render the
      submit started in, so it tests the page number `submittedPage` that
      render saw rather than the page shown when the add completes: on page
      1 the list is fetched again at once and the page is left as it is now;
      elsewhere the page is set to 1, which fetches page 1 through the page
      effect whenever that changes the page. */
  datatype Refresh = Refresh(list: ListPaging.ListState, fetchNow: bool)

  function RefreshFirstPage(s: ListPaging.ListState, submittedPage: int): (r: Refresh)
    ensures r.fetchNow <==> submittedPage == 1
    ensures r.fetchNow ==> r.list == s
    ensures !r.fetchNow ==> r.list == s.(currentPage := 1)
    ensures submittedPage == s.currentPage ==> r.list == s.(currentPage := 1)
  {
    if submittedPage == 1 then Refresh(s, true) else Refresh(s.(currentPage := 1), false)
  }

  /** When the page did not move during the add, a refresh ends with page 1
      fetched: at once, or because the current page changed and the page
      effect fetches the new page. */
  lemma RefreshFetchesFirstPage(s: ListPaging.ListState)
    ensures RefreshFirstPage(s, s.currentPage).list.currentPage == 1
    ensures RefreshFirstPage(s, s.currentPage).fetchNow
            || RefreshFirstPage(s, s.currentPage).list.currentPage != s.currentPage
  {
  }

  /** When the pager moved during the add, the captured page number decides
      alone: an add started on page 1 and finished on page 3 fetches page 1
      while page 3 stays selected, and one started on page 2 and finished on
      page 1 sets the page it already has, so nothing is fetched again. */
  lemma RefreshUsesSubmittedPage(s: ListPaging.ListState)
    ensures s.currentPage == 3 ==>
              RefreshFirstPage(s, 1).fetchNow && RefreshFirstPage(s, 1).list.currentPage == 3
    ensures s.currentPage == 1 ==>
              !RefreshFirstPage(s, 2).fetchNow && RefreshFirstPage(s, 2).list == s
  {
  }

  /** `handleSubmit` up to the request: both messages are cleared; without a
      truthy token the error is set and nothing is sent; otherwise the page
      is marked as submitting and the form's two fields are sent. */
  function Submit(p: Page, token: Json): (r: (Page, Option<AddRequest>))
    ensures !Truthy(token) ==>
              r.1.None? && r.0 == p.(error := Some(NoSessionError), success := None)
    ensures Truthy(token) ==>
              r.1.Some? && r.0 == p.(error := None, success := None, submitting := true)
    ensures r.1.Some? ==>
              r.1.value.body == Obj(map["category" := Str(p.form.category), "platform" := Str(p.form.platform)])
              && r.1.value.authorization == "Bearer " + ToJsString(token)
  {
    var cleared := p.(error := None, success := None);
    if !Truthy(token) then (cleared.(error := Some(NoSessionError)), None)
    else
      (cleared.(submitting := true),
       Some(AddRequest("Bearer " + ToJsString(token),
                       Obj(map["category" := Str(p.form.category), "platform" := Str(p.form.platform)]))))
  }

  /** How the add request ended. */
  datatype AddReply = AddFailed(text: string) | Added

  /** The rest of `handleSubmit`, for a submit started while page
      `submittedPage` was selected. A successful add reports success,
      empties and hides the form and returns the list to page 1 through
      `refreshFirstPage`; a failure reports the body text, or the default
      when it is empty, and keeps the form as it is now, including anything
      typed during the request. Either way the page stops submitting. */
  function FinishSubmit(p: Page, submittedPage: int, reply: AddReply): (r: (Page, bool))
    ensures !r.0.submitting && r.0.list.items == p.list.items
    ensures reply.Added? ==>
              r.0.success == Some(AddedMessage) && r.0.form == EmptyForm && !r.0.showForm
              && r.0.error == p.error
              && r.0.list.currentPage == (if submittedPage == 1 then p.list.currentPage else 1)
    ensures reply.Added? && submittedPage == p.list.currentPage ==> r.0.list.currentPage == 1
    ensures reply.AddFailed? ==>
              r.0 == p.(submitting := false, error := Some(if reply.text != "" then reply.text else AddError))
              && !r.1
    ensures r.1 <==> reply.Added? && submittedPage == 1
  {
    match reply
    case AddFailed(text) => (p.(submitting := false, error := Some(if text != "" then text else AddError)), false)
    case Added =>
      var refresh := RefreshFirstPage(p.list, submittedPage);
      (p.(success := Some(AddedMessage), form := EmptyForm, showForm := false,
          list := refresh.list, submitting := false),
       refresh.fetchNow)
  }

  /** Submitting without a session sends nothing whatever the form holds,
      and a session with an empty token counts as none. */
  lemma NoSessionSendsNothing(p: Page)
    ensures Submit(p, Null).1.None? && Submit(p, Str("")).1.None?
    ensures Submit(p, Null).0.error == Some(NoSessionError)
  {
  }

  /** A successful add after a submit leaves an empty, hidden form, whatever
      was typed, while a failed one leaves the typed form open for another
      try. */
  lemma SubmitThenAdded(p: Page, token: Json)
    requires Truthy(token)
    ensures var sent := Submit(p, token).0;
            var done := FinishSubmit(sent, p.list.currentPage, Added).0;
            done.form == EmptyForm && !done.showForm && done.error.None? && done.list.currentPage == 1
    ensures var sent := Submit(p, token).0;
            var done := FinishSubmit(sent, p.list.currentPage, AddFailed("")).0;
            done.form == p.form && done.showForm == p.showForm && done.error == Some(AddError)
  {
  }
}

=== FILE: admin_login.dfy ===
/** The administrator's sign-in page (src/pages/admin/AdminLogin.tsx): the
    checks before the request, the message a refused sign-in shows, and the
    token and name a successful one needs. As written, a success reply
    carrying a token but no `admin` record throws while the name is being
    read, so the administrator is not signed in; the model keeps that
    reading beside the intended one, in which a missing record gives the
    default name. */
module AdminLogin {

  import opened Optional
  import opened Json
  import Failures
  import AuthContext
  import AppRoutes

  const MissingFields: string := "Enter email and password"
  const BadCredentials: string := "Invalid email or password"
  const LoginError: string := "Unable to login"
  const TokenMissing: string := "Login succeeded but token is missing"
  const DefaultName: string := "Admin"

  /** The two inputs of the form. */
  datatype Form = Form(email: string, password: string)

  const EmptyForm: Form := Form("", "")

  /** `handleChange` for the input named `name`; the form has no other
      inputs, so any other name leaves both fields as they are. */
  function HandleChange(f: Form, name: string, value: string): (r: Form)
    ensures name == "email" ==> r.email == value && r.password == f.password
    ensures name == "password" ==> r.password == value && r.email == f.email
    ensures name != "email" && name != "password" ==> r == f
  {
    if name == "email" then f.(email := value)
    else if name == "password" then f.(password := value)
    else f
  }

  /** What `handleSubmit` does before any request. */
  datatype Step = Ignored | Rejected(message: string) | Send(body: Json)

  /** Nothing while a sign-in is in flight; the prompt when either field is
      empty; otherwise the two fields as the request body. */
  function Submit(f: Form, submitting: bool): (r: Step)
    ensures submitting <==> r == Ignored
    ensures !submitting && (f.email == "" || f.password == "") ==> r == Rejected(MissingFields)
    ensures r.Send? <==> !submitting && f.email != "" && f.password != ""
    ensures r.Send? ==> Get(r.body, "email") == Str(f.email) && Get(r.body, "password") == Str(f.password)
  {
    if submitting then Ignored
    else if f.email == "" || f.password == "" then Rejected(MissingFields)
    else Send(Obj(map["email" := Str(f.email), "password" := Str(f.password)]))
  }

  /** Typing both fields into the empty form is what lets a request out. */
  lemma TypedFormIsSent(email: string, password: string)
    ensures Submit(HandleChange(HandleChange(EmptyForm, "email", email), "password", password), false).Send?
            <==> email != "" && password != ""
  {
  }

  /** The fallback for a JSON error body without a message. */
  function StatusFallback(status: int): (r: string)
    ensures r == BadCredentials <==> status == 401
  {
    if status == 401 then BadCredentials else LoginError
  }

  /** The error a refused sign-in shows, as written: a body that is not
      JSON ends in the error of reading the body a second time. */
  function FailureMessageAsWritten(status: int, body: Failures.FailedBody): (r: Failures.Shown)
    ensures body.TextBody? ==> r == Failures.BodyAlreadyRead
    ensures body.JsonBody? ==> r == Failures.Message(Failures.FriendlyMessage(body.payload, StatusFallback(status)))
    ensures body.JsonBody? && Truthy(Get(body.payload, "message")) ==>
              r == Failures.Message(ToJsString(Get(body.payload, "message")))
    ensures body.JsonBody? && !Truthy(Get(body.payload, "message")) && Truthy(Get(body.payload, "error")) ==>
              r == Failures.Message(ToJsString(Get(body.payload, "error")))
    ensures body.JsonBody? && !Truthy(Get(body.payload, "message")) && !Truthy(Get(body.payload, "error"))
            && Truthy(Get(body.payload, "reason")) ==>
              r == Failures.Message(ToJsString(Get(body.payload, "reason")))
    ensures body.JsonBody? && !Truthy(Get(body.payload, "message")) && !Truthy(Get(body.payload, "error"))
            && !Truthy(Get(body.payload, "reason")) ==>
              r == Failures.Message(if status == 401 then BadCredentials else LoginError)
  {
    Failures.FailureMessageAsWritten(body, StatusFallback(status), LoginError)
  }

  /** The error a refused sign-in shows, as intended: the body's `message`,
      `error` or `reason`, else the status fallback; a body that is not
      JSON shows its text, or "Unable to login" when empty. */
  function FailureMessage(status: int, body: Failures.FailedBody): (r: string)
    ensures body.JsonBody? ==> r == Failures.FriendlyMessage(body.payload, StatusFallback(status))
    ensures body.JsonBody? && Truthy(Get(body.payload, "message")) ==> r == ToJsString(Get(body.payload, "message"))
    ensures body.JsonBody? && !Truthy(Get(body.payload, "message")) && Truthy(Get(body.payload, "error")) ==>
              r == ToJsString(Get(body.payload, "error"))
    ensures body.JsonBody? && !Truthy(Get(body.payload, "message")) && !Truthy(Get(body.payload, "error"))
            && Truthy(Get(body.payload, "reason")) ==>
              r == ToJsString(Get(body.payload, "reason"))
    ensures body.JsonBody? && !Truthy(Get(body.payload, "message")) && !Truthy(Get(body.payload, "error"))
            && !Truthy(Get(body.payload, "reason")) ==>
              r == (if status == 401 then BadCredentials else LoginError)
    ensures body.TextBody? ==> r == (if body.text != "" then body.text else LoginError)
  {
    Failures.FailureMessage(body, StatusFallback(status), LoginError)
  }

  /** How the sign-in request ended: a failure with its status and body, or
      success with the body parsed as JSON (`None` when it was not). */
  datatype Reply = Failed(status: int, body: Failures.FailedBody) | Succeeded(parsed: Option<Json>)

  /** Why a sign-in ended in an exception the page did not throw itself. */
  datatype Fault = BodyAlreadyRead | NoAdminRecord

  /** What the reply leads to: a message, an exception from the runtime
      (shown with the runtime's own wording), or the providers after the
      administrator signed in. */
  datatype Outcome = Refused(message: string) | Threw(fault: Fault) | SignedIn(auth: AuthContext.Auth)

  /** `await response.json().catch(() => ({ name: 'Admin', token: '' }))`. */
  function SuccessData(parsed: Option<Json>): (r: Json)
    ensures parsed.None? ==> Get(r, "token") == Str("")
  {
    if parsed.Some? then parsed.value else Obj(map["name" := Str(DefaultName), "token" := Str("")])
  }

  /** `(data && data.token) ?? null`. */
  function TokenOf(data: Json): (r: Json)
    ensures Truthy(r) <==> Truthy(data) && Truthy(Get(data, "token"))
    ensures Truthy(r) ==> r == Get(data, "token")
  {
    Coalesce(if Truthy(data) then Get(data, "token") else data, Null)
  }

  /** The name as written: `(data && data.admin.fullName) ?? 'Admin'`, then
      `|| 'Admin'`. Reading `fullName` of a missing `admin` record throws. */
  function NameAsWritten(data: Json): (r: Option<Json>)
    requires Truthy(data)
    ensures r.None? <==> Nullish(Get(data, "admin"))
  {
    var admin := Get(data, "admin");
    if Nullish(admin) then None
    else Some(Or(Coalesce(Get(admin, "fullName"), Str(DefaultName)), Str(DefaultName)))
  }

  /** The name as intended: `data?.admin?.fullName || 'Admin'`. */
  function Name(data: Json): (r: Json)
    ensures Truthy(Get(Get(data, "admin"), "fullName")) ==> r == Get(Get(data, "admin"), "fullName")
    ensures !Truthy(Get(Get(data, "admin"), "fullName")) ==> r == Str(DefaultName)
  {
    Or(Get(Get(data, "admin"), "fullName"), Str(DefaultName))
  }

  /** Where the admin record is there, the two readings give the same name. */
  lemma NamesAgreeWithARecord(data: Json)
    requires Truthy(data) && !Nullish(Get(data, "admin"))
    ensures NameAsWritten(data) == Some(Name(data))
  {
  }

  /** The rest of `handleSubmit`, as written. */
  function OnReplyAsWritten(a: AuthContext.Auth, reply: Reply): (r: Outcome)
    ensures reply.Failed? && reply.body.TextBody? ==> r == Threw(BodyAlreadyRead)
    ensures reply.Succeeded? && !Truthy(TokenOf(SuccessData(reply.parsed))) ==> r == Refused(TokenMissing)
    ensures reply.Succeeded? && Truthy(TokenOf(SuccessData(reply.parsed))) && Nullish(Get(SuccessData(reply.parsed), "admin")) ==>
              r == Threw(NoAdminRecord)
    ensures r.SignedIn? ==> reply.Succeeded? && r.auth.user == a.user
  {
    match reply
    case Failed(status, body) =>
      var shown := FailureMessageAsWritten(status, body);
      if shown.BodyAlreadyRead? then Threw(BodyAlreadyRead) else Refused(shown.text)
    case Succeeded(parsed) =>
      var data := SuccessData(parsed);
      var token := TokenOf(data);
      if !Truthy(token) then Refused(TokenMissing)
      else
        var name := NameAsWritten(data);
        if name.None? then Threw(NoAdminRecord)
        else SignedIn(AuthContext.Login(a, AuthContext.Admin, AuthContext.Identity(name.value, token)))
  }

  /** The rest of `handleSubmit`, as intended: it never throws, and a reply
      with a truthy token always signs the administrator in. */
  function OnReply(a: AuthContext.Auth, reply: Reply): (r: Outcome)
    ensures !r.Threw?
    ensures reply.Failed? ==> r == Refused(FailureMessage(reply.status, reply.body))
    ensures reply.Succeeded? && !Truthy(TokenOf(SuccessData(reply.parsed))) ==> r == Refused(TokenMissing)
    ensures r.SignedIn? <==> reply.Succeeded? && Truthy(TokenOf(SuccessData(reply.parsed)))
    ensures r.SignedIn? ==>
              var data := SuccessData(reply.parsed);
              r.auth.admin.identity == AuthContext.Identity(Name(data), Get(data, "token"))
              && r.auth.user == a.user
  {
    match reply
    case Failed(status, body) => Refused(FailureMessage(status, body))
    case Succeeded(parsed) =>
      var data := SuccessData(parsed);
      var token := TokenOf(data);
      if !Truthy(token) then Refused(TokenMissing)
      else SignedIn(AuthContext.Login(a, AuthContext.Admin, AuthContext.Identity(Name(data), token)))
  }

  /** Outside the two faults the readings agree. */
  lemma AsWrittenAgreesOtherwise(a: AuthContext.Auth, reply: Reply)
    ensures !OnReplyAsWritten(a, reply).Threw? ==> OnReplyAsWritten(a, reply) == OnReply(a, reply)
  {
  }

  /** `{"token": "t"}`: as written, the administrator is not signed in
      although the server granted a token; as intended, they are signed in
      as "Admin" and the dashboard opens. */
  lemma TokenWithoutAdminRecord(a: AuthContext.Auth)
    ensures OnReplyAsWritten(a, Succeeded(Some(Obj(map["token" := Str("t")])))) == Threw(NoAdminRecord)
    ensures var r := OnReply(a, Succeeded(Some(Obj(map["token" := Str("t")]))));
            r.SignedIn? && r.auth.admin.identity == AuthContext.Identity(Str(DefaultName), Str("t"))
            && AuthContext.Token(r.auth, AuthContext.Admin) == Str("t")
            && AppRoutes.Route("/admin", r.auth.user.identity, r.auth.admin.identity)
               == AppRoutes.Render(AppRoutes.AdminLayout, AppRoutes.AdminDashboard)
  {
    var data := Obj(map["token" := Str("t")]);
    assert Get(data, "token") == Str("t") && Get(data, "admin") == Undefined;
    AppRoutes.KnownPathsAreKeys();
  }

  /** A refusal whose body is plain text: as written the page shows the
      error of reading the body twice; as intended it shows the text. */
  lemma PlainTextRefusalIsLost(a: AuthContext.Auth)
    ensures OnReplyAsWritten(a, Failed(502, Failures.TextBody("Bad gateway"))) == Threw(BodyAlreadyRead)
    ensures OnReply(a, Failed(502, Failures.TextBody("Bad gateway"))) == Refused("Bad gateway")
  {
  }

  /** A success body that is not JSON never signs in: its stand-in has an
      empty token. */
  lemma UnparseableSuccessIsRefused(a: AuthContext.Auth)
    ensures OnReply(a, Succeeded(None)) == Refused(TokenMissing)
    ensures OnReplyAsWritten(a, Succeeded(None)) == Refused(TokenMissing)
  {
  }

  /** A refused sign-in whose JSON body says nothing shows the credential
      message for 401 and the general one otherwise. */
  lemma RefusalMessages(a: AuthContext.Auth)
    ensures OnReply(a, Failed(401, Failures.JsonBody(Obj(map[])))) == Refused(BadCredentials)
    ensures OnReply(a, Failed(500, Failures.JsonBody(Null))) == Refused(LoginError)
    ensures OnReply(a, Failed(401, Failures.JsonBody(Obj(map["error" := Str("Locked")])))) == Refused("Locked")
  {
    assert Get(Obj(map["error" := Str("Locked")]), "error") == Str("Locked");
  }
}

=== FILE: admin_otp_verification.dfy ===
/** The administrator's one-time-passcode page
    (src/pages/admin/AdminOtpVerification.tsx): four one-digit boxes joined
    into the code, the length gate, the sign-in that needs a token, and the
    resend button's guard and confirmation. */
module AdminOtpVerification {

  import opened Optional
  import opened Json
  import Text
  import Failures
  import AuthContext
  import AppRoutes

  const OtpLength: nat := 4
  const CodePrompt: string := "Please enter the 4-digit code"
  const InvalidCode: string := "Invalid verification code"
  const TokenMissing: string := "Verification succeeded but token missing"
  const DefaultName: string := "Admin"
  const ResendError: string := "Enter correct email"

  /** The boxes before anything is typed. */
  const Blank: seq<string> := ["", "", "", ""]

  /** What a box may hold: nothing, or one digit. */
  predicate BoxValue(s: string) {
    |s| <= 1 && Text.AllDigits(s)
  }

  predicate WellFormed(boxes: seq<string>) {
    |boxes| == OtpLength && forall i :: 0 <= i < |boxes| ==> BoxValue(boxes[i])
  }

  /** `value.replace(/\D/g, '').slice(-1)`: the last digit typed, or "". */
  function LastDigit(value: string): (r: string)
    ensures BoxValue(r)
    ensures r == "" <==> Text.Digits(value) == ""
    ensures r != "" ==> r[0] == Text.Digits(value)[|Text.Digits(value)| - 1]
  {
    var digits := Text.Digits(value);
    if digits == [] then "" else [digits[|digits| - 1]]
  }

  /** `handleChange(index, value)`: box `index` takes the last digit typed
      into it and no other box changes. */
  function HandleChange(boxes: seq<string>, index: nat, value: string): (r: seq<string>)
    requires index < |boxes|
    ensures |r| == |boxes| && r[index] == LastDigit(value)
    ensures forall j :: 0 <= j < |boxes| && j != index ==> r[j] == boxes[j]
    ensures WellFormed(boxes) ==> WellFormed(r)
  {
    boxes[index := LastDigit(value)]
  }

  /** `otp.join('')`. */
  function Join(boxes: seq<string>): (r: string)
    ensures (forall i :: 0 <= i < |boxes| ==> Text.AllDigits(boxes[i])) ==> Text.AllDigits(r)
  {
    if boxes == [] then "" else boxes[0] + Join(boxes[1..])
  }

  /** How many boxes hold something. */
  function FilledCount(boxes: seq<string>): (n: nat)
    ensures n <= |boxes|
    ensures n == |boxes| <==> forall i :: 0 <= i < |boxes| ==> boxes[i] != ""
  {
    if boxes == [] then 0 else (if boxes[0] != "" then 1 else 0) + FilledCount(boxes[1..])
  }

  /** With at most one character per box, the code is as long as the number
      of filled boxes. */
  lemma {:induction false} JoinLength(boxes: seq<string>)
    requires forall i :: 0 <= i < |boxes| ==> |boxes[i]| <= 1
    ensures |Join(boxes)| == FilledCount(boxes)
  {
    if boxes != [] {
      JoinLength(boxes[1..]);
    }
  }

  /** The code has the required length exactly when every box is filled. */
  lemma CodeCompleteIffAllFilled(boxes: seq<string>)
    requires WellFormed(boxes)
    ensures |Join(boxes)| == OtpLength <==> forall i :: 0 <= i < OtpLength ==> boxes[i] != ""
  {
    JoinLength(boxes);
  }

  /** What `handleSubmit` does before any request. */
  datatype Step = Ignored | Rejected(message: string) | Send(body: Json)

  function Submit(boxes: seq<string>, loading: bool, email: Json): (r: Step)
    ensures loading <==> r == Ignored
    ensures !loading && |Join(boxes)| != OtpLength ==> r == Rejected(CodePrompt)
    ensures r.Send? <==> !loading && |Join(boxes)| == OtpLength
    ensures r.Send? ==> Get(r.body, "email") == email && Get(r.body, "otp") == Str(Join(boxes))
  {
    var code := Join(boxes);
    if loading then Ignored
    else if |code| != OtpLength then Rejected(CodePrompt)
    else Send(Obj(map["email" := email, "otp" := Str(code)]))
  }

  /** Filling the four blank boxes one after the other sends their digits. */
  lemma FilledBoxesAreSent(email: Json, a: char, b: char, c: char, d: char)
    requires Text.IsDigit(a) && Text.IsDigit(b) && Text.IsDigit(c) && Text.IsDigit(d)
    ensures var boxes := HandleChange(HandleChange(HandleChange(HandleChange(Blank, 0, [a]), 1, [b]), 2, [c]), 3, [d]);
            Submit(boxes, false, email) == Send(Obj(map["email" := email, "otp" := Str([a, b, c, d])]))
  {
    TypedDigitIsKept(a);
    TypedDigitIsKept(b);
    TypedDigitIsKept(c);
    TypedDigitIsKept(d);
    var boxes := HandleChange(HandleChange(HandleChange(HandleChange(Blank, 0, [a]), 1, [b]), 2, [c]), 3, [d]);
    assert boxes == [[a], [b], [c], [d]];
    JoinOfDigits(a, b, c, d);
  }

  /** A single digit typed into a box is what the box then holds. */
  lemma TypedDigitIsKept(c: char)
    requires Text.IsDigit(c)
    ensures LastDigit([c]) == [c]
  {
    Text.DigitsKeepsDigitStrings([c]);
  }

  lemma JoinOfDigits(a: char, b: char, c: char, d: char)
    ensures Join([[a], [b], [c], [d]]) == [a, b, c, d]
  {
    var boxes := [[a], [b], [c], [d]];
    assert Join(boxes[3..]) == [d];
    assert Join(boxes[2..]) == [c, d];
    assert Join(boxes[1..]) == [b, c, d];
  }

  /** A box left blank keeps the form from being sent. */
  lemma BlankBoxRejects(boxes: seq<string>, email: Json, i: nat)
    requires WellFormed(boxes) && i < OtpLength && boxes[i] == ""
    ensures Submit(boxes, false, email) == Rejected(CodePrompt)
  {
    CodeCompleteIffAllFilled(boxes);
  }

  /** How the verification request ended: a failure with its body text, or
      success with the body parsed as JSON (`None` when it was not JSON,
      which the page reads as `{}`). */
  datatype Reply = Failed(text: string) | Verified(parsed: Option<Json>)

  function ResultOf(parsed: Option<Json>): Json {
    if parsed.Some? then parsed.value else Obj(map[])
  }

  /** What the reply leads to: an error message, or the providers after the
      administrator signed in. */
  datatype Outcome = Refused(message: string) | SignedIn(auth: AuthContext.Auth)

  /** The rest of `handleSubmit`. A success without a truthy token is an
      error and signs nobody in; otherwise the administrator signs in with
      `admin.fullName`, or "Admin" when that is falsy, and the token. */
  function OnReply(a: AuthContext.Auth, reply: Reply): (r: Outcome)
    ensures reply.Failed? ==> r == Refused(Failures.TextOr(reply.text, InvalidCode))
    ensures reply.Verified? && !Truthy(Get(ResultOf(reply.parsed), "token")) ==> r == Refused(TokenMissing)
    ensures r.SignedIn? <==> reply.Verified? && Truthy(Get(ResultOf(reply.parsed), "token"))
    ensures r.SignedIn? ==>
              var result := ResultOf(reply.parsed);
              r.auth.admin.identity ==
                AuthContext.Identity(Or(Get(Get(result, "admin"), "fullName"), Str(DefaultName)), Get(result, "token"))
              && r.auth.user == a.user
  {
    match reply
    case Failed(text) => Refused(Failures.TextOr(text, InvalidCode))
    case Verified(parsed) =>
      var result := ResultOf(parsed);
      var token := Or(Get(result, "token"), Null);
      if !Truthy(token) then Refused(TokenMissing)
      else
        var name := Or(Get(Get(result, "admin"), "fullName"), Str(DefaultName));
        SignedIn(AuthContext.Login(a, AuthContext.Admin, AuthContext.Identity(name, token)))
  }

  /** A sign-in always leaves a truthy token behind and opens the
      administrator's pages; a body that is not JSON never signs in. */
  lemma SignedInHasToken(a: AuthContext.Auth, reply: Reply)
    ensures OnReply(a, reply).SignedIn? ==>
              Truthy(AuthContext.Token(OnReply(a, reply).auth, AuthContext.Admin))
              && AppRoutes.Route("/admin", OnReply(a, reply).auth.user.identity, OnReply(a, reply).auth.admin.identity)
                 == AppRoutes.Render(AppRoutes.AdminLayout, AppRoutes.AdminDashboard)
    ensures OnReply(a, Verified(None)) == Refused(TokenMissing)
  {
    AppRoutes.KnownPathsAreKeys();
  }

  /** `emailFromState`: the state's `email` unless it is `null` or missing. */
  function EmailFromState(state: Json): (r: Json)
    ensures Nullish(Get(state, "email")) ==> r == Str("")
    ensures !Nullish(Get(state, "email")) ==> r == Get(state, "email")
  {
    Coalesce(Get(state, "email"), Str(""))
  }

  /** The address the code is for: the pending email when truthy, else the
      state's email. */
  function Email(pendingEmail: Json, state: Json): (r: Json)
    ensures Truthy(pendingEmail) ==> r == pendingEmail
    ensures !Truthy(pendingEmail) ==> r == EmailFromState(state)
  {
    Or(pendingEmail, EmailFromState(state))
  }

  /** The "OTP expired" view replaces the form. */
  function Expired(pendingEmail: Json, state: Json): (r: bool)
    ensures r <==> !Truthy(pendingEmail) && !Truthy(Get(state, "email"))
  {
    !Truthy(Email(pendingEmail, state))
  }

  lemma ExpiredIffNoEmail(pendingEmail: Json, state: Json)
    ensures Expired(pendingEmail, state) <==> !Truthy(pendingEmail) && !Truthy(Get(state, "email"))
  {
  }

  /** `handleResend`'s guard: it does nothing without an email or while a
      resend or a verification is in progress. */
  function ResendAllowed(email: Json, resending: bool, loading: bool): (r: bool)
    ensures r ==> Truthy(email)
    ensures resending || loading ==> !r
    ensures Truthy(email) && !resending && !loading ==> r
  {
    Truthy(email) && !resending && !loading
  }

  /** The status shown after a resend: the reply's `message`, else its
      `status`, else a sentence naming the address. */
  function ResendConfirmation(data: Json, email: Json): (r: string)
    ensures Truthy(Get(data, "message")) ==> r == ToJsString(Get(data, "message"))
    ensures !Truthy(Get(data, "message")) && Truthy(Get(data, "status")) ==> r == ToJsString(Get(data, "status"))
    ensures !Truthy(Get(data, "message")) && !Truthy(Get(data, "status")) ==>
              r == "OTP sent to " + ToJsString(email) + ". Please check your inbox."
  {
    ToJsString(Or(Get(data, "message"), Or(Get(data, "status"), Str("OTP sent to " + ToJsString(email) + ". Please check your inbox."))))
  }

  /** How a resend ended. */
  datatype ResendReply = ResendFailed(text: string) | Resent(parsed: Option<Json>)

  /** `handleResend`: `None` when the guard stops it, otherwise the error or
      the status it ends with. */
  datatype Notice = Error(message: string) | Status(message: string)

  function Resend(email: Json, resending: bool, loading: bool, reply: ResendReply): (r: Option<Notice>)
    ensures r.None? <==> !ResendAllowed(email, resending, loading)
    ensures r.Some? && reply.ResendFailed? ==> r.value == Error(Failures.TextOr(reply.text, ResendError))
    ensures r.Some? && reply.Resent? ==> r.value == Status(ResendConfirmation(ResultOf(reply.parsed), email))
  {
    if !ResendAllowed(email, resending, loading) then None
    else
      match reply
      case ResendFailed(text) => Some(Error(Failures.TextOr(text, ResendError)))
      case Resent(parsed) => Some(Status(ResendConfirmation(ResultOf(parsed), email)))
  }

  /** The page never sends a resend for the expired view's empty address. */
  lemma NoResendWhenExpired(pendingEmail: Json, state: Json, resending: bool, loading: bool, reply: ResendReply)
    requires Expired(pendingEmail, state)
    ensures Resend(Email(pendingEmail, state), resending, loading, reply).None?
  {
  }
}

=== FILE: app_routes.dfy ===
/** The route table of src/routes/AppRoutes.tsx: which page (inside which
    layout) a path renders, and the two guards that send a visitor without
    an identity to the matching sign-in page. The router (React Router 6,
    whose routes here are not case-sensitive) compiles each route path into
    a case-insensitive pattern that also accepts trailing slashes, so a path
    is looked up by its `RouteKey`. */
module AppRoutes {

  import opened Json
  import Text
  import AuthContext
  import opened Optional

  datatype Page =
    | Home | Listing | Profile | Settings
    | Login | Signup | ForgotPassword
    | AdminLogin | AdminDashboard | AdminProfile | AdminUsers

  /** The chrome around a page: the public header and footer, the bare
      sign-in shell, or the administrator's shell. */
  datatype Layout = PublicLayout | AuthLayout | AdminLayout

  /** What the router shows: a page in its layout, or a redirect
      (`<Navigate to replace />`). */
  datatype View = Render(layout: Layout, page: Page) | Navigate(to: string, replace: bool)

  /** The paths the table names; every other path falls through to `*`. */
  const KnownPaths: set<string> :=
    {"/", "/listing", "/profile", "/settings", "/login", "/signup", "/forgot",
     "/admin/login", "/admin", "/admin/profile", "/admin/users"}

  /** `path` without the slashes at its end. */
  function StripTrailingSlashes(path: string): (r: string)
    ensures |r| <= |path| && r == path[..|r|]
    ensures r == [] || r[|r| - 1] != '/'
    ensures forall k :: |r| <= k < |path| ==> path[k] == '/'
    decreases |path|
  {
    if path != [] && path[|path| - 1] == '/' then StripTrailingSlashes(path[..|path| - 1]) else path
  }

  /** `path` with its ASCII capitals lowered, which is how a case-insensitive
      regular expression without the Unicode flag compares letters. */
  function LowerAscii(path: string): (r: string)
    ensures |r| == |path|
    ensures forall k :: 0 <= k < |path| ==> r[k] == Text.Lower(path[k])
  {
    seq(|path|, k requires 0 <= k < |path| => Text.Lower(path[k]))
  }

  /** The route path a location path matches: lower-cased, with trailing
      slashes dropped; a path of slashes only (or none, which the router
      reads as "/") matches the root. */
  function RouteKey(path: string): (r: string)
    ensures r != []
    ensures r != "/" ==> r[|r| - 1] != '/'
  {
    var stripped := StripTrailingSlashes(path);
    if stripped == [] then "/" else LowerAscii(stripped)
  }

  /** What a key looks like: no ASCII capitals, no longer than a non-empty
      path, and "/" for a path of slashes only. */
  lemma RouteKeyShape(path: string)
    ensures forall k :: 0 <= k < |RouteKey(path)| ==> !('A' <= RouteKey(path)[k] <= 'Z')
    ensures path != [] ==> |RouteKey(path)| <= |path|
    ensures (forall k :: 0 <= k < |path| ==> path[k] == '/') ==> RouteKey(path) == "/"
  {
  }

  /** A path without capitals that does not end in a slash is its own key. */
  lemma PlainPathIsItsKey(path: string)
    requires path != [] && path[|path| - 1] != '/'
    requires forall k :: 0 <= k < |path| ==> !('A' <= path[k] <= 'Z')
    ensures RouteKey(path) == path
  {
    assert LowerAscii(path) == path;
  }

  /** Every path of the table is its own key. */
  lemma KnownPathsAreKeys()
    ensures forall p :: p in KnownPaths ==> RouteKey(p) == p
  {
    assert StripTrailingSlashes("/") == StripTrailingSlashes([]);
    forall p | p in KnownPaths && p != "/" ensures RouteKey(p) == p {
      PlainPathIsItsKey(p);
    }
  }

  /** The pages behind a guard, and whose identity the guard consults. */
  function GuardOf(p: Page): Option<AuthContext.Kind> {
    match p
    case Profile | Settings => Some(AuthContext.User)
    case AdminDashboard | AdminProfile | AdminUsers => Some(AuthContext.Admin)
    case _ => None
  }

  /** The identity a guard of kind `k` consults. */
  function IdentityOf(k: AuthContext.Kind, user: Json, admin: Json): Json {
    if k == AuthContext.User then user else admin
  }

  /** The sign-in page each guard redirects to. */
  function SignInPath(k: AuthContext.Kind): string {
    if k == AuthContext.User then "/login" else "/admin/login"
  }

  /** `RequireUserAuth` and `RequireAdminAuth`: the wrapped view when the
      identity is truthy, otherwise a replacing redirect to the sign-in page. */
  function Guard(k: AuthContext.Kind, identity: Json, v: View): (r: View)
    ensures Truthy(identity) ==> r == v
    ensures !Truthy(identity) ==> r == Navigate(SignInPath(k), true)
  {
    if !Truthy(identity) then Navigate(SignInPath(k), true) else v
  }

  /** The view for `path` given the user's and the administrator's
      identities as the two providers hold them. */
  function Route(path: string, user: Json, admin: Json): (r: View)
    ensures RouteKey(path) !in KnownPaths <==> r == Navigate("/", true)
    ensures r.Navigate? ==> r.replace && (r.to == "/" || r.to == "/login" || r.to == "/admin/login")
    ensures r.Render? && GuardOf(r.page).Some? ==> Truthy(IdentityOf(GuardOf(r.page).value, user, admin))
    ensures RouteKey(path) == "/" ==> r == Render(PublicLayout, Home)
    ensures RouteKey(path) == "/listing" ==> r == Render(PublicLayout, Listing)
    ensures RouteKey(path) == "/login" ==> r == Render(AuthLayout, Login)
    ensures RouteKey(path) == "/signup" ==> r == Render(AuthLayout, Signup)
    ensures RouteKey(path) == "/forgot" ==> r == Render(AuthLayout, ForgotPassword)
    ensures RouteKey(path) == "/admin/login" ==> r == Render(AuthLayout, AdminLogin)
    ensures RouteKey(path) == "/profile" ==> r == Guard(AuthContext.User, user, Render(PublicLayout, Profile))
    ensures RouteKey(path) == "/settings" ==> r == Guard(AuthContext.User, user, Render(PublicLayout, Settings))
    ensures RouteKey(path) == "/admin" ==> r == Guard(AuthContext.Admin, admin, Render(AdminLayout, AdminDashboard))
    ensures RouteKey(path) == "/admin/profile" ==> r == Guard(AuthContext.Admin, admin, Render(AdminLayout, AdminProfile))
    ensures RouteKey(path) == "/admin/users" ==> r == Guard(AuthContext.Admin, admin, Render(AdminLayout, AdminUsers))
  {
    match RouteKey(path)
    case "/" => Render(PublicLayout, Home)
    case "/listing" => Render(PublicLayout, Listing)
    case "/profile" => Guard(AuthContext.User, user, Render(PublicLayout, Profile))
    case "/settings" => Guard(AuthContext.User, user, Render(PublicLayout, Settings))
    case "/login" => Render(AuthLayout, Login)
    case "/signup" => Render(AuthLayout, Signup)
    case "/forgot" => Render(AuthLayout, ForgotPassword)
    case "/admin/login" => Render(AuthLayout, AdminLogin)
    case "/admin" => Guard(AuthContext.Admin, admin, Render(AdminLayout, AdminDashboard))
    case "/admin/profile" => Guard(AuthContext.Admin, admin, Render(AdminLayout, AdminProfile))
    case "/admin/users" => Guard(AuthContext.Admin, admin, Render(AdminLayout, AdminUsers))
    case _ => Navigate("/", true)
  }

  /** A guarded path redirects exactly when the identity its guard consults
      is falsy, and then to that guard's sign-in page. */
  lemma GuardedPathsRedirect(path: string, user: Json, admin: Json)
    ensures RouteKey(path) in {"/profile", "/settings"} ==>
              (Route(path, user, admin).Navigate? <==> !Truthy(user))
              && (!Truthy(user) ==> Route(path, user, admin) == Navigate("/login", true))
    ensures RouteKey(path) in {"/admin", "/admin/profile", "/admin/users"} ==>
              (Route(path, user, admin).Navigate? <==> !Truthy(admin))
              && (!Truthy(admin) ==> Route(path, user, admin) == Navigate("/admin/login", true))
  {
  }

  /** Each guard reads only its own provider: the user's identity never
      affects administrator paths, and the administrator's never affects the
      others. */
  lemma GuardsIndependent(path: string, user: Json, user': Json, admin: Json, admin': Json)
    ensures RouteKey(path) !in {"/admin", "/admin/profile", "/admin/users"} ==>
              Route(path, user, admin) == Route(path, user, admin')
    ensures RouteKey(path) !in {"/profile", "/settings"} ==>
              Route(path, user, admin) == Route(path, user', admin)
  {
  }

  /** Every redirect lands on a path that renders for anybody, so the router
      never redirects twice in a row. */
  lemma RedirectsSettle(path: string, user: Json, admin: Json)
    ensures Route(path, user, admin).Navigate? ==>
              Route(Route(path, user, admin).to, user, admin).Render?
              && GuardOf(Route(Route(path, user, admin).to, user, admin).page).None?
  {
    var v := Route(path, user, admin);
    if v.Navigate? {
      TargetRendersUnguarded(v.to, user, admin);
    }
  }

  lemma TargetRendersUnguarded(to: string, user: Json, admin: Json)
    requires to == "/" || to == "/login" || to == "/admin/login"
    ensures Route(to, user, admin).Render? && GuardOf(Route(to, user, admin).page).None?
  {
    RedirectTargetsRender(user, admin);
  }

  /** The three places a redirect goes to render for anybody. */
  lemma RedirectTargetsRender(user: Json, admin: Json)
    ensures Route("/", user, admin) == Render(PublicLayout, Home)
    ensures Route("/login", user, admin) == Render(AuthLayout, Login)
    ensures Route("/admin/login", user, admin) == Render(AuthLayout, AdminLogin)
  {
    assert StripTrailingSlashes("/") == StripTrailingSlashes([]);
    PlainPathIsItsKey("/login");
    PlainPathIsItsKey("/admin/login");
  }

  /** Signing in through the providers opens the guarded pages, and signing
      out closes them again. */
  lemma SessionOpensGuardedPages(a: AuthContext.Auth, name: Json, token: Json)
    ensures var signedIn := AuthContext.Login(a, AuthContext.User, AuthContext.Identity(name, token));
            Route("/profile", signedIn.user.identity, signedIn.admin.identity) == Render(PublicLayout, Profile)
    ensures var signedIn := AuthContext.Login(a, AuthContext.Admin, AuthContext.Identity(name, token));
            Route("/admin/users", signedIn.user.identity, signedIn.admin.identity) == Render(AdminLayout, AdminUsers)
    ensures var signedOut := AuthContext.Logout(a, AuthContext.User);
            Route("/settings", signedOut.user.identity, signedOut.admin.identity) == Navigate("/login", true)
  {
    PlainPathIsItsKey("/profile");
    PlainPathIsItsKey("/admin/users");
    PlainPathIsItsKey("/settings");
  }

  /** Matching ignores letter case and trailing slashes: a path reaches the
      same view with a slash appended and with its capitals lowered, so
      "/Profile/" shows what "/profile" shows. */
  lemma RouteIgnoresCaseAndTrailingSlash(path: string, user: Json, admin: Json)
    ensures Route(path + "/", user, admin) == Route(path, user, admin)
    ensures Route(LowerAscii(path), user, admin) == Route(path, user, admin)
  {
    KeyIgnoresTrailingSlash(path);
    SameKeySameRoute(path + "/", path, user, admin);
    KeyIgnoresCase(path);
    SameKeySameRoute(LowerAscii(path), path, user, admin);
  }

  lemma KeyIgnoresTrailingSlash(path: string)
    ensures RouteKey(path + "/") == RouteKey(path)
  {
    assert (path + "/")[..|path|] == path;
  }

  lemma KeyIgnoresCase(path: string)
    ensures RouteKey(LowerAscii(path)) == RouteKey(path)
  {
    StripCommutesWithLower(path);
    var stripped := StripTrailingSlashes(path);
    assert LowerAscii(LowerAscii(stripped)) == LowerAscii(stripped);
  }

  /** The view depends on the path only through its key. */
  lemma SameKeySameRoute(path: string, path': string, user: Json, admin: Json)
    requires RouteKey(path) == RouteKey(path')
    ensures Route(path, user, admin) == Route(path', user, admin)
  {
  }

  /** Lowering capitals never makes or removes a slash, so it commutes with
      dropping the trailing ones. */
  lemma {:induction false} StripCommutesWithLower(path: string)
    ensures StripTrailingSlashes(LowerAscii(path)) == LowerAscii(StripTrailingSlashes(path))
    decreases |path|
  {
    var l := LowerAscii(path);
    if path != [] && path[|path| - 1] == '/' {
      assert l[..|l| - 1] == LowerAscii(path[..|path| - 1]);
      StripCommutesWithLower(path[..|path| - 1]);
    }
  }
}

=== FILE: auth_context.dfy ===
/** The two authentication providers of src/context/AuthContext.tsx and the
    storage adapter beneath them. Each provider keeps an identity and a
    pending email in memory and mirrors both into the browser's persistent
    key-value store under its own pair of keys. */
module AuthContext {

  import opened Json

  /** One storage slot: either text that `JSON.parse` accepts, recorded as
      the value it parses to, or text it rejects (the empty string among
      them). */
  datatype Cell = Parsed(value: Json) | Unparseable(text: string)

  /** `window.localStorage`. When `available` is false (storage disabled,
      quota exhausted) every access throws and the adapter swallows the
      error: reads give `null`, writes do nothing. */
  datatype Storage = Storage(entries: map<string, Cell>, available: bool)

  const UserStorageKey: string := "accounts:userAuth"
  const UserPendingEmailKey: string := "accounts:userPendingEmail"
  const AdminStorageKey: string := "accounts:adminAuth"
  const AdminPendingEmailKey: string := "accounts:adminPendingEmail"

  /** Which provider: the end user's or the administrator's. */
  datatype Kind = User | Admin {
    function Other(): Kind {
      if this == User then Admin else User
    }
  }

  function IdentityKey(k: Kind): string {
    if k == User then UserStorageKey else AdminStorageKey
  }

  function PendingEmailKey(k: Kind): string {
    if k == User then UserPendingEmailKey else AdminPendingEmailKey
  }

  /** The keys a provider owns. */
  predicate OwnedBy(key: string, k: Kind) {
    key == IdentityKey(k) || key == PendingEmailKey(k)
  }

  /** The four keys are pairwise distinct, so no key is owned by both
      providers. */
  lemma KeysDisjoint(key: string)
    ensures !(OwnedBy(key, User) && OwnedBy(key, Admin))
    ensures IdentityKey(User) != PendingEmailKey(User)
    ensures IdentityKey(Admin) != PendingEmailKey(Admin)
  {
  }

  /** Every parsed slot holds a value `JSON.parse` can produce. */
  predicate WellFormed(st: Storage) {
    forall key :: key in st.entries && st.entries[key].Parsed? ==> Jsonable(st.entries[key].value)
  }

  /** `key` holds the same thing (or is absent) in both stores. */
  predicate SameSlot(a: Storage, b: Storage, key: string) {
    (key in a.entries <==> key in b.entries) && (key in a.entries ==> a.entries[key] == b.entries[key])
  }

  /** `readStoredValue`: the parsed value under `key`, and `null` for a
      missing key, an empty or unparseable text, or unavailable storage. It
      never fails. */
  function ReadStoredValue(st: Storage, key: string): (r: Json)
    ensures !st.available || key !in st.entries ==> r == Null
    ensures key in st.entries && st.entries[key].Unparseable? ==> r == Null
    ensures WellFormed(st) ==> Jsonable(r)
  {
    if !st.available || key !in st.entries then Null
    else
      match st.entries[key]
      case Unparseable(_) => Null
      case Parsed(v) => v
  }

  /** `writeStoredValue`: `null` or `undefined` removes the key, anything
      else is stored as its JSON text. Unavailable storage is left as it
      was. No other key changes. */
  function WriteStoredValue(st: Storage, key: string, v: Json): (r: Storage)
    ensures r.available == st.available
    ensures !st.available ==> r == st
    ensures forall other :: other != key ==> SameSlot(st, r, other)
    ensures st.available && Nullish(v) ==> key !in r.entries
    ensures st.available && !Nullish(v) ==> ReadStoredValue(r, key) == Roundtrip(v)
    ensures WellFormed(st) ==> WellFormed(r)
  {
    if !st.available then st
    else if Nullish(v) then Storage(st.entries - {key}, true)
    else Storage(st.entries[key := Parsed(Roundtrip(v))], true)
  }

  /** Writing a value `JSON.parse` could produce and reading it back gives
      the value itself; writing `null` and reading gives `null`. */
  lemma WriteThenRead(st: Storage, key: string, v: Json)
    requires st.available && Jsonable(v)
    ensures ReadStoredValue(WriteStoredValue(st, key, v), key) == v
  {
    if !Nullish(v) {
      RoundtripKeepsJsonable(v);
    }
  }

  /** One provider's in-memory state. The values are whatever was stored or
      passed in: the source casts what it reads without checking its shape. */
  datatype Session = Session(identity: Json, pendingEmail: Json)

  /** Both providers over the one store they share. */
  datatype Auth = Auth(user: Session, admin: Session, storage: Storage)

  function SessionOf(a: Auth, k: Kind): Session {
    if k == User then a.user else a.admin
  }

  function WithSession(a: Auth, k: Kind, s: Session, st: Storage): Auth {
    if k == User then Auth(s, a.admin, st) else Auth(a.user, s, st)
  }

  /** The `{ name, token }` record the pages pass to `login`. */
  function Identity(name: Json, token: Json): Json {
    Obj(map["name" := name, "token" := token])
  }

  /** The providers' initial state: each reads its own two keys. */
  function Init(st: Storage): (a: Auth)
    ensures forall k: Kind :: SessionOf(a, k).identity == ReadStoredValue(st, IdentityKey(k))
    ensures forall k: Kind :: SessionOf(a, k).pendingEmail == ReadStoredValue(st, PendingEmailKey(k))
    ensures a.storage == st
  {
    Auth(
      Session(ReadStoredValue(st, UserStorageKey), ReadStoredValue(st, UserPendingEmailKey)),
      Session(ReadStoredValue(st, AdminStorageKey), ReadStoredValue(st, AdminPendingEmailKey)),
      st)
  }

  /** Whatever cannot be read, starts out signed out with no pending email. */
  lemma InitFromUnreadableStorage(st: Storage, k: Kind)
    requires !st.available
             || ((IdentityKey(k) !in st.entries || st.entries[IdentityKey(k)].Unparseable?)
                 && (PendingEmailKey(k) !in st.entries || st.entries[PendingEmailKey(k)].Unparseable?))
    ensures SessionOf(Init(st), k) == Session(Null, Null)
  {
  }

  /** `updatePendingEmail`: sets the pending email in memory and in storage.
      The identity, the token, the identity key and the other provider are
      untouched. */
  function SetPendingEmail(a: Auth, k: Kind, email: Json): (r: Auth)
    ensures SessionOf(r, k).pendingEmail == email
    ensures SessionOf(r, k).identity == SessionOf(a, k).identity
    ensures Token(r, k) == Token(a, k)
    ensures SessionOf(r, k.Other()) == SessionOf(a, k.Other())
    ensures forall key :: key != PendingEmailKey(k) ==> SameSlot(a.storage, r.storage, key)
    ensures a.storage.available && Nullish(email) ==> PendingEmailKey(k) !in r.storage.entries
    ensures a.storage.available && !Nullish(email) ==>
              ReadStoredValue(r.storage, PendingEmailKey(k)) == Roundtrip(email)
  {
    var st := WriteStoredValue(a.storage, PendingEmailKey(k), email);
    WithSession(a, k, Session(SessionOf(a, k).identity, email), st)
  }

  /** `login`: the identity becomes the one given and is stored; the pending
      email is cleared and its key removed. The other provider's state and
      keys are untouched. */
  function Login(a: Auth, k: Kind, identity: Json): (r: Auth)
    ensures SessionOf(r, k) == Session(identity, Null)
    ensures SessionOf(r, k.Other()) == SessionOf(a, k.Other())
    ensures forall key :: !OwnedBy(key, k) ==> SameSlot(a.storage, r.storage, key)
    ensures a.storage.available ==> PendingEmailKey(k) !in r.storage.entries
    ensures a.storage.available && !Nullish(identity) ==>
              ReadStoredValue(r.storage, IdentityKey(k)) == Roundtrip(identity)
  {
    var st := WriteStoredValue(a.storage, IdentityKey(k), identity);
    var signedIn := WithSession(a, k, Session(identity, SessionOf(a, k).pendingEmail), st);
    SetPendingEmail(signedIn, k, Null)
  }

  /** `logout`: identity and pending email become `null` and both keys are
      removed, whatever the state before. */
  function Logout(a: Auth, k: Kind): (r: Auth)
    ensures SessionOf(r, k) == Session(Null, Null)
    ensures SessionOf(r, k.Other()) == SessionOf(a, k.Other())
    ensures forall key :: !OwnedBy(key, k) ==> SameSlot(a.storage, r.storage, key)
    ensures a.storage.available ==>
              IdentityKey(k) !in r.storage.entries && PendingEmailKey(k) !in r.storage.entries
  {
    var st := WriteStoredValue(a.storage, IdentityKey(k), Null);
    var signedOut := WithSession(a, k, Session(Null, SessionOf(a, k).pendingEmail), st);
    SetPendingEmail(signedOut, k, Null)
  }

  /** `identity?.token ?? null`: the identity's token when it has one (an
      empty string included), otherwise `null`. */
  function Token(a: Auth, k: Kind): (r: Json)
    ensures Nullish(SessionOf(a, k).identity) ==> r == Null
    ensures Nullish(Get(SessionOf(a, k).identity, "token")) ==> r == Null
    ensures !Nullish(Get(SessionOf(a, k).identity, "token")) ==> r == Get(SessionOf(a, k).identity, "token")
    ensures !r.Undefined?
    ensures SessionOf(a, k).identity.Obj? && "token" in SessionOf(a, k).identity.fields
            && !Nullish(SessionOf(a, k).identity.fields["token"])
            ==> r == SessionOf(a, k).identity.fields["token"]
  {
    Coalesce(Get(SessionOf(a, k).identity, "token"), Null)
  }

  /** Signing in with a token exposes exactly that token, even an empty one;
      signing in without one exposes `null`. */
  lemma TokenAfterLogin(a: Auth, k: Kind, name: Json, t: string)
    ensures Token(Login(a, k, Identity(name, Str(t))), k) == Str(t)
    ensures Token(Login(a, k, Identity(name, Undefined)), k) == Null
  {
  }

  /** Signing in and then out leaves neither key behind and the rest of the
      store as it was; from a store without the provider's keys, the store
      is back where it started. */
  lemma {:induction false} LoginThenLogout(a: Auth, k: Kind, identity: Json)
    requires a.storage.available
    ensures var r := Logout(Login(a, k, identity), k);
            && IdentityKey(k) !in r.storage.entries && PendingEmailKey(k) !in r.storage.entries
            && r.storage.entries == a.storage.entries - {IdentityKey(k), PendingEmailKey(k)}
    ensures IdentityKey(k) !in a.storage.entries && PendingEmailKey(k) !in a.storage.entries ==>
              Logout(Login(a, k, identity), k).storage == a.storage
  {
    var r := Logout(Login(a, k, identity), k);
    var expected := a.storage.entries - {IdentityKey(k), PendingEmailKey(k)};
    assert r.storage.entries.Keys == expected.Keys;
    forall key | key in expected ensures r.storage.entries[key] == expected[key] {
      assert SameSlot(a.storage, Login(a, k, identity).storage, key);
    }
    if IdentityKey(k) !in a.storage.entries && PendingEmailKey(k) !in a.storage.entries {
      assert a.storage.entries == expected;
    }
  }

  /** A reload after signing in restores the same session: what `login`
      stored is what the provider reads back on mount. */
  lemma ReloadAfterLogin(a: Auth, k: Kind, identity: Json)
    requires a.storage.available && Jsonable(identity)
    ensures SessionOf(Init(Login(a, k, identity).storage), k) == SessionOf(Login(a, k, identity), k)
  {
    var r := Login(a, k, identity);
    if !Nullish(identity) {
      RoundtripKeepsJsonable(identity);
    } else {
      assert identity == Null;
      assert IdentityKey(k) !in r.storage.entries;
    }
  }

  /** A pending email set before a reload is the one read back after it. */
  lemma ReloadAfterSetPendingEmail(a: Auth, k: Kind, email: Json)
    requires a.storage.available && Jsonable(email)
    ensures SessionOf(Init(SetPendingEmail(a, k, email).storage), k).pendingEmail == email
  {
    WriteThenRead(a.storage, PendingEmailKey(k), email);
  }

  /** A reload after signing out finds nobody signed in. */
  lemma ReloadAfterLogout(a: Auth, k: Kind)
    requires a.storage.available
    ensures SessionOf(Init(Logout(a, k).storage), k) == Session(Null, Null)
  {
  }
}

=== FILE: failures.dfy ===
/** How the sign-in and verification pages turn a failed response into the
    message they show (src/pages/OtpVerification.tsx:71-85 and
    src/pages/admin/AdminLogin.tsx:38-51). They first read the body as JSON
    and take its `message`, `error` or `reason`, falling back to a text that
    depends on the status. When the body is not JSON they mean to show the
    body's text instead; as written, though, that second read happens after
    the first one has already consumed the body. */
module Failures {

  import opened Json

  /** The body of a failed response: JSON the page can parse, or anything
      else, whose text is given. */
  datatype FailedBody = JsonBody(payload: Json) | TextBody(text: string)

  /** `payload?.message || payload?.error || payload?.reason || fallback`,
      read as the text of the `Error` it is thrown in. */
  function FriendlyMessage(payload: Json, fallback: string): (r: string)
    ensures Truthy(Get(payload, "message")) ==> r == ToJsString(Get(payload, "message"))
    ensures !Truthy(Get(payload, "message")) && Truthy(Get(payload, "error")) ==> r == ToJsString(Get(payload, "error"))
    ensures !Truthy(Get(payload, "message")) && !Truthy(Get(payload, "error")) && Truthy(Get(payload, "reason")) ==>
              r == ToJsString(Get(payload, "reason"))
    ensures !Truthy(Get(payload, "message")) && !Truthy(Get(payload, "error")) && !Truthy(Get(payload, "reason")) ==>
              r == fallback
  {
    ToJsString(Or(Get(payload, "message"), Or(Get(payload, "error"), Or(Get(payload, "reason"), Str(fallback)))))
  }

  /** `new Error(text || fallback).message`. */
  function TextOr(text: string, fallback: string): (r: string)
    ensures text != "" ==> r == text
    ensures text == "" ==> r == fallback
  {
    if text != "" then text else fallback
  }

  /** What the failure branch ends with as written: a message, or the
      `TypeError` that reading an already-consumed body rejects with. */
  datatype Shown = Message(text: string) | BodyAlreadyRead

  /** The failure branch as written. `response.json()` consumes the body
      even when parsing fails, so the `response.text()` in its `catch`
      rejects, and the page shows that rejection rather than the body or
      the fallback. */
  function FailureMessageAsWritten(body: FailedBody, statusFallback: string, textFallback: string): (r: Shown)
    ensures body.JsonBody? ==> r == Message(FriendlyMessage(body.payload, statusFallback))
    ensures body.TextBody? ==> r == BodyAlreadyRead
  {
    match body
    case JsonBody(payload) => Message(FriendlyMessage(payload, statusFallback))
    case TextBody(_) => BodyAlreadyRead
  }

  /** The failure branch as intended: JSON bodies as before, and a non-JSON
      body shown as its text, or the text fallback when it is empty. */
  function FailureMessage(body: FailedBody, statusFallback: string, textFallback: string): (r: string)
    ensures body.JsonBody? ==> r == FriendlyMessage(body.payload, statusFallback)
    ensures body.TextBody? && body.text != "" ==> r == body.text
    ensures body.TextBody? && body.text == "" ==> r == textFallback
  {
    match body
    case JsonBody(payload) => FriendlyMessage(payload, statusFallback)
    case TextBody(text) => TextOr(text, textFallback)
  }

  /** The two readings agree on every JSON body and part on every other
      one: as written a plain-text body never reaches the screen. */
  lemma AsWrittenLosesTextBodies(body: FailedBody, statusFallback: string, textFallback: string)
    ensures body.JsonBody? ==>
              FailureMessageAsWritten(body, statusFallback, textFallback)
              == Message(FailureMessage(body, statusFallback, textFallback))
    ensures body.TextBody? ==>
              FailureMessageAsWritten(body, statusFallback, textFallback) != Message(FailureMessage(body, statusFallback, textFallback))
  {
  }

  /** The message chain takes the first truthy member in the order
      `message`, `error`, `reason`. */
  lemma FriendlyMessagePriority(m: string, e: string, reason: string, fallback: string)
    requires m != "" && e != "" && reason != ""
    ensures FriendlyMessage(Obj(map["message" := Str(m), "error" := Str(e), "reason" := Str(reason)]), fallback) == m
    ensures FriendlyMessage(Obj(map["message" := Str(""), "error" := Str(e), "reason" := Str(reason)]), fallback) == e
    ensures FriendlyMessage(Obj(map["reason" := Str(reason)]), fallback) == reason
    ensures FriendlyMessage(Null, fallback) == fallback && FriendlyMessage(Obj(map[]), fallback) == fallback
  {
    var p1 := Obj(map["message" := Str(m), "error" := Str(e), "reason" := Str(reason)]);
    var p2 := Obj(map["message" := Str(""), "error" := Str(e), "reason" := Str(reason)]);
    var p3 := Obj(map["reason" := Str(reason)]);
    assert Get(p1, "message") == Str(m);
    assert Get(p2, "message") == Str("") && Get(p2, "error") == Str(e);
    assert Get(p3, "message") == Undefined && Get(p3, "error") == Undefined && Get(p3, "reason") == Str(reason);
  }
}

=== FILE: json.dfy ===
/** JavaScript values as the pages handle them: what `response.json()` and
    `JSON.parse` produce, plus `undefined`, which is what reading a missing
    property yields. Numbers are integers in this model. The module also
    gives the three JavaScript operators the pages lean on (`||`, `??` and
    optional property access) and the `JSON.stringify` / `JSON.parse` round
    trip that persistent storage goes through. */
module Json {

  import Text

  datatype Json =
    | Undefined
    | Null
    | Bool(b: bool)
    | Num(n: int)
    | Str(s: string)
    | Arr(items: seq<Json>)
    | Obj(fields: map<string, Json>)

  /** JavaScript truthiness: `undefined`, `null`, `false`, `0` and `""` are
      falsy; every array and object is truthy. */
  predicate Truthy(j: Json) {
    match j
    case Undefined => false
    case Null => false
    case Bool(b) => b
    case Num(n) => n != 0
    case Str(s) => s != ""
    case Arr(_) => true
    case Obj(_) => true
  }

  /** `null` or `undefined`, the values `??` and `?.` react to. */
  predicate Nullish(j: Json) {
    j.Undefined? || j.Null?
  }

  /** `j?.key`, and equally `j.key` on a non-nullish `j`: the own property
      of an object, `undefined` for everything else. */
  function Get(j: Json, key: string): Json {
    if j.Obj? && key in j.fields then j.fields[key] else Undefined
  }

  /** `a || b`. */
  function Or(a: Json, b: Json): Json {
    if Truthy(a) then a else b
  }

  /** `a ?? b`. */
  function Coalesce(a: Json, b: Json): Json {
    if Nullish(a) then b else a
  }

  /** `typeof j === 'string'`. */
  predicate IsString(j: Json) {
    j.Str?
  }

  /** `String(j)`: how a value reads once it becomes an `Error` message or
      is interpolated into a template literal. */
  function ToJsString(j: Json): string {
    match j
    case Undefined => "undefined"
    case Null => "null"
    case Bool(b) => if b then "true" else "false"
    case Num(n) => Text.Decimal(n)
    case Str(s) => s
    case Arr(items) => JoinItems(items)
    case Obj(_) => "[object Object]"
  }

  /** `Array.prototype.join(",")`: nullish slots read as empty. */
  function JoinItems(items: seq<Json>): string
    decreases items
  {
    if items == [] then ""
    else
      var first := if Nullish(items[0]) then "" else ToJsString(items[0]);
      if |items| == 1 then first else first + "," + JoinItems(items[1..])
  }

  /** A value that `JSON.parse` could have produced: no `undefined` anywhere
      inside it. */
  predicate Jsonable(j: Json) {
    match j
    case Undefined => false
    case Arr(items) => forall i :: 0 <= i < |items| ==> Jsonable(items[i])
    case Obj(fields) => forall k :: k in fields ==> Jsonable(fields[k])
    case _ => true
  }

  /** `JSON.parse(JSON.stringify(j))` for a value that is not itself
      `undefined`: object members holding `undefined` disappear and array
      slots holding `undefined` come back as `null`. */
  function Roundtrip(j: Json): (r: Json)
    requires !j.Undefined?
    ensures Jsonable(r)
    decreases j, 1
  {
    match j
    case Arr(items) => Arr(RoundtripItems(items))
    case Obj(fields) =>
      Obj(map k | k in fields && !fields[k].Undefined? :: Roundtrip(fields[k]))
    case _ => j
  }

  /** The array case of `Roundtrip`, slot by slot. */
  function RoundtripItems(items: seq<Json>): (r: seq<Json>)
    ensures |r| == |items|
    ensures forall i :: 0 <= i < |items| ==>
              r[i] == if items[i].Undefined? then Null else Roundtrip(items[i])
    decreases items, 0
  {
    if items == [] then []
    else [if items[0].Undefined? then Null else Roundtrip(items[0])] + RoundtripItems(items[1..])
  }

  /** Values without `undefined` inside survive the storage round trip
      unchanged. */
  lemma {:induction false} RoundtripKeepsJsonable(j: Json)
    requires Jsonable(j)
    ensures Roundtrip(j) == j
  {
    match j
    case Arr(items) =>
      var r := Roundtrip(j).items;
      assert |r| == |items|;
      forall i | 0 <= i < |items| ensures r[i] == items[i] {
        RoundtripKeepsJsonable(items[i]);
      }
    case Obj(fields) =>
      var r := Roundtrip(j).fields;
      assert r.Keys == fields.Keys;
      forall k | k in fields ensures r[k] == fields[k] {
        RoundtripKeepsJsonable(fields[k]);
      }
    case _ =>
  }

  /** Serialising a value a second time changes nothing. */
  lemma RoundtripIdempotent(j: Json)
    requires !j.Undefined?
    ensures Roundtrip(Roundtrip(j)) == Roundtrip(j)
  {
    RoundtripKeepsJsonable(Roundtrip(j));
  }
}

=== FILE: list_paging.dfy ===
/** The list-and-pager machinery that src/pages/admin/AdminAds.tsx and
    src/pages/admin/AdminCategories.tsx each spell out in full: pulling the
    row list out of a response, deriving the pagination record, the page
    label and the effective page, the Previous/Next buttons, the effect that
    pulls an overshooting page back, and the row serial numbers. The two
    pages differ only in the payload key of the list and the default error
    text, which are parameters here. */
module ListPaging {

  import opened Optional
  import opened Json

  /** `ROWS_PER_PAGE`. */
  const RowsPerPage: int := 10

  function Max(a: int, b: int): int { if a < b then b else a }
  function Min(a: int, b: int): int { if a < b then a else b }

  /** `Math.ceil(x / ROWS_PER_PAGE)`: the fewest whole pages that hold `x`
      rows. */
  function CeilPages(x: int): (r: int)
    ensures (r - 1) * RowsPerPage < x <= r * RowsPerPage
  {
    if x % RowsPerPage == 0 then x / RowsPerPage else x / RowsPerPage + 1
  }

  /** `max(1, ceil(x / 10))`: at least one page, and enough pages for `x`
      rows. */
  function PagesFor(x: int): (r: int)
    ensures r >= 1 && x <= r * RowsPerPage
    ensures r == 1 || (r - 1) * RowsPerPage < x
  {
    Max(1, CeilPages(x))
  }

  /** The list a response carries: the payload itself when it is an array,
      otherwise its `data` member when that is an array, otherwise the member
      named `key` when that is an array, otherwise nothing. */
  function ExtractList(payload: Json, key: string): (r: seq<Json>)
    ensures r == [] || Arr(r) == payload || Arr(r) == Get(payload, "data") || Arr(r) == Get(payload, key)
    ensures payload.Arr? ==> r == payload.items
    ensures !payload.Arr? && Get(payload, "data").Arr? ==> r == Get(payload, "data").items
    ensures !payload.Arr? && !Get(payload, "data").Arr? && Get(payload, key).Arr? ==> r == Get(payload, key).items
    ensures !payload.Arr? && !Get(payload, "data").Arr? && !Get(payload, key).Arr? ==> r == []
  {
    if payload.Arr? then payload.items
    else if Get(payload, "data").Arr? then Get(payload, "data").items
    else if Get(payload, key).Arr? then Get(payload, key).items
    else []
  }

  /** Each wrapping the backend may use is recognised, in any object
      whatever its other members: an array under `data` wins, an array
      under the page's own key is taken when `data` holds none, and an
      object with neither carries no rows. */
  lemma ExtractListRecoversWrapped(fields: map<string, Json>, items: seq<Json>, key: string)
    ensures ExtractList(Arr(items), key) == items
    ensures ExtractList(Obj(fields["data" := Arr(items)]), key) == items
    ensures ("data" !in fields || !fields["data"].Arr?) && key != "data" ==>
              ExtractList(Obj(fields[key := Arr(items)]), key) == items
    ensures ("data" !in fields || !fields["data"].Arr?) && (key !in fields || !fields[key].Arr?) ==>
              ExtractList(Obj(fields), key) == []
  {
    assert Get(Obj(fields["data" := Arr(items)]), "data") == Arr(items);
    if key != "data" {
      var o := Obj(fields[key := Arr(items)]);
      assert Get(o, key) == Arr(items);
      assert Get(o, "data") == (if "data" in fields then fields["data"] else Undefined);
    }
  }

  /** The page's key is consulted only when neither the payload nor its
      `data` member is an array: two pages agree on every such reply. */
  lemma ExtractListKeyMattersLast(payload: Json, key: string, key': string)
    ensures payload.Arr? || Get(payload, "data").Arr? ==> ExtractList(payload, key) == ExtractList(payload, key')
    ensures !payload.Arr? && !Get(payload, "data").Arr? && !Get(payload, key).Arr? && !Get(payload, key').Arr? ==>
              ExtractList(payload, key) == ExtractList(payload, key')
  {
  }

  /** The pagination record the page keeps. */
  datatype Pagination = Pagination(total: int, page: int, pages: int, pageSize: int)

  /** `typeof x === 'number' ? x : fallback`. */
  function NumberOr(j: Json, fallback: int): int {
    if j.Num? then j.n else fallback
  }

  /** The pagination derived from a successful response whose list is
      `list`, for the page that was requested. A truthy `pagination` member
      supplies each field it holds as a number, with the list length, the
      requested page, the page count for the total and ten rows as the
      fallbacks; without one, those fallbacks are the whole record. */
  function DerivePagination(payload: Json, list: seq<Json>, requested: int): (r: Pagination)
    ensures r.pages >= 1
    ensures !Truthy(Get(payload, "pagination")) ==>
              r == Pagination(|list|, requested, PagesFor(|list|), RowsPerPage)
    ensures var p := Get(payload, "pagination");
            Truthy(p) ==>
              && r.total == (if Get(p, "total").Num? then Get(p, "total").n else |list|)
              && r.page == (if Get(p, "page").Num? then Get(p, "page").n else requested)
              && r.pageSize == (if Get(p, "pageSize").Num? then Get(p, "pageSize").n else RowsPerPage)
              && (Get(p, "pages").Num? ==> r.pages == Max(1, Get(p, "pages").n))
    ensures !Get(Get(payload, "pagination"), "pages").Num? ==>
              r.total <= r.pages * RowsPerPage && (r.pages == 1 || (r.pages - 1) * RowsPerPage < r.total)
  {
    var p := Get(payload, "pagination");
    if Truthy(p) then
      var total := NumberOr(Get(p, "total"), |list|);
      Pagination(
        total,
        NumberOr(Get(p, "page"), requested),
        if Get(p, "pages").Num? then Max(1, Get(p, "pages").n) else Max(1, CeilPages(total)),
        NumberOr(Get(p, "pageSize"), RowsPerPage))
    else
      Pagination(|list|, requested, Max(1, CeilPages(Max(|list|, 1))), RowsPerPage)
  }

  /** What a page holds between renders: the rows, the pagination record
      (`null` after a failure and before the first load), the current page
      and the error text. */
  datatype ListState = ListState(items: seq<Json>, info: Option<Pagination>, currentPage: int, error: Option<string>)

  /** The state a page mounts with. */
  const Initial: ListState := ListState([], None, 1, None)

  /** What the state can be: a kept pagination record has at least one page
      (`DerivePagination` guarantees it) and the current page is at least 1. */
  predicate Valid(s: ListState) {
    s.currentPage >= 1 && (s.info.Some? ==> s.info.value.pages >= 1)
  }

  /** `paginationInfo?.total ?? rows.length`. */
  function TotalRecords(s: ListState): int {
    if s.info.Some? then s.info.value.total else |s.items|
  }

  /** `paginationInfo?.pages ?? max(1, ceil(max(totalRecords, 1) / 10))`. */
  function TotalPages(s: ListState): (r: int)
    ensures Valid(s) ==> r >= 1
  {
    if s.info.Some? then s.info.value.pages else Max(1, CeilPages(Max(TotalRecords(s), 1)))
  }

  predicate HasRecords(s: ListState) {
    TotalRecords(s) > 0
  }

  /** The page whose rows are numbered: the current page capped at the page
      count, or 1 when there are no records. */
  function EffectivePage(s: ListState): (r: int)
    ensures Valid(s) ==> 1 <= r <= TotalPages(s)
    ensures HasRecords(s) && s.currentPage <= TotalPages(s) ==> r == s.currentPage
    ensures !HasRecords(s) ==> r == 1
  {
    if HasRecords(s) then Min(s.currentPage, TotalPages(s)) else 1
  }

  /** "Page <PageLabel> of <TotalPagesLabel>": both numbers are zero when
      there are no records. */
  function PageLabel(s: ListState): (r: int)
    ensures Valid(s) ==> (r == 0 <==> !HasRecords(s))
    ensures HasRecords(s) ==> r == EffectivePage(s)
  {
    if HasRecords(s) then EffectivePage(s) else 0
  }

  function TotalPagesLabel(s: ListState): (r: int)
    ensures Valid(s) ==> (r == 0 <==> !HasRecords(s))
    ensures HasRecords(s) ==> r == TotalPages(s)
  {
    if HasRecords(s) then TotalPages(s) else 0
  }

  /** The Previous button is disabled without records or on page 1. */
  function PreviousEnabled(s: ListState): (r: bool)
    ensures r ==> TotalRecords(s) > 0
    ensures Valid(s) && r ==> s.currentPage >= 2
    ensures Valid(s) && TotalRecords(s) > 0 && !r ==> s.currentPage == 1
  {
    HasRecords(s) && s.currentPage != 1
  }

  /** The Next button is disabled without records or on the last page. */
  function NextEnabled(s: ListState): (r: bool)
    ensures r ==> TotalRecords(s) > 0 && s.currentPage + 1 <= TotalPages(s)
    ensures TotalRecords(s) > 0 && !r ==> s.currentPage >= TotalPages(s)
  {
    HasRecords(s) && s.currentPage < TotalPages(s)
  }

  /** Clicking Previous: one page back, never below 1; a disabled button
      does nothing. Only the current page changes. */
  function Previous(s: ListState): (r: ListState)
    ensures r.items == s.items && r.info == s.info && r.error == s.error
    ensures !PreviousEnabled(s) ==> r == s
    ensures PreviousEnabled(s) && Valid(s) ==> r.currentPage == s.currentPage - 1
    ensures Valid(s) ==> Valid(r)
  {
    if !PreviousEnabled(s) then s else s.(currentPage := Max(1, s.currentPage - 1))
  }

  /** Clicking Next: one page on, never past the page count; a disabled
      button does nothing. Only the current page changes. */
  function Next(s: ListState): (r: ListState)
    ensures r.items == s.items && r.info == s.info && r.error == s.error
    ensures !NextEnabled(s) ==> r == s
    ensures NextEnabled(s) ==> r.currentPage == s.currentPage + 1 && r.currentPage <= TotalPages(s)
    ensures Valid(s) ==> Valid(r)
  {
    if !NextEnabled(s) then s else s.(currentPage := Min(TotalPages(s), s.currentPage + 1))
  }

  /** Starting inside `[1, TotalPages]`, the buttons keep the page inside. */
  lemma ButtonsStayInRange(s: ListState)
    requires Valid(s) && s.currentPage <= TotalPages(s)
    ensures 1 <= Previous(s).currentPage <= TotalPages(Previous(s))
    ensures 1 <= Next(s).currentPage <= TotalPages(Next(s))
  {
  }

  /** Next undoes Previous and Previous undoes Next whenever the first click
      did something. */
  lemma PreviousNextInverse(s: ListState)
    requires Valid(s) && s.currentPage <= TotalPages(s)
    ensures NextEnabled(s) ==> Previous(Next(s)) == s
    ensures PreviousEnabled(s) ==> Next(Previous(s)) == s
  {
  }

  /** The effect that pulls a page beyond the reported page count back to
      the last page. */
  function ClampToPages(s: ListState): (r: ListState)
    ensures r.items == s.items && r.info == s.info && r.error == s.error
    ensures r.info.Some? && r.info.value.pages > 0 ==> r.currentPage <= r.info.value.pages
    ensures s.info.None? || s.currentPage <= s.info.value.pages ==> r == s
    ensures Valid(s) ==> Valid(r) && EffectivePage(r) == EffectivePage(s)
  {
    if s.info.Some? && s.info.value.pages > 0 && s.currentPage > s.info.value.pages
    then s.(currentPage := s.info.value.pages)
    else s
  }

  /** Clamping twice is clamping once. */
  lemma ClampIdempotent(s: ListState)
    ensures ClampToPages(ClampToPages(s)) == ClampToPages(s)
  {
  }

  /** What came back from one list request: a failed status with its body
      text, a successful status with its parsed body, or a successful
      status whose body is not JSON, so that `response.json()` rejects with
      the runtime's `SyntaxError`, whose message is `parseError`. */
  datatype Reply = Failed(text: string) | Succeeded(payload: Json) | Malformed(parseError: string)

  /** The error a reply raises, if any: a failed status reports its body
      text, or the default when the text is empty; a successful body that
      says `success: false` with a truthy message reports that message as
      text (which for an empty array is the empty string); a body that is
      not JSON reports the parse error. */
  function ReplyError(reply: Reply, defaultError: string): (r: Option<string>)
    requires defaultError != ""
    ensures reply.Failed? ==> r.Some? && r.value != "" && (reply.text != "" ==> r.value == reply.text)
    ensures reply.Failed? && reply.text == "" ==> r == Some(defaultError)
    ensures reply.Succeeded? ==>
              (r.Some? <==> Get(reply.payload, "success") == Bool(false) && Truthy(Get(reply.payload, "message")))
    ensures reply.Succeeded? && r.Some? ==> r.value == ToJsString(Get(reply.payload, "message"))
    ensures reply.Malformed? ==> r == Some(reply.parseError)
  {
    match reply
    case Malformed(parseError) => Some(parseError)
    case Failed(text) => Some(if text != "" then text else defaultError)
    case Succeeded(payload) =>
      if Get(payload, "success") == Bool(false) && Truthy(Get(payload, "message"))
      then Some(ToJsString(Get(payload, "message")))
      else None
  }

  /** The outcome of fetching page `requested` (the fetch callback): on
      success the rows and the derived pagination replace what was shown and
      the error clears; on failure the error is shown with no rows and no
      pagination. The current page is never touched. */
  function ApplyReply(s: ListState, requested: int, reply: Reply, key: string, defaultError: string): (r: ListState)
    requires defaultError != ""
    ensures r.currentPage == s.currentPage
    ensures r.error == ReplyError(reply, defaultError)
    ensures r.error.Some? ==> r.items == [] && r.info.None?
    ensures r.error.None? ==>
              reply.Succeeded?
              && r.items == ExtractList(reply.payload, key)
              && r.info == Some(DerivePagination(reply.payload, r.items, requested))
    ensures Valid(s) ==> Valid(r)
  {
    var err := ReplyError(reply, defaultError);
    if err.Some? then ListState([], None, s.currentPage, err)
    else
      var list := ExtractList(reply.payload, key);
      ListState(list, Some(DerivePagination(reply.payload, list, requested)), s.currentPage, None)
  }

  /** The "Sl. No" of the row at `index` on the shown page: the rows of
      the pages before the effective one, at ten a page, counted before it. */
  function Serial(s: ListState, index: nat): (r: int)
    ensures Valid(s) ==> r >= index + 1
    ensures r == (EffectivePage(s) - 1) * RowsPerPage + index + 1
  {
    (EffectivePage(s) - 1) * RowsPerPage + index + 1
  }

  /** Serial numbers run on from one row to the next, and a serial of one
      of the first ten rows names exactly one row of one page: dividing it
      back by the page size gives the page and the row within it. */
  lemma {:induction false} SerialInverse(s: ListState, index: nat)
    requires Valid(s) && index < RowsPerPage
    ensures Serial(s, index + 1) == Serial(s, index) + 1
    ensures (Serial(s, index) - 1) / RowsPerPage == EffectivePage(s) - 1
    ensures (Serial(s, index) - 1) % RowsPerPage == index
  {
    var q := EffectivePage(s) - 1;
    assert Serial(s, index) - 1 == q * RowsPerPage + index;
    DivModUnique(q * RowsPerPage + index, q, index);
  }

  /** Quotient and remainder by the page size are determined by any
      decomposition with a remainder below it. */
  lemma {:induction false} DivModUnique(x: int, q: int, m: int)
    requires 0 <= m < RowsPerPage && x == q * RowsPerPage + m
    ensures x / RowsPerPage == q && x % RowsPerPage == m
  {
  }

  /** Among the first ten rows of each page, two different pages never
      share a serial number. */
  lemma SerialsDisjointAcrossPages(s: ListState, t: ListState, i: nat, j: nat)
    requires Valid(s) && Valid(t) && i < RowsPerPage && j < RowsPerPage
    requires EffectivePage(s) != EffectivePage(t)
    ensures Serial(s, i) != Serial(t, j)
  {
    SerialInverse(s, i);
    SerialInverse(t, j);
  }

  /** The numbering assumes ten rows a page, but every row of a reply is
      shown: a reply with more than ten rows numbers its eleventh row and
      beyond with the serials of the next page's first rows. */
  lemma SerialsCollideBeyondTenRows(s: ListState, t: ListState, j: nat)
    requires EffectivePage(t) == EffectivePage(s) + 1
    ensures Serial(s, RowsPerPage + j) == Serial(t, j)
  {
  }

  /** A page's whole life keeps the state valid: mounting, any reply, the
      clamp and both buttons. */
  lemma TransitionsPreserveValid(s: ListState, requested: int, reply: Reply, key: string, defaultError: string)
    requires Valid(s) && defaultError != ""
    ensures Valid(Initial)
    ensures Valid(ApplyReply(s, requested, reply, key, defaultError))
    ensures Valid(ClampToPages(s)) && Valid(Previous(s)) && Valid(Next(s))
  {
  }
}

=== FILE: optional.dfy ===
/** The `T | undefined` shape used throughout the model where the source has an
    optional value that is not itself a JavaScript value. */
module Optional {

  datatype Option<+T> = None | Some(value: T)
}

=== FILE: otp_verification.dfy ===
/** The user's one-time-passcode page (src/pages/OtpVerification.tsx): the
    single input that keeps at most four digits, where the email and mobile
    come from, the length gate before the request, the message a failed
    verification shows, and the sign-in that a successful one performs. */
module OtpVerification {

  import opened Optional
  import opened Json
  import Text
  import Failures
  import AuthContext
  import AppRoutes

  const OtpLength: nat := 4
  const CodePrompt: string := "Please enter the 4-digit code"
  const InvalidOtp: string := "Enter a valid OTP"
  const VerificationFailed: string := "Verification failed"
  const DefaultName: string := "New user"
  const ResendError: string := "Unable to resend code"
  const ResentStatus: string := "We sent a new code. Check your messages."

  /** `handleChange`: the digits of what was typed, cut to the first four. */
  function Sanitize(value: string): (r: string)
    ensures |r| <= OtpLength && Text.AllDigits(r)
    ensures |r| == if |Text.Digits(value)| < OtpLength then |Text.Digits(value)| else OtpLength
    ensures r == Text.Digits(value)[..|r|]
  {
    var digits := Text.Digits(value);
    if |digits| <= OtpLength then digits else digits[..OtpLength]
  }

  /** The values the input can hold are exactly the digit strings of at
      most four characters: those and only those are left alone. */
  lemma SanitizeFixedPoints(value: string)
    ensures Sanitize(value) == value <==> Text.AllDigits(value) && |value| <= OtpLength
  {
    if Text.AllDigits(value) && |value| <= OtpLength {
      Text.DigitsKeepsDigitStrings(value);
    }
  }

  /** Sanitising what the input already holds changes nothing. */
  lemma SanitizeIdempotent(value: string)
    ensures Sanitize(Sanitize(value)) == Sanitize(value)
  {
    SanitizeFixedPoints(Sanitize(value));
  }

  /** Whatever is typed between the digits is ignored, wherever it is. */
  lemma SanitizeSkipsNonDigits(before: string, c: char, after: string)
    requires !Text.IsDigit(c)
    ensures Sanitize(before + [c] + after) == Sanitize(before + after)
  {
    assert Text.Digits([c]) == [] by {
      assert [c][0] == c && [c][1..] == [];
    }
    calc {
      Text.Digits(before + [c] + after);
      { Text.DigitsAppend(before + [c], after); }
      Text.Digits(before + [c]) + Text.Digits(after);
      { Text.DigitsAppend(before, [c]); }
      (Text.Digits(before) + Text.Digits([c])) + Text.Digits(after);
      { assert Text.Digits(before) + Text.Digits([c]) == Text.Digits(before); }
      Text.Digits(before) + Text.Digits(after);
      { Text.DigitsAppend(before, after); }
      Text.Digits(before + after);
    }
  }

  /** Once four digits are in, anything typed or pasted after them is cut
      off. */
  lemma SanitizeKeepsFirstFour(code: string, rest: string)
    requires Text.AllDigits(code) && |code| == OtpLength
    ensures Sanitize(code + rest) == code
  {
    Text.DigitsAppend(code, rest);
    Text.DigitsKeepsDigitStrings(code);
    assert (code + Text.Digits(rest))[..OtpLength] == code;
  }

  /** A member of the navigation state, given a destructuring default:
      the default replaces `undefined` only, so `null` or `""` is kept.
      The `|| {}` in front of the destructuring never changes a lookup,
      since reading a member of a falsy value yields `undefined` here too. */
  function StateMember(state: Json, key: string, default: Json): (r: Json)
    ensures Get(state, key).Undefined? ==> r == default
    ensures !Get(state, key).Undefined? ==> r == Get(state, key)
  {
    var v := Get(Or(state, Obj(map[])), key);
    if v.Undefined? then default else v
  }

  /** `const { mobile = '' } = locationState`. */
  function Mobile(state: Json): Json {
    StateMember(state, "mobile", Str(""))
  }

  /** `const { name = 'New user' } = locationState`. */
  function StateName(state: Json): Json {
    StateMember(state, "name", Str(DefaultName))
  }

  /** The address the code is checked against: the pending email when it is
      truthy, else the navigation state's email when that is, else "". */
  function Email(pendingEmail: Json, state: Json): (r: Json)
    ensures Truthy(pendingEmail) ==> r == pendingEmail
    ensures !Truthy(pendingEmail) && Truthy(Get(state, "email")) ==> r == Get(state, "email")
    ensures !Truthy(pendingEmail) && !Truthy(Get(state, "email")) ==> r == Str("")
  {
    Or(pendingEmail, Or(Get(Or(state, Obj(map[])), "email"), Str("")))
  }

  /** The "Verification expired" view replaces the form. */
  function Expired(pendingEmail: Json, state: Json): (r: bool)
    ensures r <==> !Truthy(pendingEmail) && !Truthy(Get(state, "email")) && !Truthy(Get(state, "mobile"))
  {
    !Truthy(Email(pendingEmail, state)) && !Truthy(Mobile(state))
  }

  /** The page has something to verify exactly when the pending email, the
      state's email or the state's mobile is truthy. */
  lemma ExpiredIffNothingToVerify(pendingEmail: Json, state: Json)
    ensures Expired(pendingEmail, state) <==>
              !Truthy(pendingEmail) && !Truthy(Get(state, "email")) && !Truthy(Get(state, "mobile"))
  {
  }

  /** What `handleSubmit` does before any request: nothing while loading,
      the prompt for a code of the wrong length, or the request body. */
  datatype Step = Ignored | Rejected(message: string) | Send(body: Json)

  function Submit(code: string, loading: bool, email: Json, mobile: Json): (r: Step)
    ensures loading <==> r == Ignored
    ensures !loading && |code| != OtpLength ==> r == Rejected(CodePrompt)
    ensures r.Send? <==> !loading && |code| == OtpLength
    ensures r.Send? ==>
              Get(r.body, "email") == email && Get(r.body, "mobile") == mobile && Get(r.body, "otp") == Str(code)
  {
    if loading then Ignored
    else if |code| != OtpLength then Rejected(CodePrompt)
    else Send(Obj(map["email" := email, "mobile" := mobile, "otp" := Str(code)]))
  }

  /** Whatever was typed, the request goes out exactly when it held at
      least four digits, and then with the first four of them. */
  lemma TypedCodeIsSentWhenComplete(typed: string, email: Json, mobile: Json)
    ensures Submit(Sanitize(typed), false, email, mobile).Send? <==> |Text.Digits(typed)| >= OtpLength
    ensures Submit(Sanitize(typed), false, email, mobile).Send? ==>
              Get(Submit(Sanitize(typed), false, email, mobile).body, "otp") == Str(Text.Digits(typed)[..OtpLength])
  {
  }

  /** How the verification request ended: a failure with its status and
      body, or success with the body parsed as JSON (`None` when it was
      not JSON, which the page reads as `{}`). */
  datatype Reply = Failed(status: int, body: Failures.FailedBody) | Verified(parsed: Option<Json>)

  /** The fallback for a JSON error body without a message. */
  function StatusFallback(status: int): (r: string)
    ensures r == InvalidOtp <==> status == 400
  {
    if status == 400 then InvalidOtp else VerificationFailed
  }

  /** The error a failed verification shows, as written: a body that is not
      JSON ends in the error of reading the body a second time. */
  function FailureMessageAsWritten(status: int, body: Failures.FailedBody): (r: Failures.Shown)
    ensures body.TextBody? ==> r == Failures.BodyAlreadyRead
    ensures body.JsonBody? ==> r == Failures.Message(Failures.FriendlyMessage(body.payload, StatusFallback(status)))
    ensures body.JsonBody? && Truthy(Get(body.payload, "message")) ==>
              r == Failures.Message(ToJsString(Get(body.payload, "message")))
    ensures body.JsonBody? && !Truthy(Get(body.payload, "message")) && Truthy(Get(body.payload, "error")) ==>
              r == Failures.Message(ToJsString(Get(body.payload, "error")))
    ensures body.JsonBody? && !Truthy(Get(body.payload, "message")) && !Truthy(Get(body.payload, "error"))
            && Truthy(Get(body.payload, "reason")) ==>
              r == Failures.Message(ToJsString(Get(body.payload, "reason")))
    ensures body.JsonBody? && !Truthy(Get(body.payload, "message")) && !Truthy(Get(body.payload, "error"))
            && !Truthy(Get(body.payload, "reason")) ==>
              r == Failures.Message(if status == 400 then InvalidOtp else VerificationFailed)
  {
    Failures.FailureMessageAsWritten(body, StatusFallback(status), InvalidOtp)
  }

  /** The error a failed verification shows, as intended: the body's
      `message`, `error` or `reason`, else the status fallback; a body that
      is not JSON shows its text, or "Enter a valid OTP" when empty. */
  function FailureMessage(status: int, body: Failures.FailedBody): (r: string)
    ensures body.JsonBody? ==> r == Failures.FriendlyMessage(body.payload, StatusFallback(status))
    ensures body.JsonBody? && Truthy(Get(body.payload, "message")) ==> r == ToJsString(Get(body.payload, "message"))
    ensures body.JsonBody? && !Truthy(Get(body.payload, "message")) && Truthy(Get(body.payload, "error")) ==>
              r == ToJsString(Get(body.payload, "error"))
    ensures body.JsonBody? && !Truthy(Get(body.payload, "message")) && !Truthy(Get(body.payload, "error"))
            && Truthy(Get(body.payload, "reason")) ==>
              r == ToJsString(Get(body.payload, "reason"))
    ensures body.JsonBody? && !Truthy(Get(body.payload, "message")) && !Truthy(Get(body.payload, "error"))
            && !Truthy(Get(body.payload, "reason")) ==>
              r == (if status == 400 then InvalidOtp else VerificationFailed)
    ensures body.TextBody? ==> r == (if body.text != "" then body.text else InvalidOtp)
  {
    Failures.FailureMessage(body, StatusFallback(status), InvalidOtp)
  }

  /** A plain-text 500 reply: as written the page shows the body-read
      error; as intended it shows the reply's text. */
  lemma PlainTextFailureIsLost()
    ensures FailureMessageAsWritten(500, Failures.TextBody("Code expired")) == Failures.BodyAlreadyRead
    ensures FailureMessage(500, Failures.TextBody("Code expired")) == "Code expired"
    ensures FailureMessage(400, Failures.JsonBody(Obj(map[]))) == InvalidOtp
    ensures FailureMessage(500, Failures.JsonBody(Obj(map[]))) == VerificationFailed
  {
  }

  /** `await response.json().catch(() => ({}))`. */
  function ResultOf(parsed: Option<Json>): Json {
    if parsed.Some? then parsed.value else Obj(map[])
  }

  /** The name passed to `login`: the result's `name`, then its
      `user.firstName`, then its `data.firstName`, then the name from the
      navigation state, each taken when truthy. */
  function LoginName(result: Json, stateName: Json): (r: Json)
    ensures Truthy(Get(result, "name")) ==> r == Get(result, "name")
    ensures !Truthy(Get(result, "name")) && Truthy(Get(Get(result, "user"), "firstName")) ==>
              r == Get(Get(result, "user"), "firstName")
    ensures !Truthy(Get(result, "name")) && !Truthy(Get(Get(result, "user"), "firstName"))
            && Truthy(Get(Get(result, "data"), "firstName")) ==>
              r == Get(Get(result, "data"), "firstName")
    ensures !Truthy(Get(result, "name")) && !Truthy(Get(Get(result, "user"), "firstName"))
            && !Truthy(Get(Get(result, "data"), "firstName")) ==>
              r == stateName
  {
    Or(Get(result, "name"), Or(Get(Get(result, "user"), "firstName"), Or(Get(Get(result, "data"), "firstName"), stateName)))
  }

  /** A successful verification: the user provider signs in with the chosen
      name and the result's token, and the pending email becomes `null`. */
  function OnVerified(a: AuthContext.Auth, parsed: Option<Json>, state: Json): (r: AuthContext.Auth)
    ensures r.user.identity ==
              AuthContext.Identity(LoginName(ResultOf(parsed), StateName(state)), Get(ResultOf(parsed), "token"))
    ensures r.user.pendingEmail == Null
    ensures r.admin == a.admin
    ensures forall key :: !AuthContext.OwnedBy(key, AuthContext.User) ==> AuthContext.SameSlot(a.storage, r.storage, key)
    ensures a.storage.available ==> AuthContext.PendingEmailKey(AuthContext.User) !in r.storage.entries
  {
    var result := ResultOf(parsed);
    var signedIn := AuthContext.Login(a, AuthContext.User, AuthContext.Identity(LoginName(result, StateName(state)), Get(result, "token")));
    AuthContext.SetPendingEmail(signedIn, AuthContext.User, Null)
  }

  /** After a successful verification the user is signed in, so the
      guarded profile page renders for them (the page itself navigates to
      "/"), and the token is
      the result's string token. A success body that is not JSON still
      signs the user in, under the state's name and with no token. */
  lemma VerifiedSignsIn(a: AuthContext.Auth, parsed: Option<Json>, state: Json, t: string)
    ensures var r := OnVerified(a, parsed, state);
            AppRoutes.Route("/profile", r.user.identity, r.admin.identity)
            == AppRoutes.Render(AppRoutes.PublicLayout, AppRoutes.Profile)
    ensures Get(ResultOf(parsed), "token") == Str(t) ==> AuthContext.Token(OnVerified(a, parsed, state), AuthContext.User) == Str(t)
    ensures parsed.None? ==>
              OnVerified(a, parsed, state).user.identity == AuthContext.Identity(StateName(state), Undefined)
              && AuthContext.Token(OnVerified(a, parsed, state), AuthContext.User) == Null
  {
    AppRoutes.KnownPathsAreKeys();
  }

  /** How a resend ended: a failure with its body text, or success. */
  datatype ResendReply = ResendFailed(text: string) | Resent

  /** `resendCode` once its reply is in: the error to show, or none and the
      confirmation status. */
  function Resend(reply: ResendReply): (r: (Option<string>, string))
    ensures reply.Resent? <==> r.0.None?
    ensures reply.Resent? ==> r.1 == ResentStatus
    ensures reply.ResendFailed? && reply.text != "" ==> r.0 == Some(reply.text)
    ensures reply.ResendFailed? && reply.text == "" ==> r.0 == Some(ResendError)
  {
    match reply
    case ResendFailed(text) => (Some(Failures.TextOr(text, ResendError)), "Enter the verification code we sent")
    case Resent => (None, ResentStatus)
  }
}

=== FILE: platform_keys.dfy ===
/** Platform-label normalisation (src/utils/adPresentation.ts, line 35):
    labels are lower-cased and stripped of every character outside
    `[a-z0-9]`, so that spellings differing in case or punctuation share a
    key. */
module PlatformKeys {

  import Text

  /** The characters a normalised key may contain: `[a-z0-9]`. */
  predicate IsKeyChar(c: char) {
    ('a' <= c <= 'z') || Text.IsDigit(c)
  }

  predicate IsKey(s: string) {
    forall i :: 0 <= i < |s| ==> IsKeyChar(s[i])
  }

  /** What one character contributes to a key: itself lower-cased, or
      nothing when that is outside `[a-z0-9]`. */
  function KeyPart(c: char): (r: string)
    ensures IsKey(r) && |r| <= 1
  {
    var l := Text.Lower(c);
    if IsKeyChar(l) then [l] else []
  }

  /** Lower-cases `s` and deletes every character outside `[a-z0-9]`. */
  function KeyOf(s: string): (r: string)
    ensures IsKey(r)
    ensures |r| <= |s|
  {
    if s == [] then [] else KeyPart(s[0]) + KeyOf(s[1..])
  }

  /** One step of `KeyOf`: the first character's contribution, then the rest. */
  lemma KeyOfCons(c: char, s: string)
    ensures KeyOf([c] + s) == KeyPart(c) + KeyOf(s)
  {
    assert ([c] + s)[0] == c && ([c] + s)[1..] == s;
  }

  /** Normalisation distributes over concatenation. */
  lemma {:induction false} KeyOfAppend(a: string, b: string)
    ensures KeyOf(a + b) == KeyOf(a) + KeyOf(b)
  {
    if a == [] {
      assert a + b == b;
    } else {
      var t := a[1..];
      assert (a + b)[0] == a[0];
      assert (a + b)[1..] == t + b;
      KeyOfAppend(t, b);
      calc {
        KeyOf(a + b);
        KeyPart(a[0]) + KeyOf(t + b);
        KeyPart(a[0]) + (KeyOf(t) + KeyOf(b));
        { assert KeyPart(a[0]) + (KeyOf(t) + KeyOf(b)) == (KeyPart(a[0]) + KeyOf(t)) + KeyOf(b); }
        (KeyPart(a[0]) + KeyOf(t)) + KeyOf(b);
      }
    }
  }

  /** A string that is already a key normalises to itself. */
  lemma {:induction false} KeyOfFixesKeys(s: string)
    requires IsKey(s)
    ensures KeyOf(s) == s
  {
    if s != [] {
      KeyOfFixesKeys(s[1..]);
    }
  }

  /** A leading character that contributes `[l]`, before a string that is
      already a key, gives `[l]` followed by that string. */
  lemma KeyOfLeading(c: char, l: char, s: string)
    requires KeyPart(c) == [l] && KeyOf(s) == s
    ensures KeyOf([c] + s) == [l] + s
  {
    KeyOfCons(c, s);
  }

  /** A character outside `[a-z0-9]`, even after lower-casing, is dropped. */
  lemma KeyOfSkips(a: string, c: char, b: string)
    requires !IsKeyChar(Text.Lower(c))
    ensures KeyOf(a + [c] + b) == KeyOf(a) + KeyOf(b)
  {
    assert KeyPart(c) == [];
    assert KeyOf([c]) == [] by {
      assert [c][0] == c && [c][1..] == [];
    }
    calc {
      KeyOf(a + [c] + b);
      { KeyOfAppend(a + [c], b); }
      KeyOf(a + [c]) + KeyOf(b);
      { KeyOfAppend(a, [c]); }
      (KeyOf(a) + KeyOf([c])) + KeyOf(b);
      { assert KeyOf(a) + KeyOf([c]) == KeyOf(a); }
      KeyOf(a) + KeyOf(b);
    }
  }

  /** Any letter that lower-cases to `c` may open "onstructor". */
  lemma ConstructorKey(c: char)
    requires Text.Lower(c) == 'c'
    ensures KeyOf([c] + "onstructor") == "constructor"
  {
    assert KeyOf([c] + "onstructor") == ['c'] + "onstructor" by {
      assert KeyPart(c) == ['c'];
      KeyOfFixesKeys("onstructor");
      KeyOfLeading(c, 'c', "onstructor");
    }
    ConstructorSpelling();
  }

  lemma ConstructorSpelling()
    ensures ['c'] + "onstructor" == "constructor"
  {
  }

  /** Any letter that lower-cases to `n` may open "etflix", and any
      character outside `[a-z0-9]` may split "net" from "flix": the key is
      "netflix" either way. */
  lemma NetflixKeys(n: char, sep: char)
    requires Text.Lower(n) == 'n'
    requires !IsKeyChar(Text.Lower(sep))
    ensures KeyOf([n] + "etflix") == "netflix"
    ensures KeyOf("net" + [sep] + "flix") == "netflix"
    ensures KeyOf("netflix") == "netflix"
  {
    assert KeyOf([n] + "etflix") == ['n'] + "etflix" by {
      assert KeyPart(n) == ['n'];
      KeyOfFixesKeys("etflix");
      KeyOfLeading(n, 'n', "etflix");
    }
    assert KeyOf("net" + [sep] + "flix") == "net" + "flix" by {
      KeyOfSkips("net", sep, "flix");
      KeyOfFixesKeys("net");
      KeyOfFixesKeys("flix");
    }
    NetflixSpelling();
    KeyOfFixesKeys("netflix");
  }

  lemma NetflixSpelling()
    ensures ['n'] + "etflix" == "netflix"
    ensures "net" + "flix" == "netflix"
  {
  }
}

=== FILE: post_ad.dfy ===
/** The create-or-edit ad form (src/pages/PostAd.tsx): which ad is being
    edited, how an ad prefills the form, the checks a submit runs and the
    request it sends, what a finished submit leaves behind, and the platform
    list behind the platform selector. Form fields hold whatever JavaScript
    value was put in them: typed text, or a member of an ad being edited. */
module PostAd {

  import opened Optional
  import opened Json
  import Text
  import Uri
  import ListPaging
  import ViewAd

  /** `TIME_UNITS`: the units the duration selector offers, the first being
      the default. */
  const TimeUnits: seq<string> := ["hour", "day", "week", "month", "year"]
  const DefaultUnit: string := "hour"

  /** `API_BASE_URL` when the build sets none. */
  const DefaultApiBase: string := "http://localhost:5000"

  const LoginFirst: string := "Login to post an ad."
  const SelectPlatform: string := "Select a platform"
  const EnterDuration: string := "Enter a duration value"
  const SubmitError: string := "Unable to submit ad"
  const LoadAdError: string := "Unable to load ad"
  const LoadPlatformsError: string := "Unable to load platforms"
  const UpdatedMessage: string := "Ad updated successfully."
  const CreatedMessage: string := "Ad submitted! We will review it shortly."

  datatype AdForm = AdForm(
    title: Json,
    description: Json,
    price: Json,
    platformId: Json,
    durationValue: Json,
    durationUnit: Json)

  /** The form a page mounts with. */
  const EmptyForm: AdForm := AdForm(Str(""), Str(""), Str(""), Str(""), Str(""), Str(DefaultUnit))

  /** The default unit is the first one offered. */
  lemma DefaultUnitIsFirst()
    ensures TimeUnits[0] == DefaultUnit && EmptyForm.durationUnit == Str(TimeUnits[0])
  {
  }

  /** `query.get('adId')`: the value, or `null` when the query lacks it. */
  function QueryValue(q: Option<string>): Json {
    if q.Some? then Str(q.value) else Null
  }

  /** `selectedAdId`: the navigation state's `ad._id` when truthy, else the
      `adId` query value when non-empty, else the empty string. */
  function SelectedAdId(adFromState: Json, adIdQuery: Option<string>): (r: Json)
    ensures Truthy(Get(adFromState, "_id")) ==> r == Get(adFromState, "_id")
    ensures !Truthy(Get(adFromState, "_id")) && adIdQuery.Some? && adIdQuery.value != "" ==> r == Str(adIdQuery.value)
    ensures !Truthy(r) <==> r == Str("")
  {
    Or(Get(adFromState, "_id"), Or(QueryValue(adIdQuery), Str("")))
  }

  /** `isEditing`. */
  predicate IsEditing(selectedId: Json) {
    Truthy(selectedId)
  }

  /** The form edits an ad exactly when one of the two sources names one. */
  lemma EditingIffAnAdIsNamed(adFromState: Json, adIdQuery: Option<string>)
    ensures IsEditing(SelectedAdId(adFromState, adIdQuery)) <==>
              Truthy(Get(adFromState, "_id")) || (adIdQuery.Some? && adIdQuery.value != "")
  {
  }

  /** The form an ad prefills: title and description (empty when falsy),
      price and duration value as text (empty when `null` or missing), the
      platform id (a bare label, or the record's `_id`, else its `id`, else
      empty) and the unit (the default when falsy). */
  function Prefill(ad: Json): (r: AdForm)
    ensures Truthy(Get(ad, "title")) ==> r.title == Get(ad, "title")
    ensures !Truthy(Get(ad, "title")) ==> r.title == Str("")
    ensures r.price == Str(if Nullish(Get(ad, "price")) then "" else ToJsString(Get(ad, "price")))
    ensures Truthy(Get(ad, "description")) ==> r.description == Get(ad, "description")
    ensures !Truthy(Get(ad, "description")) ==> r.description == Str("")
    ensures Get(ad, "platform").Str? ==> r.platformId == Get(ad, "platform")
    ensures !Get(ad, "platform").Str? ==>
              r.platformId == Or(Get(Get(ad, "platform"), "_id"), Or(Get(Get(ad, "platform"), "id"), Str("")))
    ensures var value := Get(Get(ad, "duration"), "value");
            r.durationValue == Str(if Nullish(value) then "" else ToJsString(value))
    ensures Truthy(Get(Get(ad, "duration"), "unit")) ==> r.durationUnit == Get(Get(ad, "duration"), "unit")
    ensures !Truthy(Get(Get(ad, "duration"), "unit")) ==> r.durationUnit == Str(DefaultUnit)
    ensures Truthy(r.durationUnit)
  {
    var platform := Get(ad, "platform");
    var duration := Get(ad, "duration");
    AdForm(
      Or(Get(ad, "title"), Str("")),
      Or(Get(ad, "description"), Str("")),
      Str(if Nullish(Get(ad, "price")) then "" else ToJsString(Get(ad, "price"))),
      if platform.Str? then platform else Or(Get(platform, "_id"), Or(Get(platform, "id"), Str(""))),
      Str(if Nullish(Get(duration, "value")) then "" else ToJsString(Get(duration, "value"))),
      Or(Get(duration, "unit"), Str(DefaultUnit)))
  }

  /** `handleChange` for the control named `name`: that field takes the new
      value; every other field keeps its own. */
  function HandleChange(f: AdForm, name: string, value: string): (r: AdForm)
    ensures name == "title" ==> r == f.(title := Str(value))
    ensures name == "description" ==> r == f.(description := Str(value))
    ensures name == "price" ==> r == f.(price := Str(value))
    ensures name == "platformId" ==> r == f.(platformId := Str(value))
    ensures name == "durationValue" ==> r == f.(durationValue := Str(value))
    ensures name == "durationUnit" ==> r == f.(durationUnit := Str(value))
    ensures name !in {"title", "description", "price", "platformId", "durationValue", "durationUnit"} ==> r == f
  {
    match name
    case "title" => f.(title := Str(value))
    case "description" => f.(description := Str(value))
    case "price" => f.(price := Str(value))
    case "platformId" => f.(platformId := Str(value))
    case "durationValue" => f.(durationValue := Str(value))
    case "durationUnit" => f.(durationUnit := Str(value))
    case _ => f
  }

  /** The body a submit sends. The price and the duration value are sent
      through `Number(...)`; the model keeps the text handed to it. */
  datatype AdPayload = AdPayload(
    title: Json,
    description: Json,
    priceText: Json,
    platform: Json,
    durationValueText: Json,
    durationUnit: Json)

  function PayloadOf(f: AdForm): AdPayload {
    AdPayload(f.title, f.description, f.price, f.platformId, f.durationValue, f.durationUnit)
  }

  datatype Request = Request(verb: string, endpoint: string, authorization: string, payload: AdPayload)

  /** What a submit does: nothing while a submit is in flight; otherwise the
      first failing check's message; otherwise the request. */
  datatype SubmitStep = Ignored | Rejected(message: string) | Send(request: Request)

  /** The URL of one ad of the signed-in user. */
  function AdEndpoint(base: string, selectedId: Json): (r: string)
    ensures |r| >= |base| + 11 && r[..|base| + 11] == base + "/users/ads/"
    ensures forall i :: |base| + 11 <= i < |r| ==> r[i] != '/' && r[i] != '?' && r[i] != '#'
    ensures Uri.DecodeURIComponent(r[|base| + 11..]) == Some(ToJsString(selectedId))
  {
    Uri.EncodedIsOneSegment(ToJsString(selectedId));
    Uri.EncodeDecodeRoundTrip(ToJsString(selectedId));
    var e := Uri.EncodeURIComponent(ToJsString(selectedId));
    assert (base + "/users/ads/" + e)[|base| + 11..] == e;
    base + "/users/ads/" + e
  }

  /** `handleSubmit` up to the request. The checks run in order: a session
      token, then a platform, then a duration value; the first that fails
      names itself and nothing is sent. Editing sends PUT to the ad's own
      URL, creating sends POST to the posting URL. */
  function Submit(f: AdForm, submitting: bool, token: Json, selectedId: Json, base: string): (r: SubmitStep)
    ensures r.Ignored? <==> submitting
    ensures !submitting && !Truthy(token) ==> r == Rejected(LoginFirst)
    ensures !submitting && Truthy(token) && !Truthy(f.platformId) ==> r == Rejected(SelectPlatform)
    ensures !submitting && Truthy(token) && Truthy(f.platformId) && !Truthy(f.durationValue) ==>
              r == Rejected(EnterDuration)
    ensures r.Send? <==> !submitting && Truthy(token) && Truthy(f.platformId) && Truthy(f.durationValue)
    ensures r.Send? ==>
              && r.request.payload == PayloadOf(f)
              && r.request.authorization == "Bearer " + ToJsString(token)
              && (r.request.verb == "PUT" <==> IsEditing(selectedId))
              && (r.request.verb == "POST" <==> !IsEditing(selectedId))
              && (IsEditing(selectedId) ==> r.request.endpoint == AdEndpoint(base, selectedId))
              && (!IsEditing(selectedId) ==> r.request.endpoint == base + "/users/postAd")
  {
    if submitting then Ignored
    else if !Truthy(token) then Rejected(LoginFirst)
    else if !Truthy(f.platformId) then Rejected(SelectPlatform)
    else if !Truthy(f.durationValue) then Rejected(EnterDuration)
    else
      var editing := IsEditing(selectedId);
      Send(Request(
        if editing then "PUT" else "POST",
        if editing then AdEndpoint(base, selectedId) else base + "/users/postAd",
        "Bearer " + ToJsString(token),
        PayloadOf(f)))
  }

  /** The edit URL names the ad and nothing else: after the fixed prefix
      comes one path segment, with no `/`, `?` or `#` inside it, which
      decodes back to the id. */
  lemma EditEndpointNamesTheAd(base: string, selectedId: Json)
    ensures var e := Uri.EncodeURIComponent(ToJsString(selectedId));
            && AdEndpoint(base, selectedId) == base + "/users/ads/" + e
            && (forall i :: 0 <= i < |e| ==> e[i] != '/' && e[i] != '?' && e[i] != '#')
            && Uri.DecodeURIComponent(e) == Some(ToJsString(selectedId))
  {
    Uri.EncodedIsOneSegment(ToJsString(selectedId));
    Uri.EncodeDecodeRoundTrip(ToJsString(selectedId));
  }

  /** How the submit request ended. */
  datatype SubmitReply = SubmitFailed(text: string) | Submitted

  /** What the page holds after a submit ends. */
  datatype Finished = Finished(form: AdForm, success: Option<string>, error: Option<string>, navigateTo: Option<string>)

  /** The rest of `handleSubmit`. A created ad clears every field except
      the unit and stays on the page; an updated ad keeps the form and goes
      to the ad list; a failure reports the body text, or the default when it
      is empty, and keeps the form. */
  function FinishSubmit(f: AdForm, editing: bool, reply: SubmitReply): (r: Finished)
    ensures reply.SubmitFailed? ==>
              r == Finished(f, None, Some(if reply.text != "" then reply.text else SubmitError), None)
    ensures reply.Submitted? && !editing ==>
              r.form == EmptyForm.(durationUnit := f.durationUnit)
              && r.success == Some(CreatedMessage) && r.navigateTo.None? && r.error.None?
    ensures reply.Submitted? && editing ==>
              r == Finished(f, Some(UpdatedMessage), None, Some("/ads"))
  {
    match reply
    case SubmitFailed(text) => Finished(f, None, Some(if text != "" then text else SubmitError), None)
    case Submitted =>
      if editing then Finished(f, Some(UpdatedMessage), None, Some("/ads"))
      else
        Finished(f.(title := Str(""), description := Str(""), price := Str(""),
                    durationValue := Str(""), platformId := Str("")),
                 Some(CreatedMessage), None, None)
  }

  /** After a created ad the cleared form cannot be sent again as it is:
      the next submit asks for a platform. */
  lemma ClearedFormAsksForPlatform(f: AdForm, token: Json, selectedId: Json, base: string)
    requires Truthy(token)
    ensures Submit(FinishSubmit(f, false, Submitted).form, false, token, selectedId, base) == Rejected(SelectPlatform)
  {
  }

  /** The JSON record the server keeps for a sent payload, once `Number`
      has turned the price and duration text into `price` and `value`. */
  function StoredAd(p: AdPayload, price: int, value: int): Json {
    Obj(map[
      "title" := p.title,
      "description" := p.description,
      "price" := Num(price),
      "platform" := p.platform,
      "duration" := Obj(map["value" := Num(value), "unit" := p.durationUnit])])
  }

  /** Editing an ad brings back the form it was posted from: a form of
      typed text whose price and duration are number text prefills to
      itself from the record its submit produced. */
  lemma PrefillRestoresPostedForm(f: AdForm, price: int, value: int)
    requires f.title.Str? && f.description.Str? && f.platformId.Str?
    requires f.durationUnit.Str? && f.durationUnit.s != ""
    requires f.price == Str(Text.Decimal(price)) && f.durationValue == Str(Text.Decimal(value))
    ensures Prefill(StoredAd(PayloadOf(f), price, value)) == f
  {
    var ad := StoredAd(PayloadOf(f), price, value);
    var duration := Obj(map["value" := Num(value), "unit" := f.durationUnit]);
    assert Get(ad, "title") == f.title;
    assert Get(ad, "description") == f.description;
    assert Get(ad, "price") == Num(price);
    assert Get(ad, "platform") == f.platformId;
    assert Get(ad, "duration") == duration;
    assert Get(duration, "value") == Num(value);
    assert Get(duration, "unit") == f.durationUnit;
  }

  /** The ad inside a fetched edit response: `data`, else `ad`, else the
      payload, each taken when truthy. */
  function PickEditAd(payload: Json): (r: Json)
    ensures Truthy(Get(payload, "data")) ==> r == Get(payload, "data")
    ensures !Truthy(Get(payload, "data")) && Truthy(Get(payload, "ad")) ==> r == Get(payload, "ad")
    ensures !Truthy(Get(payload, "data")) && !Truthy(Get(payload, "ad")) ==> r == payload
  {
    Or(Get(payload, "data"), Or(Get(payload, "ad"), payload))
  }

  /** For the wrappings both pages accept, the edit form and the ad view
      pick the same ad. */
  lemma EditAndViewPickTheSameAd(ad: map<string, Json>)
    ensures Some(PickEditAd(Obj(map["data" := Obj(ad)]))) == ViewAd.PickAdFromPayload(Obj(map["data" := Obj(ad)]))
    ensures Some(PickEditAd(Obj(map["ad" := Obj(ad)]))) == ViewAd.PickAdFromPayload(Obj(map["ad" := Obj(ad)]))
  {
    ViewAd.PickAdRecoversWrappedAd(ad);
  }

  /** What the prefill effect does on its first step. */
  datatype EditStep = NoEdit | PrefillFromState(form: AdForm) | FetchAd(endpoint: string, authorization: string)

  /** The prefill effect: nothing without an id and a session; the ad from
      the navigation state when there is one; otherwise a request for it. */
  function BeginEdit(selectedId: Json, token: Json, adFromState: Json, base: string): (r: EditStep)
    ensures r.NoEdit? <==> !Truthy(selectedId) || !Truthy(token)
    ensures r.PrefillFromState? <==> Truthy(selectedId) && Truthy(token) && Truthy(adFromState)
    ensures r.PrefillFromState? ==> r.form == Prefill(adFromState)
    ensures r.FetchAd? ==> r.endpoint == AdEndpoint(base, selectedId) && r.authorization == "Bearer " + ToJsString(token)
  {
    if !Truthy(selectedId) || !Truthy(token) then NoEdit
    else if Truthy(adFromState) then PrefillFromState(Prefill(adFromState))
    else FetchAd(AdEndpoint(base, selectedId), "Bearer " + ToJsString(token))
  }

  /** The fetched ad prefills the form when the response holds a truthy
      one; a failed response reports its text or the default, and a body
      that is not JSON reports the parse error. */
  function ApplyEditReply(f: AdForm, reply: ListPaging.Reply): (r: (AdForm, Option<string>))
    ensures reply.Failed? ==> r == (f, Some(if reply.text != "" then reply.text else LoadAdError))
    ensures reply.Malformed? ==> r == (f, Some(reply.parseError))
    ensures reply.Succeeded? ==> r.1.None?
    ensures reply.Succeeded? && Truthy(PickEditAd(reply.payload)) ==> r.0 == Prefill(PickEditAd(reply.payload))
    ensures reply.Succeeded? && !Truthy(PickEditAd(reply.payload)) ==> r.0 == f
  {
    match reply
    case Failed(text) => (f, Some(if text != "" then text else LoadAdError))
    case Malformed(parseError) => (f, Some(parseError))
    case Succeeded(payload) =>
      var ad := PickEditAd(payload);
      if Truthy(ad) then (Prefill(ad), None) else (f, None)
  }

  /** The platform list: an array payload, else an array `data`, else
      nothing. */
  function ExtractPlatforms(payload: Json): (r: seq<Json>)
    ensures payload.Arr? ==> r == payload.items
    ensures !payload.Arr? && Get(payload, "data").Arr? ==> r == Get(payload, "data").items
    ensures r == [] || Arr(r) == payload || Arr(r) == Get(payload, "data")
  {
    if payload.Arr? then payload.items
    else if Get(payload, "data").Arr? then Get(payload, "data").items
    else []
  }

  /** The platform list is the admin pages' list extraction with `data` as
      the only wrapper. */
  lemma PlatformsAreDataList(payload: Json)
    ensures ExtractPlatforms(payload) == ListPaging.ExtractList(payload, "data")
  {
  }

  /** `loadPlatforms` once its response is in: the list and no error, or
      the error and no list. */
  function LoadPlatforms(reply: ListPaging.Reply): (r: (seq<Json>, Option<string>))
    ensures reply.Failed? ==> r.0 == [] && r.1 == Some(if reply.text != "" then reply.text else LoadPlatformsError)
    ensures reply.Malformed? ==> r == ([], Some(reply.parseError))
    ensures r.1 == ListPaging.ReplyError(reply, LoadPlatformsError)
    ensures reply.Succeeded? ==>
              (r.1.Some? <==> Get(reply.payload, "success") == Bool(false) && Truthy(Get(reply.payload, "message")))
    ensures reply.Succeeded? && r.1.Some? ==> r.1.value == ToJsString(Get(reply.payload, "message"))
    ensures reply.Succeeded? && r.1.None? ==> r.0 == ExtractPlatforms(reply.payload)
    ensures r.1.Some? ==> r.0 == []
  {
    var err := ListPaging.ReplyError(reply, LoadPlatformsError);
    if err.Some? then ([], err) else (ExtractPlatforms(reply.payload), None)
  }

  /** The value a platform option submits: its `_id`, else its `id`, else
      its label. */
  function OptionValue(platform: Json): (r: Json)
    ensures Truthy(Get(platform, "_id")) ==> r == Get(platform, "_id")
    ensures !Truthy(Get(platform, "_id")) && Truthy(Get(platform, "id")) ==> r == Get(platform, "id")
    ensures !Truthy(Get(platform, "_id")) && !Truthy(Get(platform, "id")) ==> r == Get(platform, "platform")
  {
    Or(Get(platform, "_id"), Or(Get(platform, "id"), Get(platform, "platform")))
  }

  /** Choosing a listed platform and editing the same ad later selects that
      platform again when the ad's platform record carries the same `_id`. */
  lemma ChosenPlatformPrefillsBack(f: AdForm, option: map<string, Json>, id: string, rest: map<string, Json>)
    requires id != "" && "_id" in option && option["_id"] == Str(id)
    ensures HandleChange(f, "platformId", ToJsString(OptionValue(Obj(option)))).platformId == Str(id)
    ensures Prefill(Obj(map["platform" := Obj(rest["_id" := Str(id)])])).platformId == Str(id)
  {
    var ad := Obj(map["platform" := Obj(rest["_id" := Str(id)])]);
    assert Get(ad, "platform") == Obj(rest["_id" := Str(id)]);
    assert Get(Get(ad, "platform"), "_id") == Str(id);
  }
}

=== FILE: signup.dfy ===
/** The sign-up page (src/pages/Signup.tsx): the six-field form, its reset,
    the password check before the request, and what a successful
    registration hands on to the one-time-passcode page: the pending email
    in the user provider and a navigation state with the email, the mobile
    and the display name. */
module Signup {

  import opened Optional
  import opened Json
  import Text
  import Failures
  import AuthContext
  import AppRoutes
  import OtpVerification

  const Mismatch: string := "Passwords do not match"
  const RegistrationFailed: string := "Registration failed"
  const CreatedMessage: string := "Account created. Verify the OTP sent to your device."
  const VerifyPath: string := "/verify-otp"

  /** The six inputs of the form. */
  datatype Form = Form(first: string, last: string, email: string, mobile: string, password: string, confirm: string)

  const EmptyForm: Form := Form("", "", "", "", "", "")

  /** Everything the page holds. */
  datatype Page = Page(form: Form, loading: bool, error: Option<string>, success: Option<string>)

  const Initial: Page := Page(EmptyForm, false, None, None)

  /** `handleChange` for the input named `name`: that field takes the typed
      value and the others keep theirs; the form has no other inputs. */
  function HandleChange(p: Page, name: string, value: string): (r: Page)
    ensures r.loading == p.loading && r.error == p.error && r.success == p.success
    ensures name == "first" ==> r.form == p.form.(first := value)
    ensures name == "last" ==> r.form == p.form.(last := value)
    ensures name == "email" ==> r.form == p.form.(email := value)
    ensures name == "mobile" ==> r.form == p.form.(mobile := value)
    ensures name == "password" ==> r.form == p.form.(password := value)
    ensures name == "confirm" ==> r.form == p.form.(confirm := value)
    ensures name !in {"first", "last", "email", "mobile", "password", "confirm"} ==> r == p
  {
    var f := p.form;
    var g :=
      if name == "first" then f.(first := value)
      else if name == "last" then f.(last := value)
      else if name == "email" then f.(email := value)
      else if name == "mobile" then f.(mobile := value)
      else if name == "password" then f.(password := value)
      else if name == "confirm" then f.(confirm := value)
      else f;
    p.(form := g)
  }

  /** `handleReset`: every field empty and both messages gone; a request in
      flight is not affected. */
  function Reset(p: Page): (r: Page)
    ensures r.form == EmptyForm && r.error.None? && r.success.None?
    ensures r.loading == p.loading
  {
    p.(form := EmptyForm, error := None, success := None)
  }

  /** Whatever was typed before, a reset leaves the same page. */
  lemma ResetForgetsTyping(p: Page, name: string, value: string)
    ensures Reset(HandleChange(p, name, value)) == Reset(p)
    ensures Reset(Reset(p)) == Reset(p)
    ensures Reset(Initial) == Initial
  {
  }

  /** `handleSubmit` up to the request: nothing while loading; the mismatch
      message, with the success message cleared, when the password and its
      confirmation differ; otherwise both messages cleared, the page
      loading, and the registration body. */
  function Submit(p: Page): (r: (Page, Option<Json>))
    ensures p.loading ==> r == (p, None)
    ensures !p.loading && p.form.password != p.form.confirm ==>
              r == (p.(error := Some(Mismatch), success := None), None)
    ensures r.1.Some? <==> !p.loading && p.form.password == p.form.confirm
    ensures r.1.Some? ==>
              r.0 == p.(loading := true, error := None, success := None)
              && Get(r.1.value, "firstName") == Str(p.form.first) && Get(r.1.value, "lastName") == Str(p.form.last)
              && Get(r.1.value, "email") == Str(p.form.email) && Get(r.1.value, "mobile") == Str(p.form.mobile)
              && Get(r.1.value, "password") == Str(p.form.password)
              && Get(r.1.value, "confirmPassword") == Str(p.form.confirm)
  {
    if p.loading then (p, None)
    else if p.form.password != p.form.confirm then (p.(error := Some(Mismatch), success := None), None)
    else
      var f := p.form;
      (p.(loading := true, error := None, success := None),
       Some(Obj(map["firstName" := Str(f.first), "lastName" := Str(f.last), "email" := Str(f.email),
                    "mobile" := Str(f.mobile), "password" := Str(f.password), "confirmPassword" := Str(f.confirm)])))
  }

  /** The name forwarded to the passcode page: first and last name joined
      by a space, without white space at either end. What is cut off is
      white space and nothing else, so names that are themselves trimmed
      and non-empty come through joined as they are. */
  function DisplayName(first: string, last: string): (r: string)
    ensures Text.Trimmed(r)
    ensures var joined := first + " " + last;
            exists i, j :: 0 <= i <= j <= |joined| && r == joined[i..j]
              && (forall k :: 0 <= k < i ==> Text.IsWhite(joined[k]))
              && (forall k :: j <= k < |joined| ==> Text.IsWhite(joined[k]))
    ensures first != "" && last != "" && Text.Trimmed(first) && Text.Trimmed(last) ==> r == first + " " + last
  {
    Text.TrimSpec(first + " " + last);
    TrimmedNamesJoinTrimmed(first, last);
    Text.Trim(first + " " + last)
  }

  /** Two trimmed, non-empty names joined by a space need no trimming. */
  lemma TrimmedNamesJoinTrimmed(first: string, last: string)
    ensures first != "" && last != "" && Text.Trimmed(first) && Text.Trimmed(last) ==>
              Text.Trim(first + " " + last) == first + " " + last
  {
    var joined := first + " " + last;
    if first != "" && last != "" && Text.Trimmed(first) && Text.Trimmed(last) {
      assert joined[0] == first[0] && joined[|joined| - 1] == last[|last| - 1];
      Text.TrimFixesTrimmed(joined);
    }
  }

  lemma DisplayNameExamples()
    ensures DisplayName("A", "B") == "A B"
    ensures DisplayName("", "B") == "B"
    ensures DisplayName("A", "") == "A"
    ensures DisplayName("", "") == ""
  {
    assert Text.TrimStart("A B") == "A B";
    assert Text.TrimEnd("A B") == "A B";
    assert Text.TrimStart(" B") == "B" by { assert Text.TrimStart(" B") == Text.TrimStart("B"); }
    assert Text.TrimEnd("B") == "B";
    assert Text.TrimStart("A ") == "A ";
    assert "A" + " " + "" == "A ";
    assert Text.TrimEnd("A ") == "A" by {
      assert "A "[..1] == "A";
      assert Text.TrimEnd("A") == "A";
    }
    assert Text.TrimStart(" ") == "" by { assert " "[1..] == ""; }
  }

  /** Where a successful registration sends the browser. */
  datatype Navigation = Navigation(to: string, state: Json)

  /** How the registration request ended. */
  datatype Reply = Failed(text: string) | Registered

  /** The rest of `handleSubmit`, given the page as it is when the reply
      arrives and the fields `sent` that the submitting render captured and
      sent. A failure shows the body text, or the default when it is empty,
      and touches nothing else. A success shows the confirmation, makes the
      sent email the user provider's pending email, and navigates to the
      passcode page with the sent email, mobile and display name. The form
      keeps whatever it holds now, typing during the request included, and
      either way the page stops loading. */
  function Finish(p: Page, sent: Form, a: AuthContext.Auth, reply: Reply): (r: (Page, AuthContext.Auth, Option<Navigation>))
    ensures !r.0.loading && r.0.form == p.form
    ensures reply.Failed? ==>
              r.0.error == Some(Failures.TextOr(reply.text, RegistrationFailed)) && r.0.success == p.success
              && r.1 == a && r.2.None?
    ensures reply.Registered? ==>
              r.0.success == Some(CreatedMessage) && r.0.error == p.error
              && r.1.user.pendingEmail == Str(sent.email)
              && r.1.user.identity == a.user.identity && r.1.admin == a.admin
              && r.2 == Some(Navigation(VerifyPath, Obj(map["email" := Str(sent.email), "mobile" := Str(sent.mobile),
                                                             "name" := Str(DisplayName(sent.first, sent.last))])))
  {
    match reply
    case Failed(text) => (p.(loading := false, error := Some(Failures.TextOr(text, RegistrationFailed))), a, None)
    case Registered =>
      var state := Obj(map["email" := Str(sent.email), "mobile" := Str(sent.mobile), "name" := Str(DisplayName(sent.first, sent.last))]);
      (p.(loading := false, success := Some(CreatedMessage)),
       AuthContext.SetPendingEmail(a, AuthContext.User, Str(sent.email)),
       Some(Navigation(VerifyPath, state)))
  }

  /** Typing during the request changes the form but not what the
      registration reports: the email submitted is the one made pending and
      handed to the passcode page, while the form keeps the new one. */
  lemma TypingDuringRequestIsKept(a: AuthContext.Auth)
    ensures var sent := Form("A", "B", "a@x", "1", "p", "p");
            var r := Finish(Page(sent.(email := "b@x"), true, None, None), sent, a, Registered);
            r.1.user.pendingEmail == Str("a@x") && r.0.form.email == "b@x"
            && Get(r.2.value.state, "email") == Str("a@x")
  {
    var sent := Form("A", "B", "a@x", "1", "p", "p");
    var state := Obj(map["email" := Str(sent.email), "mobile" := Str(sent.mobile), "name" := Str(DisplayName(sent.first, sent.last))]);
    assert Get(state, "email") == Str("a@x");
  }

  /** What the passcode page makes of a successful registration: it checks
      the sent email, greets the user by the display name, and shows its
      form unless both email and mobile were left empty. */
  lemma RegistrationReachesPasscodePage(p: Page, sent: Form, a: AuthContext.Auth)
    ensures var r := Finish(p, sent, a, Registered);
            var email := OtpVerification.Email(r.1.user.pendingEmail, r.2.value.state);
            email == Str(sent.email)
            && OtpVerification.Mobile(r.2.value.state) == Str(sent.mobile)
            && OtpVerification.StateName(r.2.value.state) == Str(DisplayName(sent.first, sent.last))
            && (OtpVerification.Expired(r.1.user.pendingEmail, r.2.value.state) <==> sent.email == "" && sent.mobile == "")
  {
    var f := sent;
    var state := Obj(map["email" := Str(f.email), "mobile" := Str(f.mobile), "name" := Str(DisplayName(f.first, f.last))]);
    assert Get(state, "email") == Str(f.email);
    assert Get(state, "mobile") == Str(f.mobile);
    assert Get(state, "name") == Str(DisplayName(f.first, f.last));
  }

  /** The path a successful registration navigates to is not in the route
      table, so the router answers it with a redirect home. */
  lemma VerifyPathIsNotRouted(user: Json, admin: Json)
    ensures AppRoutes.Route(VerifyPath, user, admin) == AppRoutes.Navigate("/", true)
  {
    AppRoutes.PlainPathIsItsKey(VerifyPath);
  }
}

=== FILE: text.dfy ===
/** Character classes and string helpers that the pages borrow from the
    JavaScript runtime: `String.prototype.trim`, the `\D` regular-expression
    class, ASCII `toLowerCase`, the decimal rendering of integers, and the
    comparison of a numeral with one. */
module Text {

  import opened Optional

  /** `\d` in a JavaScript regular expression: the ASCII digits only. */
  predicate IsDigit(c: char) {
    '0' <= c <= '9'
  }

  predicate AllDigits(s: string) {
    forall i :: 0 <= i < |s| ==> IsDigit(s[i])
  }

  /** `s.replace(/\D/g, '')`: the digits of `s`, in their order. */
  function Digits(s: string): (r: string)
    ensures AllDigits(r) && |r| <= |s|
    ensures |r| == |s| ==> r == s
  {
    if s == [] then [] else (if IsDigit(s[0]) then [s[0]] else []) + Digits(s[1..])
  }

  /** The filter works character by character, so it distributes over
      concatenation. */
  lemma {:induction false} DigitsAppend(a: string, b: string)
    ensures Digits(a + b) == Digits(a) + Digits(b)
  {
    if a == [] {
      assert a + b == b;
    } else {
      var t := a[1..];
      var head := if IsDigit(a[0]) then [a[0]] else [];
      assert (a + b)[0] == a[0];
      assert (a + b)[1..] == t + b;
      DigitsAppend(t, b);
      calc {
        Digits(a + b);
        head + Digits(t + b);
        head + (Digits(t) + Digits(b));
        { assert head + (Digits(t) + Digits(b)) == (head + Digits(t)) + Digits(b); }
        (head + Digits(t)) + Digits(b);
      }
    }
  }

  /** A string of digits loses nothing to the filter. */
  lemma {:induction false} DigitsKeepsDigitStrings(s: string)
    requires AllDigits(s)
    ensures Digits(s) == s
  {
    if s != [] {
      DigitsKeepsDigitStrings(s[1..]);
      assert [s[0]] + s[1..] == s;
    }
  }

  /** The code points `String.prototype.trim` removes: the WhiteSpace and
      LineTerminator productions of ECMAScript (tab, line feed, vertical tab,
      form feed, carriage return, space, no-break space, the Unicode space
      separators, line and paragraph separators, and the byte order mark). */
  predicate IsWhite(c: char) {
    var n := c as int;
    || (9 <= n <= 13)
    || n == 0x20 || n == 0xA0 || n == 0x1680
    || (0x2000 <= n <= 0x200A)
    || n == 0x2028 || n == 0x2029 || n == 0x202F || n == 0x205F
    || n == 0x3000 || n == 0xFEFF
  }

  /** Drops leading white space. */
  function TrimStart(s: string): string
    decreases |s|
  {
    if |s| > 0 && IsWhite(s[0]) then TrimStart(s[1..]) else s
  }

  /** Drops trailing white space. */
  function TrimEnd(s: string): string
    decreases |s|
  {
    if |s| > 0 && IsWhite(s[|s| - 1]) then TrimEnd(s[..|s| - 1]) else s
  }

  /** `String.prototype.trim`. */
  function Trim(s: string): string
  {
    TrimEnd(TrimStart(s))
  }

  /** `TrimStart` keeps a suffix of its input that does not start with white
      space, and everything it drops is white space. */
  lemma {:induction false} TrimStartSpec(s: string)
    ensures |TrimStart(s)| <= |s| && TrimStart(s) == s[|s| - |TrimStart(s)|..]
    ensures forall i :: 0 <= i < |s| - |TrimStart(s)| ==> IsWhite(s[i])
    ensures TrimStart(s) == [] || !IsWhite(TrimStart(s)[0])
    decreases |s|
  {
    if |s| > 0 && IsWhite(s[0]) {
      TrimStartSpec(s[1..]);
    }
  }

  /** `TrimEnd` keeps a prefix of its input that does not end with white
      space, and everything it drops is white space. */
  lemma {:induction false} TrimEndSpec(s: string)
    ensures |TrimEnd(s)| <= |s| && TrimEnd(s) == s[..|TrimEnd(s)|]
    ensures forall i :: |TrimEnd(s)| <= i < |s| ==> IsWhite(s[i])
    ensures TrimEnd(s) == [] || !IsWhite(TrimEnd(s)[|TrimEnd(s)| - 1])
    decreases |s|
  {
    if |s| > 0 && IsWhite(s[|s| - 1]) {
      TrimEndSpec(s[..|s| - 1]);
    }
  }

  /** `s` has no white space at either end. */
  predicate Trimmed(s: string) {
    s == [] || (!IsWhite(s[0]) && !IsWhite(s[|s| - 1]))
  }

  /** Trimming removes white space from both ends and nothing else: the
      result is an infix `s[i..j]` of the input, all of `s[..i]` and `s[j..]`
      is white space, and the result has no white space at either end. */
  lemma TrimSpec(s: string)
    ensures Trimmed(Trim(s))
    ensures exists i, j :: 0 <= i <= j <= |s| && Trim(s) == s[i..j]
              && (forall k :: 0 <= k < i ==> IsWhite(s[k]))
              && (forall k :: j <= k < |s| ==> IsWhite(s[k]))
  {
    var t := TrimStart(s);
    var r := TrimEnd(t);
    TrimStartSpec(s);
    TrimEndSpec(t);
    var i := |s| - |t|;
    var j := i + |r|;
    assert r == s[i..j];
    forall k | j <= k < |s| ensures IsWhite(s[k]) {
      assert s[k] == t[k - i];
    }
    if r != [] {
      assert r[0] == t[0];
    }
  }

  /** A string with no white space at either end is its own trim. */
  lemma TrimFixesTrimmed(s: string)
    requires Trimmed(s)
    ensures Trim(s) == s
  {
  }

  /** A trimmed string padded with one space on either side trims back to
      itself; the empty string trims back to empty. */
  lemma TrimPadded(t: string)
    requires Trimmed(t)
    ensures Trim(t + " ") == t
    ensures Trim(" " + t) == t
  {
    if t == [] {
      assert t + " " == " " && " " + t == " ";
      assert TrimStart(" ") == TrimStart(" "[1..]);
      assert " "[1..] == [];
    } else {
      assert (t + " ")[0] == t[0];
      assert TrimStart(t + " ") == t + " ";
      assert (t + " ")[..|t|] == t;
      assert TrimEnd(t + " ") == TrimEnd(t);
      assert (" " + t)[1..] == t;
      assert TrimStart(" " + t) == TrimStart(t);
      TrimFixesTrimmed(t);
    }
  }

  /** Trimming twice is trimming once. */
  lemma TrimIdempotent(s: string)
    ensures Trim(Trim(s)) == Trim(s)
  {
    TrimSpec(s);
    TrimFixesTrimmed(Trim(s));
  }

  /** ASCII `toLowerCase`: upper-case Latin letters map to lower case and
      every other character is left alone. */
  function Lower(c: char): (r: char)
  {
    if 'A' <= c <= 'Z' then (c as int + 32) as char else c
  }

  function DigitChar(d: nat): char
    requires d < 10
  {
    ('0' as int + d) as char
  }

  function DigitValue(c: char): nat
    requires IsDigit(c)
  {
    c as int - '0' as int
  }

  /** `String(n)` for a non-negative integer: its decimal digits, without
      leading zeros. */
  function NatDecimal(n: nat): (r: string)
    ensures |r| >= 1 && AllDigits(r)
    ensures r[0] == '0' ==> n == 0
  {
    if n < 10 then [DigitChar(n)] else NatDecimal(n / 10) + [DigitChar(n % 10)]
  }

  /** `String(n)` for an integer. */
  function Decimal(n: int): (r: string)
    ensures |r| >= 1
    ensures forall i :: 0 <= i < |r| ==> IsDigit(r[i]) || (i == 0 && r[i] == '-')
    ensures r[0] == '-' <==> n < 0
    ensures n < 0 ==> |r| >= 2 && r[1] != '0'
    ensures r[0] == '0' ==> |r| == 1 && n == 0
  {
    if n < 0 then "-" + NatDecimal(-n) else NatDecimal(n)
  }

  /** The value of a string of decimal digits. */
  function DigitsValue(s: string): nat
    requires AllDigits(s)
  {
    if s == [] then 0 else DigitsValue(s[..|s| - 1]) * 10 + DigitValue(s[|s| - 1])
  }

  /** Reads back what `Decimal` writes: an optional minus sign followed by
      digits. */
  function ParseDecimal(s: string): Option<int>
  {
    if |s| > 1 && s[0] == '-' && AllDigits(s[1..]) then Some(0 - DigitsValue(s[1..]))
    else if |s| > 0 && AllDigits(s) then Some(DigitsValue(s))
    else None
  }

  lemma {:induction false} NatDecimalRoundTrip(n: nat)
    ensures DigitsValue(NatDecimal(n)) == n
  {
    if n >= 10 {
      var s := NatDecimal(n);
      var d := DigitChar(n % 10);
      assert s == NatDecimal(n / 10) + [d];
      assert s[..|s| - 1] == NatDecimal(n / 10);
      NatDecimalRoundTrip(n / 10);
    }
  }

  /** A minus sign before the digits of a natural number parses back to its
      negation. */
  lemma MinusNatDecimalRoundTrip(m: nat)
    ensures ParseDecimal("-" + NatDecimal(m)) == Some(0 - m)
  {
    var s := "-" + NatDecimal(m);
    assert s[1..] == NatDecimal(m);
    NatDecimalRoundTrip(m);
  }

  /** The digits of a natural number parse back to it. */
  lemma NatDecimalParses(n: nat)
    ensures ParseDecimal(NatDecimal(n)) == Some(n)
  {
    var s := NatDecimal(n);
    assert s[0] != '-' by { assert IsDigit(s[0]); }
    NatDecimalRoundTrip(n);
  }

  /** The decimal rendering of an integer parses back to that integer. */
  lemma DecimalRoundTrip(n: int)
    ensures ParseDecimal(Decimal(n)) == Some(n)
  {
    if n < 0 {
      MinusNatDecimalRoundTrip(-n);
    } else {
      NatDecimalParses(n);
    }
  }

  /** The position of the first `c` in `s`, if any. */
  function IndexOf(s: string, c: char): (r: Option<nat>)
    ensures r.None? <==> c !in s
    ensures r.Some? ==> r.value < |s| && s[r.value] == c && c !in s[..r.value]
    decreases |s|
  {
    if s == [] then None
    else if s[0] == c then Some(0)
    else
      var r := IndexOf(s[1..], c);
      assert c in s[1..] ==> c in s;
      assert c in s ==> c in s[1..] by {
        if c in s {
          var k :| 0 <= k < |s| && s[k] == c;
          assert s[1..][k - 1] == c;
        }
      }
      if r.None? then None
      else
        assert s[..r.value + 1] == [s[0]] + s[1..][..r.value];
        Some(r.value + 1)
  }

  /** `x > 1` where `x` is a string, which JavaScript first converts to a
      number: white space at either end is ignored, then an optional sign
      and `Infinity`, or digits with at most one decimal point (at least one
      digit in all). A numeral is above one when it is not negative and its
      whole part exceeds one, or is one with a non-zero fraction. Text that
      spells no number (`NaN`) and the empty text (zero) are not above one. */
  predicate NumeralAboveOne(text: string) {
    var t := Trim(text);
    var negative := |t| > 0 && t[0] == '-';
    var body := if |t| > 0 && (t[0] == '+' || t[0] == '-') then t[1..] else t;
    if body == "Infinity" then !negative
    else
      var dot := IndexOf(body, '.');
      var whole := if dot.Some? then body[..dot.value] else body;
      var fraction := if dot.Some? then body[dot.value + 1..] else "";
      && !negative && |whole| + |fraction| > 0 && AllDigits(whole) && AllDigits(fraction)
      && (DigitsValue(whole) > 1 || (DigitsValue(whole) == 1 && DigitsValue(fraction) > 0))
  }

  /** The rendering of a natural number is above one exactly when the number is. */
  lemma NatDecimalAboveOne(n: nat)
    ensures NumeralAboveOne(NatDecimal(n)) <==> n > 1
  {
    var s := NatDecimal(n);
    assert !IsWhite(s[0]) && !IsWhite(s[|s| - 1]);
    TrimFixesTrimmed(s);
    assert '.' !in s;
    assert s != "Infinity" by { assert IsDigit(s[0]); }
    NatDecimalRoundTrip(n);
  }

  /** The rendering of a negative integer is never above one. */
  lemma NegativeDecimalNotAboveOne(n: int)
    requires n < 0
    ensures !NumeralAboveOne(Decimal(n))
  {
    var s := Decimal(n);
    assert s == "-" + NatDecimal(-n);
    assert !IsWhite(s[0]) && !IsWhite(s[|s| - 1]);
    TrimFixesTrimmed(s);
    assert s[1..] == NatDecimal(-n);
    assert s[1..] != "Infinity" by { assert IsDigit(s[1..][0]); }
  }

  /** The rendering of an integer is above one exactly when the integer is. */
  lemma DecimalAboveOne(n: int)
    ensures NumeralAboveOne(Decimal(n)) <==> n > 1
  {
    if n < 0 {
      NegativeDecimalNotAboveOne(n);
    } else {
      NatDecimalAboveOne(n);
    }
  }

  /** A numeral whose whole part is one is above one exactly when its
      fraction has a non-zero digit: "1.5" is, "1.0" and "1." are not. */
  lemma OnePointFractionAboveOne(fraction: string)
    requires AllDigits(fraction)
    ensures NumeralAboveOne("1." + fraction) <==> DigitsValue(fraction) > 0
  {
    var s := "1." + fraction;
    assert !IsWhite(s[0]) && !IsWhite(s[|s| - 1]);
    TrimFixesTrimmed(s);
    assert IndexOf(s, '.') == Some(1) by {
      assert s[..1] == "1";
    }
    assert s[..1] == "1" && s[2..] == fraction;
    assert s != "Infinity" by { assert s[0] == '1'; }
    assert DigitsValue("1") == 1 by { assert "1"[..0] == ""; }
  }
}

=== FILE: uri.dfy ===
/** `encodeURIComponent` as section 19.2.6.5 of the ECMAScript language
    specification defines it: the unreserved characters stay as they are and
    every other character becomes the percent-escaped bytes of its UTF-8
    encoding, in upper-case hexadecimal. A decoder for what it writes is
    given beside it so that the encoding can be shown lossless. Characters
    here are Unicode scalar values, so the lone surrogates that make the
    JavaScript function throw do not arise. */
module Uri {

  import opened Optional

  /** The characters `encodeURIComponent` leaves alone: ASCII letters,
      digits and `- _ . ! ~ * ' ( )`. */
  predicate Unreserved(c: char) {
    ('A' <= c <= 'Z') || ('a' <= c <= 'z') || ('0' <= c <= '9')
    || c == '-' || c == '_' || c == '.' || c == '!' || c == '~' || c == '*' || c == '\'' || c == '(' || c == ')'
  }

  predicate UpperHex(c: char) {
    ('0' <= c <= '9') || ('A' <= c <= 'F')
  }

  /** What may appear in an encoded component. Neither `/`, `?`, `#` nor
      any other separator of a URL is among them. */
  predicate SafeChar(c: char) {
    Unreserved(c) || c == '%' || UpperHex(c)
  }

  predicate IsByte(b: int) {
    0 <= b < 256
  }

  predicate IsContinuation(b: int) {
    0x80 <= b < 0xC0
  }

  /** The UTF-8 encoding of one code point: one byte below 0x80, then two,
      three or four bytes with the lead byte announcing the length. */
  function Utf8(c: char): (r: seq<int>)
    ensures 1 <= |r| <= 4 && |r| == SequenceLength(r[0])
    ensures forall i :: 0 <= i < |r| ==> IsByte(r[i])
    ensures forall i :: 1 <= i < |r| ==> IsContinuation(r[i])
  {
    var n := c as int;
    if n < 0x80 then [n]
    else if n < 0x800 then [0xC0 + n / 64, 0x80 + n % 64]
    else if n < 0x10000 then [0xE0 + n / 4096, 0x80 + (n / 64) % 64, 0x80 + n % 64]
    else [0xF0 + n / 262144, 0x80 + (n / 4096) % 64, 0x80 + (n / 64) % 64, 0x80 + n % 64]
  }

  /** How many bytes a UTF-8 sequence starting with `b` has, or 0 when `b`
      cannot start one. */
  function SequenceLength(b: int): (n: nat)
    ensures n <= 4
  {
    if 0 <= b < 0x80 then 1
    else if 0xC0 <= b < 0xE0 then 2
    else if 0xE0 <= b < 0xF0 then 3
    else if 0xF0 <= b < 0xF8 then 4
    else 0
  }

  /** The code point a complete UTF-8 sequence stands for. */
  function CodePoint(bs: seq<int>): int
    requires 1 <= |bs| <= 4
  {
    if |bs| == 1 then bs[0]
    else if |bs| == 2 then (bs[0] - 0xC0) * 64 + (bs[1] - 0x80)
    else if |bs| == 3 then (bs[0] - 0xE0) * 4096 + (bs[1] - 0x80) * 64 + (bs[2] - 0x80)
    else (bs[0] - 0xF0) * 262144 + (bs[1] - 0x80) * 4096 + (bs[2] - 0x80) * 64 + (bs[3] - 0x80)
  }

  /** UTF-8 loses nothing: the bytes of a code point decode back to it. */
  lemma Utf8RoundTrip(c: char)
    ensures CodePoint(Utf8(c)) == c as int
  {
    var n := c as int;
    if n < 0x80 {
    } else if n < 0x800 {
      Split64(n);
    } else if n < 0x10000 {
      Split64(n);
      Split64(n / 64);
      NestedDivisions(n);
    } else {
      Split64(n);
      Split64(n / 64);
      Split64(n / 4096);
      NestedDivisions(n);
    }
  }

  /** Euclidean division by 64 splits a number into quotient and remainder. */
  lemma Split64(n: int)
    requires n >= 0
    ensures n == (n / 64) * 64 + n % 64 && 0 <= n % 64 < 64
  {
  }

  /** Dividing by 64 twice is dividing by 4096, and dividing by 4096 and
      then 64 is dividing by 262144. */
  lemma NestedDivisions(n: int)
    requires n >= 0
    ensures n / 4096 == (n / 64) / 64
    ensures n / 262144 == (n / 4096) / 64
  {
  }

  function HexDigit(d: int): (c: char)
    requires 0 <= d < 16
    ensures UpperHex(c)
  {
    if d < 10 then ('0' as int + d) as char else ('A' as int + d - 10) as char
  }

  /** The value of a hexadecimal digit of either case. */
  function HexValue(c: char): Option<int> {
    if '0' <= c <= '9' then Some(c as int - '0' as int)
    else if 'A' <= c <= 'F' then Some(c as int - 'A' as int + 10)
    else if 'a' <= c <= 'f' then Some(c as int - 'a' as int + 10)
    else None
  }

  /** `%XY` for one byte. */
  function Escape(b: int): (r: string)
    requires IsByte(b)
    ensures |r| == 3 && r[0] == '%' && HexValue(r[1]) == Some(b / 16) && HexValue(r[2]) == Some(b % 16)
  {
    ['%', HexDigit(b / 16), HexDigit(b % 16)]
  }

  function EscapeAll(bs: seq<int>): (r: string)
    requires forall i :: 0 <= i < |bs| ==> IsByte(bs[i])
    ensures |r| == 3 * |bs|
    ensures forall i :: 0 <= i < |r| ==> SafeChar(r[i])
  {
    if bs == [] then [] else Escape(bs[0]) + EscapeAll(bs[1..])
  }

  function EncodeChar(c: char): (r: string)
    ensures |r| >= 1 && forall i :: 0 <= i < |r| ==> SafeChar(r[i])
  {
    if Unreserved(c) then [c] else EscapeAll(Utf8(c))
  }

  /** `encodeURIComponent`. */
  function EncodeURIComponent(s: string): (r: string)
    ensures forall i :: 0 <= i < |r| ==> SafeChar(r[i])
    ensures |r| >= |s|
    ensures (forall i :: 0 <= i < |s| ==> Unreserved(s[i])) ==> r == s
  {
    if s == [] then [] else EncodeChar(s[0]) + EncodeURIComponent(s[1..])
  }

  /** Reads `n` escaped bytes off the front of `s`. */
  function ReadEscapes(s: string, n: nat): Option<seq<int>>
  {
    if n == 0 then Some([])
    else if |s| < 3 || s[0] != '%' || HexValue(s[1]).None? || HexValue(s[2]).None? then None
    else
      var rest := ReadEscapes(s[3..], n - 1);
      if rest.None? then None else Some([HexValue(s[1]).value * 16 + HexValue(s[2]).value] + rest.value)
  }

  lemma {:induction false} ReadEscapesOfEscapeAll(bs: seq<int>, rest: string)
    requires forall i :: 0 <= i < |bs| ==> IsByte(bs[i])
    ensures ReadEscapes(EscapeAll(bs) + rest, |bs|) == Some(bs)
  {
    if bs != [] {
      var s := EscapeAll(bs) + rest;
      assert s == Escape(bs[0]) + (EscapeAll(bs[1..]) + rest);
      assert s[3..] == EscapeAll(bs[1..]) + rest;
      ReadEscapesOfEscapeAll(bs[1..], rest);
      assert [bs[0]] + bs[1..] == bs;
    }
  }

  /** A code point that names a character (not a surrogate, not beyond the
      Unicode range). */
  predicate IsScalar(n: int) {
    (0 <= n < 0xD800) || (0xE000 <= n < 0x11_0000)
  }

  /** `decodeURIComponent` restricted to what `EncodeURIComponent` writes:
      literal characters, and escapes whose bytes form one UTF-8 sequence
      per character. */
  function DecodeURIComponent(s: string): Option<string>
    decreases |s|
  {
    if s == [] then Some([])
    else if s[0] != '%' then
      var rest := DecodeURIComponent(s[1..]);
      if rest.None? then None else Some([s[0]] + rest.value)
    else if |s| < 3 || HexValue(s[1]).None? || HexValue(s[2]).None? then None
    else
      var n := SequenceLength(HexValue(s[1]).value * 16 + HexValue(s[2]).value);
      var bytes := ReadEscapes(s, n);
      if n == 0 || bytes.None? || |bytes.value| != n || |s| < 3 * n || !IsScalar(CodePoint(bytes.value)) then None
      else
        var rest := DecodeURIComponent(s[3 * n..]);
        if rest.None? then None else Some([CodePoint(bytes.value) as char] + rest.value)
  }

  lemma {:induction false} ReadEscapesLength(s: string, n: nat)
    requires ReadEscapes(s, n).Some?
    ensures |ReadEscapes(s, n).value| == n && |s| >= 3 * n
  {
    if n > 0 {
      ReadEscapesLength(s[3..], n - 1);
    }
  }

  /** Decoding one encoded character and then the rest is decoding the
      rest behind that character. */
  lemma {:induction false} DecodeEncodedChar(c: char, rest: string)
    ensures DecodeURIComponent(EncodeChar(c) + rest) ==
              (if DecodeURIComponent(rest).None? then None else Some([c] + DecodeURIComponent(rest).value))
  {
    var s := EncodeChar(c) + rest;
    if Unreserved(c) {
      assert s[0] == c && s[1..] == rest;
    } else {
      var bs := Utf8(c);
      ReadEscapesOfEscapeAll(bs, rest);
      var e := Escape(bs[0]);
      assert EscapeAll(bs) == e + EscapeAll(bs[1..]);
      assert s[0] == '%' && s[1] == e[1] && s[2] == e[2];
      assert HexValue(s[1]).value * 16 + HexValue(s[2]).value == bs[0];
      assert s[3 * |bs|..] == rest;
      Utf8RoundTrip(c);
    }
  }

  /** `decodeURIComponent` undoes `encodeURIComponent`. */
  lemma {:induction false} EncodeDecodeRoundTrip(s: string)
    ensures DecodeURIComponent(EncodeURIComponent(s)) == Some(s)
  {
    if s != [] {
      EncodeDecodeRoundTrip(s[1..]);
      DecodeEncodedChar(s[0], EncodeURIComponent(s[1..]));
      assert [s[0]] + s[1..] == s;
    }
  }

  /** An encoded component is a single path segment: it holds no `/`, `?`
      or `#`. */
  lemma EncodedIsOneSegment(s: string)
    ensures forall i :: 0 <= i < |EncodeURIComponent(s)| ==>
              EncodeURIComponent(s)[i] != '/' && EncodeURIComponent(s)[i] != '?' && EncodeURIComponent(s)[i] != '#'
  {
    var e := EncodeURIComponent(s);
    forall i | 0 <= i < |e|
      ensures e[i] != '/' && e[i] != '?' && e[i] != '#'
    {
      assert SafeChar(e[i]);
    }
  }
}

=== FILE: view_ad.dfy ===
/** The two payload pickers of the ad detail page (src/pages/ViewAd.tsx):
    one finds the ad record inside a loosely shaped response, the other
    probes a response for the seller's contact details. */
module ViewAd {

  import opened Json
  import opened Optional
  import Text

  /** `container[key]` when it is an object that is not an array, else
      `null` (the `'key' in container && typeof ... === 'object' &&
      !Array.isArray(...)` test; a `null` member passes that test and stays
      `null`). */
  function ObjectMember(container: Json, key: string): Json {
    var v := Get(container, key);
    if v.Obj? then v else Null
  }

  /** `pickAdFromPayload`: an object-valued `data`, else an object-valued
      `ad`, else the payload itself; `null` for every payload that is not an
      object. The result is never an array. */
  function PickAdFromPayload(payload: Json): (r: Option<Json>)
    ensures !payload.Obj? ==> r.None?
    ensures r.Some? ==> r.value.Obj?
    ensures Get(payload, "data").Obj? ==> r == Some(Get(payload, "data"))
    ensures !Get(payload, "data").Obj? && Get(payload, "ad").Obj? ==> r == Some(Get(payload, "ad"))
    ensures payload.Obj? && !Get(payload, "data").Obj? && !Get(payload, "ad").Obj? ==> r == Some(payload)
  {
    if !Truthy(payload) || !(payload.Null? || payload.Arr? || payload.Obj?) then None
    else
      var dataValue := ObjectMember(payload, "data");
      var adValue := ObjectMember(payload, "ad");
      var candidate := Coalesce(dataValue, Coalesce(adValue, if payload.Arr? then Null else payload));
      if Truthy(candidate) && candidate.Obj? then Some(candidate) else None
  }

  /** An ad comes back out of each wrapper the page accepts: `{data: ad}`,
      `{ad: ad}`, or the bare ad when its own `data` and `ad` members are not
      objects. */
  lemma PickAdRecoversWrappedAd(ad: map<string, Json>)
    ensures PickAdFromPayload(Obj(map["data" := Obj(ad)])) == Some(Obj(ad))
    ensures PickAdFromPayload(Obj(map["ad" := Obj(ad)])) == Some(Obj(ad))
    ensures (!Get(Obj(ad), "data").Obj? && !Get(Obj(ad), "ad").Obj?) ==>
              PickAdFromPayload(Obj(ad)) == Some(Obj(ad))
  {
    assert Get(Obj(map["ad" := Obj(ad)]), "data") == Undefined;
  }

  /** Top-level arrays and array- or null-valued wrappers never come out as
      the ad. */
  lemma PickAdSkipsArrays(items: seq<Json>, inner: seq<Json>)
    ensures PickAdFromPayload(Arr(items)) == None
    ensures PickAdFromPayload(Null) == None
    ensures PickAdFromPayload(Obj(map["data" := Arr(inner), "ad" := Null]))
              == Some(Obj(map["data" := Arr(inner), "ad" := Null]))
  {
  }

  /** What the page shows of the seller; every member is optional. */
  datatype SellerDetails = SellerDetails(name: Option<string>, email: Option<string>, mobile: Option<string>)

  /** `toRecord`: the object's members for a non-array object, `null` for
      `null`, primitives and arrays. */
  function ToRecord(payload: Json): (r: Option<map<string, Json>>)
    ensures r.Some? <==> payload.Obj?
    ensures r.Some? ==> r.value == payload.fields
  {
    if !Truthy(payload) || !(payload.Null? || payload.Arr? || payload.Obj?) || payload.Arr? then None
    else Some(payload.fields)
  }

  /** `candidate[key]` when it is a string. */
  function StringMember(c: map<string, Json>, key: string): Option<string> {
    if key in c && c[key].Str? then Some(c[key].s) else None
  }

  /** The position of the first of `keys` whose member is a string. */
  function FirstStringAt(c: map<string, Json>, keys: seq<string>): (r: Option<nat>)
    ensures r.None? <==> forall i :: 0 <= i < |keys| ==> StringMember(c, keys[i]).None?
    ensures r.Some? ==> r.value < |keys| && StringMember(c, keys[r.value]).Some?
    ensures r.Some? ==> forall j :: 0 <= j < r.value ==> StringMember(c, keys[j]).None?
  {
    if keys == [] then None
    else if StringMember(c, keys[0]).Some? then Some(0)
    else
      var rest := FirstStringAt(c, keys[1..]);
      if rest.None? then
        assert forall i :: 0 < i < |keys| ==> keys[i] == keys[1..][i - 1];
        None
      else
        assert forall j :: 0 < j <= rest.value ==> keys[j] == keys[1..][j - 1];
        Some(rest.value + 1)
  }

  /** The first of `keys` whose member is a string, in the order given. */
  function FirstString(c: map<string, Json>, keys: seq<string>): Option<string> {
    match FirstStringAt(c, keys)
    case None => None
    case Some(i) => StringMember(c, keys[i])
  }

  /** Looking through `keys` one at a time: the first key decides when its
      member is a string, and the rest are searched otherwise. */
  lemma FirstStringCons(c: map<string, Json>, keys: seq<string>)
    requires keys != []
    ensures FirstString(c, keys) ==
              if StringMember(c, keys[0]).Some? then StringMember(c, keys[0]) else FirstString(c, keys[1..])
  {
    if StringMember(c, keys[0]).None? {
      var rest := FirstStringAt(c, keys[1..]);
      if rest.Some? {
        assert keys[rest.value + 1] == keys[1..][rest.value];
      }
    }
  }

  /** The seller's name: a string `name`, else a string `fullName`, else the
      trimmed "first last" built from the trimmed string parts, which counts
      as absent when it is empty. */
  function NameOf(c: map<string, Json>): (r: Option<string>)
    ensures StringMember(c, "name").Some? ==> r == StringMember(c, "name")
    ensures StringMember(c, "name").None? && StringMember(c, "fullName").Some? ==> r == StringMember(c, "fullName")
    ensures StringMember(c, "name").None? && StringMember(c, "fullName").None? && r.Some? ==>
              r.value != "" && Text.Trimmed(r.value)
    ensures StringMember(c, "name").None? && StringMember(c, "fullName").None?
            && StringMember(c, "firstName").None? && StringMember(c, "lastName").None? ==>
              r.None?
  {
    if StringMember(c, "name").Some? then StringMember(c, "name")
    else if StringMember(c, "fullName").Some? then StringMember(c, "fullName")
    else
      var first := if StringMember(c, "firstName").Some? then Text.Trim(c["firstName"].s) else "";
      var last := if StringMember(c, "lastName").Some? then Text.Trim(c["lastName"].s) else "";
      var full := Text.Trim(first + " " + last);
      Text.TrimSpec(first + " " + last);
      assert first == "" && last == "" ==> full == "" by {
        if first == "" && last == "" {
          assert first + " " + last == " ";
          assert Text.TrimStart(" ") == "" by { assert " "[1..] == ""; }
        }
      }
      if full == "" then None else Some(full)
  }

  /** The seller's email: `email`, else `mail`. */
  function EmailOf(c: map<string, Json>): (r: Option<string>)
    ensures StringMember(c, "email").Some? ==> r == StringMember(c, "email")
    ensures StringMember(c, "email").None? ==> r == StringMember(c, "mail")
  {
    var keys := ["email", "mail"];
    FirstStringCons(c, keys);
    FirstStringCons(c, keys[1..]);
    assert keys[1..][1..] == [];
    FirstString(c, keys)
  }

  /** The seller's phone: `mobile`, `phone`, `phoneNumber`, `contactNumber`. */
  function MobileOf(c: map<string, Json>): (r: Option<string>)
    ensures StringMember(c, "mobile").Some? ==> r == StringMember(c, "mobile")
    ensures StringMember(c, "mobile").None? && StringMember(c, "phone").Some? ==> r == StringMember(c, "phone")
    ensures StringMember(c, "mobile").None? && StringMember(c, "phone").None?
            && StringMember(c, "phoneNumber").Some? ==>
              r == StringMember(c, "phoneNumber")
    ensures StringMember(c, "mobile").None? && StringMember(c, "phone").None?
            && StringMember(c, "phoneNumber").None? ==>
              r == StringMember(c, "contactNumber")
  {
    var keys := ["mobile", "phone", "phoneNumber", "contactNumber"];
    FirstStringCons(c, keys);
    FirstStringCons(c, keys[1..]);
    FirstStringCons(c, keys[2..]);
    FirstStringCons(c, keys[3..]);
    assert keys[1..][1..] == keys[2..] && keys[2..][1..] == keys[3..] && keys[3..][1..] == [];
    FirstString(c, keys)
  }

  /** A present, non-empty string. */
  predicate Filled(o: Option<string>) {
    o.Some? && o.value != ""
  }

  function DetailsOf(c: map<string, Json>): SellerDetails {
    SellerDetails(NameOf(c), EmailOf(c), MobileOf(c))
  }

  /** `name || email || mobile` for a candidate record. */
  predicate Qualifies(c: map<string, Json>) {
    var d := DetailsOf(c);
    Filled(d.name) || Filled(d.email) || Filled(d.mobile)
  }

  /** A present record as a one-element list, an absent one as nothing: the
      `.filter(Boolean)` step for one slot. */
  function Slot(x: Option<map<string, Json>>): seq<map<string, Json>> {
    if x.Some? then [x.value] else []
  }

  /** The records the page probes, most specific first: `data.poster`,
      `poster`, `details`, `user`, `data`, and the payload itself. */
  function SellerCandidates(container: map<string, Json>): (r: seq<map<string, Json>>)
    ensures 1 <= |r| <= 6 && r[|r| - 1] == container
    ensures "data" in container && container["data"].Obj? && "poster" in container["data"].fields
            && container["data"].fields["poster"].Obj? ==>
              r[0] == container["data"].fields["poster"].fields
    ensures "data" in container && container["data"].Obj? ==> |r| >= 2 && r[|r| - 2] == container["data"].fields
    ensures ("data" !in container || !container["data"].Obj?) && ("poster" !in container || !container["poster"].Obj?)
            && ("details" !in container || !container["details"].Obj?) && ("user" !in container || !container["user"].Obj?) ==>
              r == [container]
    ensures "data" in container && container["data"].Obj? && "poster" in container["data"].fields
            && container["data"].fields["poster"].Obj? && "poster" in container && container["poster"].Obj?
            && "details" in container && container["details"].Obj? && "user" in container && container["user"].Obj? ==>
              r == [container["data"].fields["poster"].fields, container["poster"].fields, container["details"].fields,
                    container["user"].fields, container["data"].fields, container]
    ensures ("data" !in container || !container["data"].Obj?) && "poster" in container && container["poster"].Obj?
            && "details" in container && container["details"].Obj? && "user" in container && container["user"].Obj? ==>
              r == [container["poster"].fields, container["details"].fields, container["user"].fields, container]
  {
    var dataRecord := if "data" in container then ToRecord(container["data"]) else None;
    var posterRecord :=
      if dataRecord.Some? && "poster" in dataRecord.value then ToRecord(dataRecord.value["poster"]) else None;
    var nestedPoster := if "poster" in container then ToRecord(container["poster"]) else None;
    var userRecord := if "user" in container then ToRecord(container["user"]) else None;
    var detailsRecord := if "details" in container then ToRecord(container["details"]) else None;
    Slot(posterRecord) + Slot(nestedPoster) + Slot(detailsRecord) + Slot(userRecord) + Slot(dataRecord)
      + [container]
  }

  /** The position of the first qualifying candidate. */
  function FirstQualifying(cs: seq<map<string, Json>>): (r: Option<nat>)
    ensures r.None? <==> forall i :: 0 <= i < |cs| ==> !Qualifies(cs[i])
    ensures r.Some? ==> r.value < |cs| && Qualifies(cs[r.value])
    ensures r.Some? ==> forall j :: 0 <= j < r.value ==> !Qualifies(cs[j])
  {
    FirstFrom(cs, Qualifies, 0)
  }

  /** The position of the first element at or after `k` that satisfies `p`. */
  function FirstFrom<T>(xs: seq<T>, p: T -> bool, k: nat): (r: Option<nat>)
    requires k <= |xs|
    ensures r.None? <==> forall i :: k <= i < |xs| ==> !p(xs[i])
    ensures r.Some? ==> k <= r.value < |xs| && p(xs[r.value])
    ensures r.Some? ==> forall j :: k <= j < r.value ==> !p(xs[j])
    decreases |xs| - k
  {
    if k == |xs| then None
    else if p(xs[k]) then Some(k)
    else FirstFrom(xs, p, k + 1)
  }

  /** `pickSellerDetails`: the details of the first candidate record with a
      non-empty name, email or phone; `null` when the payload is not a record
      or no candidate qualifies. */
  function PickSellerDetails(payload: Json): (r: Option<SellerDetails>)
    ensures !payload.Obj? ==> r.None?
    ensures r.Some? ==> Filled(r.value.name) || Filled(r.value.email) || Filled(r.value.mobile)
    ensures payload.Obj? ==>
              (r.None? <==> forall i :: 0 <= i < |SellerCandidates(payload.fields)| ==>
                                        !Qualifies(SellerCandidates(payload.fields)[i]))
    ensures payload.Obj? && r.Some? ==>
              exists i :: 0 <= i < |SellerCandidates(payload.fields)|
                && r.value == DetailsOf(SellerCandidates(payload.fields)[i])
                && forall j :: 0 <= j < i ==> !Qualifies(SellerCandidates(payload.fields)[j])
  {
    match ToRecord(payload)
    case None => None
    case Some(container) =>
      var cs := SellerCandidates(container);
      match FirstQualifying(cs)
      case None => None
      case Some(i) => Some(DetailsOf(cs[i]))
  }

  /** The member `key` of `c` is a record with a usable field. */
  predicate QualifyingRecord(c: map<string, Json>, key: string) {
    key in c && c[key].Obj? && Qualifies(c[key].fields)
  }

  /** `data` is a record whose `poster` is a record with a usable field. */
  predicate DataPosterQualifies(container: map<string, Json>) {
    "data" in container && container["data"].Obj? && QualifyingRecord(container["data"].fields, "poster")
  }

  /** No element of `cs` qualifies. */
  predicate NoneQualify(cs: seq<map<string, Json>>) {
    forall j :: 0 <= j < |cs| ==> !Qualifies(cs[j])
  }

  /** The slot of a record that is absent or does not qualify holds nothing
      that qualifies. */
  lemma SlotNoneQualify(x: Option<map<string, Json>>)
    requires x.None? || !Qualifies(x.value)
    ensures NoneQualify(Slot(x))
  {
  }

  lemma {:induction false} NoneQualifyAppend(a: seq<map<string, Json>>, b: seq<map<string, Json>>)
    requires NoneQualify(a) && NoneQualify(b)
    ensures NoneQualify(a + b)
  {
    forall j | 0 <= j < |a + b|
      ensures !Qualifies((a + b)[j])
    {
      if j < |a| {
        assert (a + b)[j] == a[j];
      } else {
        assert (a + b)[j] == b[j - |a|];
      }
    }
  }

  /** The search finds an element that satisfies `p` after a prefix none of
      whose elements does. */
  lemma FirstFromAt<T>(pre: seq<T>, x: T, post: seq<T>, p: T -> bool)
    requires forall j :: 0 <= j < |pre| ==> !p(pre[j])
    requires p(x)
    ensures FirstFrom(pre + [x] + post, p, 0) == Some(|pre|)
  {
    var xs := pre + [x] + post;
    assert xs[|pre|] == x;
    assert forall j :: 0 <= j < |pre| ==> xs[j] == pre[j];
  }

  /** The picked details are those of the first qualifying candidate. */
  lemma PickFollowsFirst(container: map<string, Json>)
    ensures var cs := SellerCandidates(container);
            var k := FirstQualifying(cs);
            PickSellerDetails(Obj(container)) == if k.Some? then Some(DetailsOf(cs[k.value])) else None
  {
  }

  /** A qualifying candidate after only non-qualifying ones is picked. */
  lemma PickedAt(container: map<string, Json>, pre: seq<map<string, Json>>, x: map<string, Json>, post: seq<map<string, Json>>)
    requires SellerCandidates(container) == pre + [x] + post
    requires NoneQualify(pre) && Qualifies(x)
    ensures PickSellerDetails(Obj(container)) == Some(DetailsOf(x))
  {
    PickFollowsFirst(container);
    FirstFromAt(pre, x, post, Qualifies);
    assert (pre + [x] + post)[|pre|] == x;
  }

  /** The record under `key`, when that member is an object. */
  function MemberRecord(c: map<string, Json>, key: string): (r: Option<map<string, Json>>)
    ensures r.Some? <==> key in c && c[key].Obj?
    ensures r.Some? ==> r.value == c[key].fields
  {
    if key in c then ToRecord(c[key]) else None
  }

  /** The record under `data.poster`, when both are objects. */
  function DataPoster(c: map<string, Json>): (r: Option<map<string, Json>>)
    ensures r.Some? ==> MemberRecord(c, "data").Some? && MemberRecord(MemberRecord(c, "data").value, "poster") == r
    ensures r.None? && MemberRecord(c, "data").Some? ==> MemberRecord(MemberRecord(c, "data").value, "poster").None?
  {
    var d := MemberRecord(c, "data");
    if d.Some? then MemberRecord(d.value, "poster") else None
  }

  /** The candidate list split at its slots. */
  lemma CandidateSlots(c: map<string, Json>)
    ensures SellerCandidates(c) ==
              Slot(DataPoster(c)) + Slot(MemberRecord(c, "poster")) + Slot(MemberRecord(c, "details"))
              + Slot(MemberRecord(c, "user")) + Slot(MemberRecord(c, "data")) + [c]
  {
  }

  /** The candidate list around the top-level `poster`. */
  lemma SplitAtPoster(c: map<string, Json>)
    requires "poster" in c && c["poster"].Obj?
    ensures SellerCandidates(c) ==
              Slot(DataPoster(c)) + [c["poster"].fields]
              + (Slot(MemberRecord(c, "details")) + Slot(MemberRecord(c, "user")) + Slot(MemberRecord(c, "data")) + [c])
  {
    CandidateSlots(c);
    assert Slot(MemberRecord(c, "poster")) == [c["poster"].fields];
  }

  /** The candidate list around `details`. */
  lemma SplitAtDetails(c: map<string, Json>)
    requires "details" in c && c["details"].Obj?
    ensures SellerCandidates(c) ==
              (Slot(DataPoster(c)) + Slot(MemberRecord(c, "poster"))) + [c["details"].fields]
              + (Slot(MemberRecord(c, "user")) + Slot(MemberRecord(c, "data")) + [c])
  {
    CandidateSlots(c);
    assert Slot(MemberRecord(c, "details")) == [c["details"].fields];
  }

  /** The candidate list around `user`. */
  lemma SplitAtUser(c: map<string, Json>)
    requires "user" in c && c["user"].Obj?
    ensures SellerCandidates(c) ==
              (Slot(DataPoster(c)) + Slot(MemberRecord(c, "poster")) + Slot(MemberRecord(c, "details")))
              + [c["user"].fields] + (Slot(MemberRecord(c, "data")) + [c])
  {
    CandidateSlots(c);
  }

  /** The candidate list around `data`. */
  lemma SplitAtData(c: map<string, Json>)
    requires "data" in c && c["data"].Obj?
    ensures SellerCandidates(c) ==
              (Slot(DataPoster(c)) + Slot(MemberRecord(c, "poster")) + Slot(MemberRecord(c, "details"))
               + Slot(MemberRecord(c, "user"))) + [c["data"].fields] + [c]
  {
    CandidateSlots(c);
  }

  /** Without a qualifying `data.poster`, its slot holds nothing that qualifies. */
  lemma NoneAtDataPoster(c: map<string, Json>)
    requires !DataPosterQualifies(c)
    ensures NoneQualify(Slot(DataPoster(c)))
  {
    SlotNoneQualify(DataPoster(c));
  }

  /** Neither poster qualifies: their slots hold nothing that qualifies. */
  lemma NoneUpToPoster(c: map<string, Json>)
    requires !DataPosterQualifies(c) && !QualifyingRecord(c, "poster")
    ensures NoneQualify(Slot(DataPoster(c)) + Slot(MemberRecord(c, "poster")))
  {
    NoneAtDataPoster(c);
    SlotNoneQualify(MemberRecord(c, "poster"));
    NoneQualifyAppend(Slot(DataPoster(c)), Slot(MemberRecord(c, "poster")));
  }

  /** No poster and no `details` qualifies. */
  lemma NoneUpToDetails(c: map<string, Json>)
    requires !DataPosterQualifies(c) && !QualifyingRecord(c, "poster") && !QualifyingRecord(c, "details")
    ensures NoneQualify(Slot(DataPoster(c)) + Slot(MemberRecord(c, "poster")) + Slot(MemberRecord(c, "details")))
  {
    NoneUpToPoster(c);
    SlotNoneQualify(MemberRecord(c, "details"));
    NoneQualifyAppend(Slot(DataPoster(c)) + Slot(MemberRecord(c, "poster")), Slot(MemberRecord(c, "details")));
  }

  /** No poster, no `details` and no `user` qualifies. */
  lemma NoneUpToUser(c: map<string, Json>)
    requires !DataPosterQualifies(c) && !QualifyingRecord(c, "poster")
    requires !QualifyingRecord(c, "details") && !QualifyingRecord(c, "user")
    ensures NoneQualify(Slot(DataPoster(c)) + Slot(MemberRecord(c, "poster")) + Slot(MemberRecord(c, "details"))
                        + Slot(MemberRecord(c, "user")))
  {
    NoneUpToDetails(c);
    SlotNoneQualify(MemberRecord(c, "user"));
    NoneQualifyAppend(Slot(DataPoster(c)) + Slot(MemberRecord(c, "poster")) + Slot(MemberRecord(c, "details")),
                      Slot(MemberRecord(c, "user")));
  }

  /** Unless `data.poster` qualifies, a qualifying top-level `poster` is the
      answer, whatever `details`, `user` and `data` hold. */
  lemma TopPosterBeatsDetailsAndUser(container: map<string, Json>)
    requires !DataPosterQualifies(container)
    requires QualifyingRecord(container, "poster")
    ensures PickSellerDetails(Obj(container)) == Some(DetailsOf(container["poster"].fields))
  {
    var c := container;
    SplitAtPoster(c);
    NoneAtDataPoster(c);
    PickedAt(c, Slot(DataPoster(c)), c["poster"].fields,
             Slot(MemberRecord(c, "details")) + Slot(MemberRecord(c, "user")) + Slot(MemberRecord(c, "data")) + [c]);
  }

  /** Unless one of the two posters qualifies, a qualifying `details` is the
      answer, whatever `user` and `data` hold. */
  lemma DetailsBeatsUser(container: map<string, Json>)
    requires !DataPosterQualifies(container) && !QualifyingRecord(container, "poster")
    requires QualifyingRecord(container, "details")
    ensures PickSellerDetails(Obj(container)) == Some(DetailsOf(container["details"].fields))
  {
    var c := container;
    SplitAtDetails(c);
    NoneUpToPoster(c);
    PickedAt(c, Slot(DataPoster(c)) + Slot(MemberRecord(c, "poster")), c["details"].fields,
             Slot(MemberRecord(c, "user")) + Slot(MemberRecord(c, "data")) + [c]);
  }

  /** Unless a poster or `details` qualifies, a qualifying `user` is the
      answer, ahead of `data` and the payload. */
  lemma UserBeatsData(container: map<string, Json>)
    requires !DataPosterQualifies(container) && !QualifyingRecord(container, "poster")
    requires !QualifyingRecord(container, "details")
    requires QualifyingRecord(container, "user")
    ensures PickSellerDetails(Obj(container)) == Some(DetailsOf(container["user"].fields))
  {
    var c := container;
    SplitAtUser(c);
    NoneUpToDetails(c);
    PickedAt(c, Slot(DataPoster(c)) + Slot(MemberRecord(c, "poster")) + Slot(MemberRecord(c, "details")),
             c["user"].fields, Slot(MemberRecord(c, "data")) + [c]);
  }

  /** With no qualifying poster, `details` or `user`, a qualifying `data`
      record is the answer, ahead of the payload. */
  lemma DataBeatsPayload(container: map<string, Json>)
    requires !DataPosterQualifies(container) && !QualifyingRecord(container, "poster")
    requires !QualifyingRecord(container, "details") && !QualifyingRecord(container, "user")
    requires QualifyingRecord(container, "data")
    ensures PickSellerDetails(Obj(container)) == Some(DetailsOf(container["data"].fields))
  {
    var c := container;
    SplitAtData(c);
    NoneUpToUser(c);
    PickedAt(c, Slot(DataPoster(c)) + Slot(MemberRecord(c, "poster")) + Slot(MemberRecord(c, "details"))
                + Slot(MemberRecord(c, "user")), c["data"].fields, [c]);
  }

  /** `data.poster` outranks every other location: when it is a record with
      a usable field, its details are the answer. */
  lemma NestedPosterWins(container: map<string, Json>, data: map<string, Json>, poster: map<string, Json>)
    requires "data" in container && container["data"] == Obj(data)
    requires "poster" in data && data["poster"] == Obj(poster)
    requires Qualifies(poster)
    ensures PickSellerDetails(Obj(container)) == Some(DetailsOf(poster))
  {
    assert SellerCandidates(container)[0] == poster;
  }

  /** The payload itself is the last resort: it is used only when no nested
      record qualifies. */
  lemma PayloadIsLastResort(container: map<string, Json>)
    requires "data" !in container && "poster" !in container
    requires "details" !in container && "user" !in container
    ensures SellerCandidates(container) == [container]
    ensures PickSellerDetails(Obj(container)) ==
              (if Qualifies(container) then Some(DetailsOf(container)) else None)
  {
  }

  /** A string `name` ends the name chain even when it is empty, so a
      `fullName` beside it is never consulted; the record then qualifies only
      through its email or phone. */
  lemma EmptyNameHidesFullName()
    ensures NameOf(map["name" := Str(""), "fullName" := Str("Bob")]) == Some("")
    ensures !Qualifies(map["name" := Str(""), "fullName" := Str("Bob")])
  {
    var c := map["name" := Str(""), "fullName" := Str("Bob")];
    assert EmailOf(c) == None by {
      assert StringMember(c, "email").None? && StringMember(c, "mail").None?;
    }
    assert MobileOf(c) == None by {
      assert StringMember(c, "mobile").None? && StringMember(c, "phone").None?;
      assert StringMember(c, "phoneNumber").None? && StringMember(c, "contactNumber").None?;
    }
  }

  /** `{data: {poster: {firstName: "A", lastName: "B"}}}` yields the name
      "A B" and nothing else. */
  lemma SellerFromNameParts()
    ensures PickSellerDetails(Obj(map["data" := Obj(map["poster" :=
              Obj(map["firstName" := Str("A"), "lastName" := Str("B")])])]))
            == Some(SellerDetails(Some("A B"), None, None))
  {
    var poster := map["firstName" := Str("A"), "lastName" := Str("B")];
    PosterWithNameParts();
    NestedPosterWins(map["data" := Obj(map["poster" := Obj(poster)])], map["poster" := Obj(poster)], poster);
  }

  lemma PosterWithNameParts()
    ensures DetailsOf(map["firstName" := Str("A"), "lastName" := Str("B")])
            == SellerDetails(Some("A B"), None, None)
  {
    var poster := map["firstName" := Str("A"), "lastName" := Str("B")];
    NamePartsJoined();
    assert EmailOf(poster) == None by {
      assert StringMember(poster, "email").None? && StringMember(poster, "mail").None?;
    }
    assert MobileOf(poster) == None by {
      assert StringMember(poster, "mobile").None? && StringMember(poster, "phone").None?;
      assert StringMember(poster, "phoneNumber").None? && StringMember(poster, "contactNumber").None?;
    }
  }

  lemma NamePartsJoined()
    ensures NameOf(map["firstName" := Str("A"), "lastName" := Str("B")]) == Some("A B")
  {
    var c := map["firstName" := Str("A"), "lastName" := Str("B")];
    assert StringMember(c, "name").None? && StringMember(c, "fullName").None?;
    assert StringMember(c, "firstName") == Some("A") && StringMember(c, "lastName") == Some("B");
    NameFromParts(c);
    JoinedAB();
  }

  lemma JoinedAB()
    ensures Text.Trim(Text.Trim("A") + " " + Text.Trim("B")) == "A B"
  {
    Text.TrimFixesTrimmed("A");
    Text.TrimFixesTrimmed("B");
    var joined := "A" + " " + "B";
    assert |joined| == 3 && joined[0] == 'A' && joined[1] == ' ' && joined[2] == 'B';
    assert Text.Trimmed(joined);
    Text.TrimFixesTrimmed(joined);
  }

  /** Without a string `name` or `fullName`, the name is assembled from the
      trimmed first and last names, each "" when it is not a string, and
      trimmed again; an empty result is no name. */
  lemma NameFromParts(c: map<string, Json>)
    requires StringMember(c, "name").None? && StringMember(c, "fullName").None?
    ensures var first := if StringMember(c, "firstName").Some? then Text.Trim(StringMember(c, "firstName").value) else "";
            var last := if StringMember(c, "lastName").Some? then Text.Trim(StringMember(c, "lastName").value) else "";
            var full := Text.Trim(first + " " + last);
            NameOf(c) == if full == "" then None else Some(full)
  {
  }

  /** A record with only one of the two name parts as a string is named by
      that part, trimmed, and has no name when the part is blank. */
  lemma NameFromOnePart(c: map<string, Json>, part: string)
    requires StringMember(c, "name").None? && StringMember(c, "fullName").None?
    requires (StringMember(c, "firstName") == Some(part) && StringMember(c, "lastName").None?)
             || (StringMember(c, "firstName").None? && StringMember(c, "lastName") == Some(part))
    ensures NameOf(c) == if Text.Trim(part) == "" then None else Some(Text.Trim(part))
  {
    Text.TrimSpec(part);
    Text.TrimPadded(Text.Trim(part));
    assert Text.Trim(part) + " " + "" == Text.Trim(part) + " ";
    assert "" + " " + Text.Trim(part) == " " + Text.Trim(part);
  }

  /** `{firstName: " Ann "}` is named "Ann". */
  lemma FirstNameOnly()
    ensures NameOf(map["firstName" := Str(" Ann ")]) == Some("Ann")
  {
    var c := map["firstName" := Str(" Ann ")];
    assert Text.Trim(" Ann ") == "Ann" by {
      assert " Ann "[1..] == "Ann ";
      assert Text.TrimStart(" Ann ") == "Ann ";
      assert "Ann "[..3] == "Ann";
      assert Text.TrimEnd("Ann ") == "Ann";
    }
    NameFromOnePart(c, " Ann ");
  }

  /** An empty object has no seller. */
  lemma NoSellerInEmptyObject()
    ensures PickSellerDetails(Obj(map[])) == None
  {
    var empty: map<string, Json> := map[];
    assert NameOf(empty).None? && EmailOf(empty).None? && MobileOf(empty).None? by {
      assert StringMember(empty, "name").None? && StringMember(empty, "fullName").None?;
      assert StringMember(empty, "firstName").None? && StringMember(empty, "lastName").None?;
      assert StringMember(empty, "email").None? && StringMember(empty, "mail").None?;
      assert StringMember(empty, "mobile").None? && StringMember(empty, "phone").None?;
      assert StringMember(empty, "phoneNumber").None? && StringMember(empty, "contactNumber").None?;
    }
    assert !Qualifies(empty);
    assert SellerCandidates(empty) == [empty];
  }
}
